=== FILE: README.md ===
# Student mistake helper: a Dafny model of the server routes

This project models the server side of a homework-correction web application. A student photographs
homework, an OCR route turns the image into Question rows, and a correction route grades each
question with a hosted language model. A wrong answer becomes a Mistake, counted per question, and
raises global knowledge-point counters. Practice sheets are generated from the student's mistakes.
Listing and statistics routes read all of this back.

The hosted model calls, `JSON.parse`, `fetch`, the clock, the random key part and the database's id
generator are not computed here. They are inputs:

- a reply is an `Option<string>`, where `None` means the call threw;
- a parser is a function `string -> Option<T>`;
- a write that throws is a fault value;
- time is a number of milliseconds.

Each route is a pure function `Store × request → Store × reply`. A reply datatype has one
constructor per HTTP outcome, and `Status()` gives its code.

The store (`Entities.Store`) holds the five tables as sequences in storage order. `Entities.Valid`
holds the database's unique constraints:

- every table's primary key;
- one Mistake per question;
- one knowledge-point counter per `(name, subject)`.

Every writing route keeps `Valid`.

Modules follow the program:

| module | models |
|---|---|
| `Correction`, `CorrectionPrompt`, `JsonText` | the grading route, its prompt, the JSON-span cut and `JSON.stringify` of string lists |
| `Ocr` | the recognition route |
| `PracticeGenerate` | practice generation |
| `MistakeList`, `KnowledgeList`, `HomeworkRoutes`, `PracticeList` | the listing routes and homework creation |
| `Statistics` | the statistics route |
| `Oss`, `Upload` | the object-store helpers and the upload route |
| `Paging`, `Listing` | the shared skip/take/totalPages pagination |
| `Common`, `Text`, `Seqs`, `Sorting`, `Tables` | generic helpers |

Two places where the program's own text promises more than its code does:

- **The trend total.** The comment `// 5. 近7天学习趋势` at src/app/api/statistics/route.ts:44 names
  a seven-day trend. The code at src/app/api/statistics/route.ts:45-75 fetches mistakes created
  since exactly seven days before now, but buckets only today and the six calendar days before it.
  A mistake created on the seventh day back, later in the day than now, is fetched and counted in
  no bucket, so the bucket sum is only at most the number fetched (`Statistics.TrendTotal`, `Statistics.FetchedButNotBucketed`).
- **Homework ownership.** The routes check the owner of what they read: the correction route
  refuses a question of another user's homework at src/app/api/correction/route.ts:36, and the
  recognition route answers 404 for another user's homework at src/app/api/ocr/route.ts:75-92.
  The correction route nevertheless writes the correction status of whatever homework the request
  names, whoever owns it; see Findings.

## Model

| member | source | states |
|---|---|---|
| Correction.SelectOne | src/app/api/correction/route.ts:31-39 | with a question id the selection is exactly that question when it exists and its homework belongs to the caller, and none (404) otherwise |
| Correction.SelectBatch | src/app/api/correction/route.ts:40-49 | with only a homework id a question is selected iff it belongs to that homework, its homework is the caller's and it is still ungraded; each comes with its own homework |
| Correction.Select | src/app/api/correction/route.ts:29-49 | the question id takes priority over the homework id; both selection rules as above |
| Correction.WriteVerdict | src/app/api/correction/route.ts:99-109 | the graded question's row becomes `WithVerdict` of it: isCorrect, correctAnswer, explanation, the serialized knowledge points and difficulty from the verdict, with id, homework, number, type, content, options and answer kept; every other row is unchanged and ids stay unique |
| Correction.UpsertMistake | src/app/api/correction/route.ts:111-143 | a wrong answer raises the question's mistake count by exactly one and leaves it unmastered with a fresh timestamp; an existing row changes only in count, `mastered` and `lastMistakeAt`; when the question had none, exactly one row is appended: the caller's, for this question, with the homework's subject, the question's type, content and answer (empty when missing), the verdict's answer, explanation, serialized knowledge points and difficulty, count 1 and both times now; other questions' mistakes are kept; at most one Mistake per question is preserved; the insert fails only when the new id is taken |
| Correction.Bump | src/app/api/correction/route.ts:147-163 | one upsert raises the `(name, subject)` counter by exactly one (a new row starts at 1 with the generated description); that row is stamped now and keeps its description; every row under another key is kept whole and no row is invented |
| Correction.BumpAll | src/app/api/correction/route.ts:145-164 | after the loop each name's counter in the homework's subject has grown by its number of occurrences in the list, duplicates included; counters of other subjects are untouched; every row under a key outside the loop is kept whole and no such row is invented; each bumped row is stamped now and keeps its description |
| Correction.RecordMistake | src/app/api/correction/route.ts:111-165 | the writes of a wrong verdict succeed iff no write faults and the Mistake insert does not clash; on success mistake count +1 and counters as above; once the upsert goes through for a question without a Mistake, the appended row is the caller's new Mistake |
| Correction.GradeOne | src/app/api/correction/route.ts:65-177 | one question yields a results entry iff a verdict was parsed and every write went through; no verdict means no write at all; the question row is written even if a later write fails; the written row is `WithVerdict` of the old one; a correct verdict leaves Mistakes and counters untouched; a completed wrong verdict on a question without a Mistake appends the caller's new Mistake |
| Correction.GradeAll | src/app/api/correction/route.ts:63-177 | the loop keeps the store valid, touches no homework or practice, and returns at most one entry per selected question, in selection order |
| Correction.GradeAllSplit | src/app/api/correction/route.ts:63-177 | the loop over a list equals the loop over a prefix followed by the loop over the rest, started from the store the prefix leaves; the entries are the two parts' entries in order |
| Correction.EntryIffReaches | src/app/api/correction/route.ts:63-177 | among distinct selected questions, a question has a results entry iff its own grading runs to the end from the store the earlier questions leave; another question's failure neither adds nor removes it |
| Correction.HeadEntry | src/app/api/correction/route.ts:63-177 | the first question of the loop has an entry iff its grading runs to the end from the starting store |
| Correction.UnparsedQuestionSkipped | src/app/api/correction/route.ts:86-97 | a question whose reply has no usable verdict leaves no trace: grading the batch equals grading it without that question |
| Correction.SetCorrectionStatus | src/app/api/correction/route.ts:56-61 | the status write changes only the named homework's correction status |
| Correction.GradeBatch | src/app/api/correction/route.ts:55-185 | with a target homework its status ends COMPLETED and every other homework is unchanged; without one no homework is written |
| Correction.Handle | src/app/api/correction/route.ts:11-197 | 401, 500 (not configured), 500 (body not JSON) and 400 (no id) in that order, each with the store unchanged; 404 iff the named question is not the caller's; the empty batch iff no ungraded question of the caller's is in the homework, with nothing written; a graded batch marks the named homework COMPLETED |
| Correction.GradeSelected | src/app/api/correction/route.ts:55-61 | a named homework that does not exist makes the first status write throw: 500 and nothing written |
| Correction.Post | src/app/api/correction/route.ts:179-185 | as written: after grading, the named homework's status is COMPLETED whoever owns it, and no other homework's status changes |
| Correction.ForeignHomeworkMarked | src/app/api/correction/route.ts:31-61 | a caller grading their own question while naming another user's homework gets that homework marked COMPLETED |
| Correction.PostOwned | src/app/api/correction/route.ts:179-185 | with the owner check added, no homework of another user is ever written |
| Correction.WritableIsOwn | src/app/api/correction/route.ts:56-61 | under the owner check, the only row the status writes can reach is the caller's |
| CorrectionPrompt.BuildCorrectionUserPrompt | src/lib/prompts/correction.ts:38-52 | the message holds the header, the instruction line and each field after its label, with an empty answer shown as `(未作答)` |
| CorrectionPrompt.PromptLines | src/lib/prompts/correction.ts:38-52 | the prompt's lines are the header, a blank line, subject, type, content and answer after their labels in that order, a blank line and the instruction line |
| CorrectionPrompt.PromptFieldsRoundTrip | src/lib/prompts/correction.ts:44-51 | reading each labelled line back gives the field that was filled in; an empty answer reads back as `(未作答)` |
| CorrectionPrompt.PromptFrame | src/lib/prompts/correction.ts:44-51 | whatever the fields hold, the prompt starts with the header line and ends with the instruction line; only an empty answer is replaced by the placeholder |
| CorrectionPrompt.LinesOfJoin | src/lib/prompts/correction.ts:44-51 | splitting the template text at newlines gives back its lines when none of them holds a newline |
| JsonText.ExtractJson | src/app/api/correction/route.ts:88-93 | the span runs from the first `{` to the last `}`, and there is none iff no `{` precedes a `}` |
| JsonText.SerializedContainsEntry | src/app/api/mistakes/route.ts:35-39 | the stored list contains each entry in quoted form, and plain entries verbatim, so the substring filter finds it |
| Ocr.ResolveImage | src/app/api/ocr/route.ts:13-34 | a `data:` URL is passed through without download; otherwise the result exists iff the download succeeds, and it is always a `data:` URL |
| Ocr.SignExpires | src/app/api/ocr/route.ts:41 | the signed URL expires one hour after now, in whole seconds |
| Ocr.StringToSignLines | src/app/api/ocr/route.ts:43 | the string-to-sign splits into `GET`, two empty lines, the expiry and `/bucket/key`, and the expiry reads back as the number it was made from |
| Ocr.FromOcr | src/app/api/ocr/route.ts:152-159 | a created question is ungraded, in the homework, copies number, type, content and answer, and stores options serialized or null |
| Ocr.CreateQuestions | src/app/api/ocr/route.ts:149-161 | existing questions are kept first, then one row per item in order; nothing is created for an empty list; the insert fails iff an id clashes |
| Ocr.Start | src/app/api/ocr/route.ts:94-98 | the homework becomes PROCESSING whatever its status was, and nothing else changes |
| Ocr.Recognize | src/app/api/ocr/route.ts:100-161 | the recognition fails iff the image, the model call, the JSON span, the parse or the question insert fails; on success the homework gets the raw reply, the result, COMPLETED and the reported subject, and the questions are appended |
| Ocr.Process | src/app/api/ocr/route.ts:94-174 | the outcome is Failed (500) exactly on the failures above, with status FAILED and no new question; otherwise COMPLETED with the reply, result, subject and the appended questions; only the one homework and the questions change |
| Ocr.Post | src/app/api/ocr/route.ts:53-92 | 401, 500 (not configured), 500 (body not JSON), 400 (a missing field) and 404 (absent or foreign homework) in that order, each with the store unchanged; otherwise the caller's homework is processed |
| PracticeGenerate.References | src/app/api/practice/generate/route.ts:22-50 | an explicit mistake id wins and must be the caller's (else 404); then knowledge point with subject (on-topic unmastered mistakes, at most 5); then the general review (unmastered mistakes, at most 10) |
| PracticeGenerate.Ranked | src/app/api/practice/generate/route.ts:40-48 | exactly the limit or all candidates, whichever is fewer, each row at most as often as among the candidates; highest mistake counts first; no left-out row outranks a taken one, and a short result holds every candidate |
| PracticeGenerate.ReferencesOwned | src/app/api/practice/generate/route.ts:22-50 | every reference mistake is one of the caller's own rows |
| PracticeGenerate.PromptDescribesReferences | src/app/api/practice/generate/route.ts:57-71 | every reference mistake, with its content, is described in the generation prompt |
| PracticeGenerate.PromptOpensWithCount | src/app/api/practice/generate/route.ts:61-63 | the prompt opens with the fixed preamble and the requested question count |
| PracticeGenerate.Title | src/app/api/practice/generate/route.ts:99 | the model's title when non-empty, else the subject's label followed by `专项练习`, with `综合` when the subject is missing or has no label |
| PracticeGenerate.SubjectLabel | src/app/api/practice/generate/route.ts:125-129 | exactly the ten listed subject codes have a label, and every label is non-empty and differs from `综合` |
| PracticeGenerate.TotalScore | src/app/api/practice/generate/route.ts:103 | the model's total when non-zero, else ten points per question |
| PracticeGenerate.Generate | src/app/api/practice/generate/route.ts:73-93 | a sheet is read iff the model answered, its reply has a JSON span and that parses |
| PracticeGenerate.NewPractice | src/app/api/practice/generate/route.ts:96-105 | the stored practice is the caller's, PENDING, unscored, with the request's type (default SIMILAR), the request's subject or the first reference's, the title and total fallbacks |
| PracticeGenerate.Post | src/app/api/practice/generate/route.ts:8-123 | 401 iff no session; 500 iff not configured; 500 for a body that is not JSON; then 404 iff the explicit mistake is not found and 400 iff there are no references; with references, a failed model call is 500, an unreadable reply is 500 (and only then `SheetUnreadable`), a sheet without questions or an id clash is 500, and a practice is created iff the sheet has questions and the id is free; nothing is written unless exactly that one practice is appended |
| PracticeGenerate.CreatedIsStored | src/app/api/practice/generate/route.ts:96-114 | the practice a reply reports is found under its id: the caller's, PENDING, with the reported title and question count, after the rows that were already there |
| MistakeList.Get | src/app/api/mistakes/route.ts:6-71 | a page is exactly rows `(page-1)*limit` onward, at most `limit` of them, of the caller's mistakes that pass the filter, ordered unmastered first, then count and recency descending; the pagination counts the same filter; page 0 is a server error |
| MistakeList.EveryMatchListed | src/app/api/mistakes/route.ts:23-53 | every mistake the filter admits appears on some page |
| MistakeList.MasteredLast | src/app/api/mistakes/route.ts:44-48 | no unmastered mistake follows a mastered one |
| MistakeList.OtherMasteredValueMeansUnmastered | src/app/api/mistakes/route.ts:31-33 | any `mastered` value other than `true` lists only unmastered mistakes |
| KnowledgeList.Ranking | src/app/api/knowledge/route.ts:18-34 | exactly 50 points, or all matching points when fewer match, each matching the subject and name filters and none more often than the table holds it, in the chosen order; no matching point left out ranks before a listed one |
| KnowledgeList.DefaultRanksByCount | src/app/api/knowledge/route.ts:14-32 | by default the listing is by mistake count, highest first |
| KnowledgeList.OtherSortRanksByRecency | src/app/api/knowledge/route.ts:30-32 | any other `sortBy` orders by last update, newest first |
| KnowledgeList.SubjectStats | src/app/api/knowledge/route.ts:36-41 | a subject is reported iff the caller has an unmastered mistake in it, with the number of them |
| KnowledgeList.SameForEveryUser | src/app/api/knowledge/route.ts:18-34 | the knowledge-point listing does not depend on the caller |
| KnowledgeList.Get | src/app/api/knowledge/route.ts:6-49 | 401 without a session; otherwise the ranking and the subject statistics |
| HomeworkRoutes.Validate | src/app/api/homework/route.ts:6-14 | a body is accepted iff every field passes; a rejection reports the earliest failing field in schema order |
| HomeworkRoutes.ValidIff | src/app/api/homework/route.ts:6-14 | a body passes iff title and path are non-empty, the subject is one of the ten and the image URL is a URL |
| HomeworkRoutes.NewRecord | src/app/api/homework/route.ts:88-98 | the created record belongs to the caller, carries the validated title, subject, image URL and image path, has both statuses PENDING and no recognition output, and is stamped with the creation time |
| HomeworkRoutes.Post | src/app/api/homework/route.ts:75-117 | 401, then 400 with the first issue iff validation fails, 500 for a non-JSON body or id clash; a created homework is the caller's with both statuses PENDING and is the only change |
| HomeworkRoutes.Get | src/app/api/homework/route.ts:17-72 | a page is exactly rows `(page-1)*limit` onward, at most `limit` of them, of the caller's homework of the filtered subject, newest first, each with its questions' summaries; the pagination counts the same filter |
| HomeworkRoutes.QuestionsOf | src/app/api/homework/route.ts:43-50 | a homework is listed with one summary per question of that homework, in table order, and no other summaries |
| HomeworkRoutes.NoForeignHomework | src/app/api/homework/route.ts:32-35 | another user's homework never appears in a listing |
| HomeworkRoutes.EveryOwnHomeworkListed | src/app/api/homework/route.ts:32-54 | every homework of the caller that the subject filter admits appears on some page |
| HomeworkRoutes.CreatedIsListed | src/app/api/homework/route.ts:88-103 | a created homework is listed for its owner, unfiltered or under its own subject |
| PracticeList.Get | src/app/api/practice/route.ts:6-43 | a page holds listed forms of the caller's sheets in the asked status, newest first, at most `limit`; an unknown status or page 0 is a server error; the pagination counts the same filter |
| PracticeList.ItemOf | src/app/api/practice/route.ts:32-36 | a listed sheet keeps every column but its questions and reports their number |
| PracticeList.StatusFilterExact | src/app/api/practice/route.ts:18-29 | every sheet of the caller's in a status is listed on some page of that status filter |
| Paging.Window | src/app/api/mistakes/route.ts:49-50 | a page is the `limit` rows from `(page-1)*limit` on, fewer only at the end; a negative skip is refused |
| Paging.TotalPages | src/app/api/mistakes/route.ts:61 | `totalPages` is the least number of pages of `limit` rows that hold `total`; a zero limit gives null |
| Paging.PageNonEmptyIffWithinTotal | src/app/api/mistakes/route.ts:49-61 | a page has rows iff its number is at most `totalPages` |
| Paging.RowOnSomePage | src/app/api/mistakes/route.ts:49-50 | every row lies on some page |
| Listing.Paged | src/app/api/mistakes/route.ts:41-62 | a page holds only rows matching the filter, sorted, at most `limit`; the total counts the same filter; page 0 with a positive limit fails |
| Listing.EarlierPageRanksFirst | src/app/api/mistakes/route.ts:44-50 | a row on an earlier page ranks no later than a row on a later page |
| Statistics.OverviewOf | src/app/api/statistics/route.ts:15-97 | the counts are the caller's mistakes, mastered mistakes, homework and completed practices; unmastered is total minus mastered and equals the count of unmastered mistakes; the rate is the rounded mastery rate of those two counts, in 0..100 and 0 without mistakes |
| Statistics.RoundDiv | src/app/api/statistics/route.ts:94 | `Math.round` of a quotient: the integer within one half of it, halves rounded up; a negative divisor gives the quotient's own rounding |
| Statistics.MasteryRate | src/app/api/statistics/route.ts:94 | the rate is 100·mastered/total rounded half-up, 0 without mistakes, and within 0..100 |
| Statistics.Percent | src/app/api/statistics/route.ts:112 | the percentage is 100·score/total rounded half-up, null for a zero total, within 0..100 when the score is within the total |
| Statistics.Buckets | src/app/api/statistics/route.ts:59-75 | one bucket per consecutive day, oldest first, each counting the times on its day |
| Statistics.Trend | src/app/api/statistics/route.ts:59-79 | exactly seven buckets, for six days ago through today |
| Statistics.TrendTotal | src/app/api/statistics/route.ts:45-75 | the created buckets together count the fetched times falling on one of the seven days, hence at most the number fetched |
| Statistics.FetchedButNotBucketed | src/app/api/statistics/route.ts:45-70 | a mistake fetched as less than seven days old can fall on the day before the oldest bucket and be counted nowhere |
| Statistics.CreatedSince | src/app/api/statistics/route.ts:48-51 | the trend's input holds one creation time per mistake of the caller's created since the cutoff, in row order, and no other time |
| Statistics.MasteredSince | src/app/api/statistics/route.ts:53-56 | the mastered trend's input holds one last-mistake time per mastered mistake of the caller's whose last mistake is since the cutoff, in row order, and no other time |
| Statistics.TopKnowledge | src/app/api/statistics/route.ts:37-42 | ten knowledge points, or all with a positive count when fewer, each at most as often as among them, highest first; a left-out positive one means ten were taken, none of them lower |
| Statistics.RecentScored | src/app/api/statistics/route.ts:82-87 | ten of the caller's completed, scored sheets, or all of them when fewer, each at most as often as among them (exactly as often when there are at most ten), most recently completed first; none left out is more recent |
| Statistics.PracticeScores | src/app/api/statistics/route.ts:82-114 | one score entry per recent scored sheet, in the same order, each the entry of that sheet |
| Statistics.EveryScoreListed | src/app/api/statistics/route.ts:82-114 | with at most ten scored sheets, every one of the caller's scored sheets has its entry, one entry per sheet |
| Statistics.SubjectCounts | src/app/api/statistics/route.ts:23-27 | a subject is reported iff the caller has a mistake in it, with their number |
| Statistics.TypeCounts | src/app/api/statistics/route.ts:30-34 | a question type is reported iff the caller has a mistake of it, with their number |
| Statistics.Get | src/app/api/statistics/route.ts:5-115 | 401 without a session; otherwise the overview, the subject and type counts, the top points, the seven-day trend from `now` minus seven days and the recent scores, each as its own member states it |
| Oss.GenerateUploadSignature | src/lib/oss.ts:35-78 | the directory is `homework/<user>/<year>/<month>/`; the key starts with it and ends with `.` and the extension; the policy admits 0 to 10 MiB under the directory until an hour from now; `expire` is that time in whole seconds; the host comes from the settings and the access id is the key id as set, absent when unset; signing fails only without a secret |
| Oss.ConfiguredStoreSigns | src/lib/oss.ts:15-21 | with all four settings present and non-empty, signing always succeeds and the policy carries the non-empty access key id |
| Oss.Extension | src/lib/oss.ts:43 | the extension is the last dot-segment with its case kept, or `jpg` when that is empty |
| Oss.KeyExtension | src/lib/oss.ts:43-44 | the key's own last dot-segment is the file's extension |
| Oss.PolicyAdmitsOwnKey | src/lib/oss.ts:51-57 | the policy admits its own key at exactly the sizes from 0 to 10 MiB |
| Oss.DirsOfUsersDisjoint | src/lib/oss.ts:40 | directories of two different users (ids without a slash) never nest |
| Oss.PolicyConfinesToUser | src/lib/oss.ts:40-57 | a policy issued to one user admits no key issued to another |
| Oss.ExpireSeconds | src/lib/oss.ts:47-48 | `expire` is the floor of one hour from now in seconds |
| Upload.Post | src/app/api/upload/route.ts:5-55 | 401, 500 (store not configured), 500 (body not JSON), 400 (no file name) and 400 (extension not allowed) in that order; otherwise exactly the signature for the caller |
| Upload.GuardsPassedMeansSigned | src/app/api/upload/route.ts:45-47 | every request that passes the guards is signed |
| Upload.AllowedNameKeepsExtension | src/app/api/upload/route.ts:35-37 | a name that passes the check is stored under its own last dot-segment, which lower-cased is an allowed image extension; the `jpg` default is never reached |
| Upload.UpperCaseExtensionAllowed | src/app/api/upload/route.ts:36-37 | `photo.JPG` is accepted |
| Upload.OnlyLastSegmentChecked | src/app/api/upload/route.ts:36-37 | `image.jpg.exe` is refused: only the last segment counts |
| Upload.DotlessNameJudgedWhole | src/app/api/upload/route.ts:36-37 | a name without a dot is judged as a whole: `png` passes, `photo` does not |
| Upload.TrailingDotRefused | src/app/api/upload/route.ts:36-37 | `photo.` has an empty extension and is refused |
| Upload.SignedKeyKeepsExtension | src/app/api/upload/route.ts:35-47 | a signed key keeps the caller's extension as written, which is an allowed one, lies in the caller's directory and is capped at 10 MiB |

## Left out

- Hosted model calls, `JSON.parse` and `fetch` are inputs. What the models decide is not modelled.
- The database is modelled as in-memory tables:
  - no transactions;
  - `Promise.all` is taken as sequential reads;
  - `findUnique` and `count` are lookups and lengths.
- Auth is an `Option<UserId>` input.
- HTTP plumbing is not modelled: error message texts are not modelled, and only the outcome and
  payload shape are kept.
- Crypto is not modelled: HMAC-SHA1 signatures, base64 policy text, `crypto.randomBytes` (a
  `nonce` parameter) and the image's base64 encoding (the download's `base64` field).
- Dates are not modelled:
  - times are milliseconds and a day is `t / 86400000`, the UTC calendar day;
  - "seven days ago" is now minus seven days, ignoring local-time daylight shifts;
  - the OSS year and month are clock inputs;
  - one clock serves every `new Date()` and `Date.now()` of a request.
- `Math.round` on floats is exact half-up rounding of the rational value; floating-point error is not
  modelled.
- `parseInt` is not modelled. Page and limit are naturals, so NaN and negative values are out of the
  model. Query parameters are `Option<string>`, with `None` for absent.
- Prisma's enum checks on subject, question type and practice type are not modelled, and those
  columns are text. A practice-status filter that names no status is modelled as the client's
  error (500).
- Zod's `url()` is an abstract predicate. Its message texts are left out: an issue is a field and a
  problem kind.
- A `fileName` that is not a string is not modelled. `toLowerCase` is ASCII-only.
- Column projection (`select`) is not modelled. Listings return whole rows, except the homework
  question summaries and the practice items.
- A practice's question list is a sequence. `JSON.parse(p.questions).length` is its length.
- The correction route's `errorType` and `steps` fields are carried in the verdict but not stored.
- The constant prompt texts of OCR, knowledge and practice generation are not modelled. The
  generation preamble is an input.
- Practice submission and answer scoring are not part of this model. Neither are `createOSSClient`,
  `generateSignedUrl` or `deleteFile`, which are client wrappers with no logic of their own.
- The `completedAt` ordering puts sheets without a completion time last. Where the database places
  nulls is not modelled.
- Correction.Handle: the intermediate PROCESSING status is stated on `SetCorrectionStatus` and not
  on the route's final state, which only shows COMPLETED.
- MistakeList.EveryMatchListed: the model fixes one order among rows the sort keys tie on and keeps it across page requests. The database promises no stable order for tied rows under OFFSET, so a tied row could be skipped or shown twice across pages.
- HomeworkRoutes.EveryOwnHomeworkListed: the same fixed tie order is assumed for homework with equal creation times.
- PracticeList.StatusFilterExact: the same fixed tie order is assumed for sheets with equal creation times.
- Listing.EveryMatchOnSomePage: it holds for the one order the model sorts by. Every page request sorts anew, and the database may order tied rows differently each time.
- Ocr.Process: likewise the PROCESSING write is stated on `Ocr.Start`; the final state shows
  COMPLETED or FAILED.
- Correction.Bump: the `updatedAt` stamp on an upserted counter, and a new Mistake's count 1, `mastered` false and timestamps, follow the database schema's defaults and `@updatedAt`. The schema file is not part of this model, so these columns are modelled as the usual Prisma defaults.
- Ocr.Process: the 60-second execution limit (`maxDuration` at src/app/api/ocr/route.ts:10) is not
  modelled. A request the platform cuts off runs no catch block, so the homework stays PROCESSING
  instead of becoming FAILED, and none of the recognition writes happens.
- Correction.GradeBatch: the 60-second execution limit (`maxDuration` at
  src/app/api/correction/route.ts:8) is not modelled. A request cut off mid-loop keeps the writes of
  the questions already graded, and the homework stays PROCESSING instead of becoming COMPLETED.

## Findings

| source | as written | input that shows it | evidently intended | confidence | as-written member | corrected member |
|---|---|---|---|---|---|---|
| src/app/api/correction/route.ts:179-185 | the status writes update the homework named by `homeworkId` without checking its owner, while ownership is checked only on the question | alice sends `{homeworkId: "h2", questionId: "q1"}`, where q1 is their own question and h2 is bob's PENDING homework; h2 becomes COMPLETED | a caller's request writes only the caller's own homework | not executed | Correction.ForeignHomeworkMarked | Correction.PostOwned |

=== FILE: collections.dfy ===
/** Query building blocks over a table's rows: filtering, counting and grouping (the database's
    `where`, `count` and `groupBy`). */
module Seqs {

  /** `where`: the rows satisfying `p`, in their original order. */
  function Filter<T(!new)>(xs: seq<T>, p: T -> bool): (r: seq<T>)
    ensures |r| <= |xs|
    ensures forall x :: x in r <==> x in xs && p(x)
    ensures multiset(r) <= multiset(xs)
    decreases |xs|
  {
    if |xs| == 0 then []
    else
      var rest := Filter(xs[1..], p);
      assert xs == [xs[0]] + xs[1..];
      if p(xs[0]) then [xs[0]] + rest else rest
  }

  /** Filtering a concatenation filters each part. */
  lemma {:induction false} FilterAppend<T(!new)>(xs: seq<T>, ys: seq<T>, p: T -> bool)
    ensures Filter(xs + ys, p) == Filter(xs, p) + Filter(ys, p)
    decreases |xs|
  {
    if |xs| == 0 {
      assert xs + ys == ys;
    } else {
      assert (xs + ys)[1..] == xs[1..] + ys;
      FilterAppend(xs[1..], ys, p);
    }
  }

  /** Filtering keeps every copy of a selected row and no copy of any other. */
  lemma {:induction false} FilterCount<T(!new)>(xs: seq<T>, p: T -> bool, x: T)
    ensures multiset(Filter(xs, p))[x] == if p(x) then multiset(xs)[x] else 0
    decreases |xs|
  {
    if |xs| > 0 {
      FilterCount(xs[1..], p, x);
      assert xs == [xs[0]] + xs[1..];
    }
  }

  /** How many rows have key `k`. */
  function CountKey<T, K(==)>(xs: seq<T>, key: T -> K, k: K): nat
    decreases |xs|
  {
    if |xs| == 0 then 0
    else (if key(xs[0]) == k then 1 else 0) + CountKey(xs[1..], key, k)
  }

  /** A key occurs in the rows exactly when its count is positive. */
  lemma {:induction false} CountKeyPositive<T, K>(xs: seq<T>, key: T -> K, k: K)
    ensures CountKey(xs, key, k) > 0 <==> exists i :: 0 <= i < |xs| && key(xs[i]) == k
    decreases |xs|
  {
    if |xs| > 0 {
      CountKeyPositive(xs[1..], key, k);
      if exists i :: 0 <= i < |xs[1..]| && key(xs[1..][i]) == k {
        var i :| 0 <= i < |xs[1..]| && key(xs[1..][i]) == k;
        assert key(xs[i + 1]) == k;
      }
      if exists i :: 0 <= i < |xs| && key(xs[i]) == k {
        var i :| 0 <= i < |xs| && key(xs[i]) == k;
        assert i == 0 || key(xs[1..][i - 1]) == k;
      }
    }
  }

  /** `groupBy(key)` with `_count`: every key present in the rows, mapped to its number of rows. */
  function GroupCount<T, K(==,!new)>(xs: seq<T>, key: T -> K): (r: map<K, nat>)
    ensures forall k :: k in r <==> exists i :: 0 <= i < |xs| && key(xs[i]) == k
    ensures forall k :: k in r ==> r[k] == CountKey(xs, key, k) && r[k] > 0
    decreases |xs|
  {
    if |xs| == 0 then map[]
    else
      var rest := GroupCount(xs[1..], key);
      var k0 := key(xs[0]);
      var r := rest[k0 := if k0 in rest then rest[k0] + 1 else 1];
      assert forall k :: k in r <==> exists i :: 0 <= i < |xs| && key(xs[i]) == k by {
        forall k ensures k in r <==> exists i :: 0 <= i < |xs| && key(xs[i]) == k {
          CountKeyPositive(xs, key, k);
          CountKeyPositive(xs[1..], key, k);
        }
      }
      forall k | k in r ensures r[k] == CountKey(xs, key, k) {
        CountKeyPositive(xs[1..], key, k);
      }
      r
  }

  /** How many rows satisfy `p` and have key `k`. */
  function CountWhere<T, K(==)>(xs: seq<T>, p: T -> bool, key: T -> K, k: K): nat
    decreases |xs|
  {
    if |xs| == 0 then 0
    else (if p(xs[0]) && key(xs[0]) == k then 1 else 0) + CountWhere(xs[1..], p, key, k)
  }

  /** Grouping the filtered rows counts, per key, the rows that pass the filter. */
  lemma {:induction false} CountKeyFilter<T(!new), K>(xs: seq<T>, p: T -> bool, key: T -> K, k: K)
    ensures CountKey(Filter(xs, p), key, k) == CountWhere(xs, p, key, k)
    decreases |xs|
  {
    if |xs| > 0 {
      CountKeyFilter(xs[1..], p, key, k);
      var rest := Filter(xs[1..], p);
      if p(xs[0]) {
        assert ([xs[0]] + rest)[1..] == rest;
      }
    }
  }

  /** `groupBy(key)` with `_count` over the rows satisfying `p`: the keys of those rows, each with
      how many of them have it. */
  function GroupWhere<T(!new), K(==,!new)>(xs: seq<T>, p: T -> bool, key: T -> K): (r: map<K, nat>)
    ensures forall k :: k in r <==> exists x :: x in xs && p(x) && key(x) == k
    ensures forall k :: k in r ==> r[k] == CountWhere(xs, p, key, k)
  {
    var sel := Filter(xs, p);
    var r := GroupCount(sel, key);
    forall k | k in r ensures r[k] == CountWhere(xs, p, key, k) {
      CountKeyFilter(xs, p, key, k);
    }
    assert forall k :: k in r <==> exists x :: x in sel && key(x) == k by {
      forall k ensures k in r <==> exists x :: x in sel && key(x) == k {
        if k in r {
          var i :| 0 <= i < |sel| && key(sel[i]) == k;
          assert sel[i] in sel;
        }
        if exists x :: x in sel && key(x) == k {
          var x :| x in sel && key(x) == k;
          var i :| 0 <= i < |sel| && sel[i] == x;
        }
      }
    }
    r
  }

  /** Filters that split `p` into two disjoint parts split its count. */
  lemma {:induction false} FilterSplit<T(!new)>(xs: seq<T>, p: T -> bool, yes: T -> bool, no: T -> bool)
    requires forall x :: p(x) == (yes(x) || no(x)) && !(yes(x) && no(x))
    ensures |Filter(xs, p)| == |Filter(xs, yes)| + |Filter(xs, no)|
    decreases |xs|
  {
    if |xs| > 0 {
      FilterSplit(xs[1..], p, yes, no);
    }
  }

  /** A stricter filter keeps no more rows. */
  lemma {:induction false} FilterStricter<T(!new)>(xs: seq<T>, p: T -> bool, q: T -> bool)
    requires forall x :: q(x) ==> p(x)
    ensures |Filter(xs, q)| <= |Filter(xs, p)|
    decreases |xs|
  {
    if |xs| > 0 {
      FilterStricter(xs[1..], p, q);
    }
  }

  /** The sum of a sequence of naturals. */
  function Sum(xs: seq<nat>): nat
    decreases |xs|
  {
    if |xs| == 0 then 0 else xs[0] + Sum(xs[1..])
  }
}

/** Ordering rows: `orderBy` as an insertion sort under a total preorder. Rows the order ranks
    equal may come out in either order, as with the database. */
module Sorting {

  /** `le` ranks every pair of rows one way or the other, consistently: a total preorder. */
  ghost predicate Total<T(!new)>(le: (T, T) -> bool) {
    && (forall a, b :: le(a, b) || le(b, a))
    && (forall a, b, c :: le(a, b) && le(b, c) ==> le(a, c))
  }

  /** Every earlier row is ranked no later than every later row. */
  ghost predicate Sorted<T>(xs: seq<T>, le: (T, T) -> bool) {
    forall i, j :: 0 <= i < j < |xs| ==> le(xs[i], xs[j])
  }

  function Insert<T(!new)>(x: T, xs: seq<T>, le: (T, T) -> bool): (r: seq<T>)
    requires Total(le) && Sorted(xs, le)
    ensures Sorted(r, le)
    ensures multiset(r) == multiset(xs) + multiset{x}
    ensures forall z :: z in r <==> z == x || z in xs
    decreases |xs|
  {
    if |xs| == 0 || le(x, xs[0]) then
      assert forall z :: z in xs ==> le(x, z) by {
        if |xs| > 0 { HeadFirst(xs, le); }
      }
      SortedCons(x, xs, le);
      [x] + xs
    else
      var rest := Insert(x, xs[1..], le);
      HeadFirst(xs, le);
      assert forall z :: z in rest ==> le(xs[0], z) by {
        forall z | z in rest ensures le(xs[0], z) {
          if z != x { assert z in xs; }
        }
      }
      assert xs == [xs[0]] + xs[1..];
      SortedCons(xs[0], rest, le);
      [xs[0]] + rest
  }

  /** The first row of a sorted sequence ranks no later than any of its rows. */
  lemma HeadFirst<T(!new)>(xs: seq<T>, le: (T, T) -> bool)
    requires Total(le) && Sorted(xs, le) && |xs| > 0
    ensures forall z :: z in xs ==> le(xs[0], z)
  {
    forall z | z in xs ensures le(xs[0], z) {
      var k :| 0 <= k < |xs| && xs[k] == z;
      if k == 0 { assert le(z, z) || le(z, z); }
    }
  }

  /** A row that ranks no later than every row of a sorted sequence can go in front of it. */
  lemma SortedCons<T>(x: T, xs: seq<T>, le: (T, T) -> bool)
    requires Sorted(xs, le) && forall z :: z in xs ==> le(x, z)
    ensures Sorted([x] + xs, le)
  {
    var r := [x] + xs;
    forall i, j | 0 <= i < j < |r| ensures le(r[i], r[j]) {
      assert r[j] == xs[j - 1];
      if i == 0 {
        assert xs[j - 1] in xs;
      } else {
        assert r[i] == xs[i - 1];
      }
    }
  }

  /** `orderBy`: a sorted permutation of the rows. */
  function Sort<T(!new)>(xs: seq<T>, le: (T, T) -> bool): (r: seq<T>)
    requires Total(le)
    ensures Sorted(r, le)
    ensures multiset(r) == multiset(xs)
    ensures |r| == |xs|
    decreases |xs|
  {
    if |xs| == 0 then []
    else
      var r := Insert(xs[0], Sort(xs[1..], le), le);
      assert xs == [xs[0]] + xs[1..];
      assert |r| == |multiset(r)|;
      r
  }

  /** `orderBy` with `take: k`: the first `k` rows of the order. No row left out ranks before a
      row taken. */
  function TopK<T(!new)>(xs: seq<T>, le: (T, T) -> bool, k: nat): (r: seq<T>)
    requires Total(le)
    ensures |r| == if k < |xs| then k else |xs|
    ensures Sorted(r, le)
    ensures multiset(r) <= multiset(xs)
    ensures k >= |xs| ==> multiset(r) == multiset(xs)
    ensures forall x :: x in r ==> x in xs
    ensures forall x, y :: x in xs && x !in r && y in r ==> le(y, x)
    ensures forall x :: x in xs && x !in r ==> |r| == k
  {
    var s := Sort(xs, le);
    var n := if k < |s| then k else |s|;
    PrefixFacts(xs, s, le, n);
    assert k >= |xs| ==> s[..n] == s;
    s[..n]
  }

  /** What a prefix of a sorted permutation of `xs` keeps of it. */
  lemma PrefixFacts<T>(xs: seq<T>, s: seq<T>, le: (T, T) -> bool, n: nat)
    requires Sorted(s, le) && multiset(s) == multiset(xs) && n <= |s|
    ensures Sorted(s[..n], le)
    ensures multiset(s[..n]) <= multiset(xs)
    ensures forall x :: x in s[..n] ==> x in xs
    ensures forall x, y :: x in xs && x !in s[..n] && y in s[..n] ==> le(y, x)
    ensures forall x :: x in xs && x !in s[..n] ==> n < |s|
  {
    SliceSorted(s, le, 0, n);
    assert s == s[..n] + s[n..];
    forall x | x in s[..n] ensures x in xs {
      assert x in multiset(s);
    }
    forall x | x in xs && x !in s[..n] ensures n < |s| {
      assert x in multiset(s);
      assert s[..|s|] == s;
    }
    forall x, y | x in xs && x !in s[..n] && y in s[..n] ensures le(y, x) {
      assert x in multiset(s);
      var j :| 0 <= j < |s| && s[j] == x;
      var i :| 0 <= i < n && s[..n][i] == y;
      assert j >= n;
    }
  }

  /** A sorted sequence stays sorted when cut to a slice. */
  lemma SliceSorted<T>(xs: seq<T>, le: (T, T) -> bool, a: nat, b: nat)
    requires Sorted(xs, le) && a <= b <= |xs|
    ensures Sorted(xs[a..b], le)
  {
    forall i, j | 0 <= i < j < b - a ensures le(xs[a..b][i], xs[a..b][j]) {
      assert xs[a..b][i] == xs[a + i] && xs[a..b][j] == xs[a + j];
    }
  }
}

/** Tables as sequences of rows with key uniqueness standing in for the database's unique
    constraints. */
module Tables {
  import opened Common

  /** No two rows share a key. */
  ghost predicate Unique<T, K>(rows: seq<T>, key: T -> K) {
    forall i, j :: 0 <= i < j < |rows| ==> key(rows[i]) != key(rows[j])
  }

  /** `findUnique`: the position of the first row with key `k`. */
  function Find<T, K(==)>(rows: seq<T>, key: T -> K, k: K): (r: Option<nat>)
    ensures r.Some? ==> r.value < |rows| && key(rows[r.value]) == k
    ensures r.Some? ==> forall i :: 0 <= i < r.value ==> key(rows[i]) != k
    ensures r.None? <==> forall i :: 0 <= i < |rows| ==> key(rows[i]) != k
    decreases |rows|
  {
    if |rows| == 0 then None
    else if key(rows[0]) == k then Some(0)
    else
      match Find(rows[1..], key, k)
      case None => None
      case Some(i) => Some(i + 1)
  }

  /** Under uniqueness, the row found is the only row with that key. */
  lemma FindUnique<T, K>(rows: seq<T>, key: T -> K, i: nat)
    requires Unique(rows, key) && i < |rows|
    ensures Find(rows, key, key(rows[i])) == Some(i)
  {
  }

  /** Replacing a row by one with the same key keeps the keys unique. */
  lemma ReplaceKeepsUnique<T, K>(rows: seq<T>, key: T -> K, i: nat, row: T)
    requires Unique(rows, key) && i < |rows| && key(row) == key(rows[i])
    ensures Unique(rows[i := row], key)
  {
    var rows' := rows[i := row];
    forall a, b | 0 <= a < b < |rows'| ensures key(rows'[a]) != key(rows'[b]) {
      assert key(rows'[a]) == key(rows[a]) && key(rows'[b]) == key(rows[b]);
    }
  }

  /** Rewriting rows without changing their keys does not move `Find`. */
  lemma {:induction false} FindSameKeys<T, K>(rows: seq<T>, rows': seq<T>, key: T -> K, k: K)
    requires |rows| == |rows'| && forall i :: 0 <= i < |rows| ==> key(rows'[i]) == key(rows[i])
    ensures Find(rows', key, k) == Find(rows, key, k)
    decreases |rows|
  {
    if |rows| > 0 {
      FindSameKeys(rows[1..], rows'[1..], key, k);
    }
  }

  /** Under uniqueness, a row is the only one with its key. */
  lemma OnlyRowWithKey<T, K>(rows: seq<T>, key: T -> K, i: nat)
    requires Unique(rows, key) && i < |rows|
    ensures forall x :: x in rows && key(x) == key(rows[i]) ==> x == rows[i]
  {
    forall x | x in rows && key(x) == key(rows[i]) ensures x == rows[i] {
      var j :| 0 <= j < |rows| && rows[j] == x;
      assert key(rows[j]) == key(rows[i]);
    }
  }

  /** Replacing row `i` keeps every row whose key differs from row `i`'s. */
  lemma ReplaceKeepsOthers<T, K>(rows: seq<T>, key: T -> K, i: nat, row: T)
    requires i < |rows|
    ensures forall x :: x in rows && key(x) != key(rows[i]) ==> x in rows[i := row]
  {
    forall x | x in rows && key(x) != key(rows[i]) ensures x in rows[i := row] {
      var j :| 0 <= j < |rows| && rows[j] == x;
      assert rows[i := row][j] == x;
    }
  }

  /** Appending a row with a key not yet present keeps the keys unique. */
  lemma AppendKeepsUnique<T, K>(rows: seq<T>, key: T -> K, row: T)
    requires Unique(rows, key) && forall i :: 0 <= i < |rows| ==> key(rows[i]) != key(row)
    ensures Unique(rows + [row], key)
  {
    var rows' := rows + [row];
    forall a, b | 0 <= a < b < |rows'| ensures key(rows'[a]) != key(rows'[b]) {
      if b < |rows| {
        assert rows'[a] == rows[a] && rows'[b] == rows[b];
      } else {
        assert rows'[a] == rows[a] && rows'[b] == row;
      }
    }
  }
}

=== FILE: common.dfy ===
/** Option and the JavaScript truthiness of optional request fields, shared by every route. */
module Common {

  /** An optional value: a missing request field, a nullable column, an external call that threw. */
  datatype Option<+T> = None | Some(value: T) {

    /** The value, or `default` when absent. */
    function GetOr(default: T): T {
      match this
      case Some(v) => v
      case None => default
    }
  }

  /** JavaScript truthiness of an optional string: an absent field and "" are both falsy. */
  predicate Given(o: Option<string>) {
    o.Some? && o.value != ""
  }

  /** `o || fallback` for an optional string. */
  function OrElse(o: Option<string>, fallback: string): string {
    if Given(o) then o.value else fallback
  }
}

=== FILE: correction.dfy ===
/** The correction route: pick the questions to grade, grade them one by one with the grading
    model, write each verdict, keep one Mistake per wrongly answered question, count wrong
    answers per knowledge point, and move the homework's correction status along. */
module Correction {
  import opened Common
  import opened Tables
  import opened Seqs
  import opened Entities
  import opened JsonText
  import opened CorrectionPrompt

  /** The request body: either id may be missing. */
  datatype Request = Request(homeworkId: Option<string>, questionId: Option<string>)

  /** The raw body: text `request.json()` cannot read (or JSON `null`, which cannot be
      destructured), or a parsed request. */
  datatype Body = NotJson | Json(req: Request)

  /** Which database write of one question's grading throws, if any. A knowledge-point fault
      at `at` lets the first `at` counter upserts through. */
  datatype Fault = NoFault | QuestionWriteFails | MistakeWriteFails | KnowledgeWriteFails(at: nat)

  /** What the outside world does while one question is graded: the grading model's reply
      (`None`: the call threw), the id the database gives a new Mistake, and the failing write. */
  datatype Attempt = Attempt(reply: Option<string>, newMistakeId: Id, fault: Fault)

  /** One entry of the response's `results`. */
  datatype Entry = Entry(questionId: Id, isCorrect: bool, correctAnswer: string, explanation: string,
                         encouragement: string)

  datatype Reply =
    | Unauthorized
    | NotConfigured
    | MissingIds
    | QuestionNotFound
    | NothingToGrade
    | Graded(results: seq<Entry>)
    | ServerError
  {
    function Status(): int {
      match this
      case Unauthorized => 401
      case NotConfigured => 500
      case MissingIds => 400
      case QuestionNotFound => 404
      case NothingToGrade => 200
      case Graded(_) => 200
      case ServerError => 500
    }
  }

  /** A selected question together with its homework (`include: { homework: true }`). */
  datatype Target = Target(question: Question, homework: Homework)

  /** The question's homework exists and belongs to `user`. */
  predicate OwnedBy(st: Store, q: Question, user: UserId) {
    var h := HomeworkById(st, q.homeworkId);
    h.Some? && h.value.userId == user
  }

  /** The batch selection's filter: a question of homework `hid`, owned by `user`, not yet graded. */
  predicate Ungraded(st: Store, user: UserId, hid: Id, q: Question) {
    q.homeworkId == hid && OwnedBy(st, q, user) && q.isCorrect.None?
  }

  function TargetOf(st: Store, q: Question): Target
    requires HomeworkById(st, q.homeworkId).Some?
  {
    Target(q, HomeworkById(st, q.homeworkId).value)
  }

  function Targets(st: Store, qs: seq<Question>): (r: seq<Target>)
    requires forall q :: q in qs ==> HomeworkById(st, q.homeworkId).Some?
    ensures |r| == |qs|
    ensures forall k :: 0 <= k < |qs| ==> r[k] == TargetOf(st, qs[k])
  {
    seq(|qs|, k requires 0 <= k < |qs| => TargetOf(st, qs[k]))
  }

  /** The selected questions are exactly `qs`, each with its own homework. */
  lemma TargetsCover(st: Store, qs: seq<Question>)
    requires forall q :: q in qs ==> HomeworkById(st, q.homeworkId).Some?
    ensures forall q :: q in qs <==> exists k :: 0 <= k < |qs| && Targets(st, qs)[k].question == q
    ensures forall k :: 0 <= k < |qs| ==>
      HomeworkById(st, Targets(st, qs)[k].question.homeworkId) == Some(Targets(st, qs)[k].homework)
  {
    var r := Targets(st, qs);
    assert forall k :: 0 <= k < |qs| ==> r[k].question == qs[k];
    forall q | q in qs ensures exists k :: 0 <= k < |qs| && r[k].question == q {
      var k :| 0 <= k < |qs| && qs[k] == q;
      assert r[k].question == q;
    }
  }

  /** The questions to grade. With a question id: exactly that question, graded or not, when
      the caller owns it, else `None` (404). Otherwise: the caller's ungraded questions of the
      homework, in storage order. */
  function Select(st: Store, user: UserId, req: Request): (r: Option<seq<Target>>)
    requires Given(req.homeworkId) || Given(req.questionId)
    ensures Given(req.questionId) && Valid(st) ==>
      (r.Some? <==> exists q :: q in st.questions && q.id == req.questionId.value && OwnedBy(st, q, user))
    ensures Given(req.questionId) && r.Some? ==>
      && |r.value| == 1
      && r.value[0].question in st.questions
      && r.value[0].question.id == req.questionId.value
      && OwnedBy(st, r.value[0].question, user)
    ensures !Given(req.questionId) ==> r.Some?
    ensures !Given(req.questionId) && r.Some? ==>
      forall q :: q in st.questions && Ungraded(st, user, req.homeworkId.value, q) <==>
        exists k :: 0 <= k < |r.value| && r.value[k].question == q
    ensures r.Some? ==> forall k :: 0 <= k < |r.value| ==>
      HomeworkById(st, r.value[k].question.homeworkId) == Some(r.value[k].homework)
  {
    if Given(req.questionId) then SelectOne(st, user, req.questionId.value)
    else SelectBatch(st, user, req.homeworkId.value)
  }

  /** The question with id `qid` when the caller owns it. */
  function SelectOne(st: Store, user: UserId, qid: Id): (r: Option<seq<Target>>)
    ensures Valid(st) ==> (r.Some? <==> exists q :: q in st.questions && q.id == qid && OwnedBy(st, q, user))
    ensures r.Some? ==>
      && |r.value| == 1
      && r.value[0].question in st.questions
      && r.value[0].question.id == qid
      && OwnedBy(st, r.value[0].question, user)
      && HomeworkById(st, r.value[0].question.homeworkId) == Some(r.value[0].homework)
  {
    match Find(st.questions, QuestionId, qid)
    case None => None
    case Some(i) =>
      var q := st.questions[i];
      if OwnedBy(st, q, user) then
        Some([TargetOf(st, q)])
      else
        assert Valid(st) ==> forall p :: p in st.questions && QuestionId(p) == QuestionId(q) ==> p == q by {
          if Valid(st) { OnlyRowWithKey(st.questions, QuestionId, i); }
        }
        None
  }

  /** The caller's ungraded questions of homework `hid`, in storage order. */
  function SelectBatch(st: Store, user: UserId, hid: Id): (r: Option<seq<Target>>)
    ensures r.Some?
    ensures forall q :: q in st.questions && Ungraded(st, user, hid, q) <==>
      exists k :: 0 <= k < |r.value| && r.value[k].question == q
    ensures forall k :: 0 <= k < |r.value| ==>
      HomeworkById(st, r.value[k].question.homeworkId) == Some(r.value[k].homework)
  {
    var qs := Filter(st.questions, q => Ungraded(st, user, hid, q));
    assert forall q :: q in qs <==> q in st.questions && Ungraded(st, user, hid, q);
    TargetsCover(st, qs);
    Some(Targets(st, qs))
  }

  /** The question row after the verdict is written onto it. */
  function WithVerdict(q: Question, v: CorrectionResult): (w: Question)
    ensures w.isCorrect == Some(v.isCorrect) && w.correctAnswer == Some(v.correctAnswer)
    ensures w.explanation == Some(v.explanation) && w.difficulty == Some(v.difficulty)
    ensures w.knowledgePoints == Some(SerializeStrings(v.knowledgePoints))
    ensures w.id == q.id && w.homeworkId == q.homeworkId && w.questionNumber == q.questionNumber
    ensures w.questionType == q.questionType && w.content == q.content && w.options == q.options
    ensures w.studentAnswer == q.studentAnswer
  {
    q.(isCorrect := Some(v.isCorrect), correctAnswer := Some(v.correctAnswer),
       explanation := Some(v.explanation), knowledgePoints := Some(SerializeStrings(v.knowledgePoints)),
       difficulty := Some(v.difficulty))
  }

  /** `question.update` with the verdict: only the row with id `qid` changes, and its identity
      and OCR fields are kept. */
  function WriteVerdict(qs: seq<Question>, qid: Id, v: CorrectionResult): (r: seq<Question>)
    ensures |r| == |qs|
    ensures forall i :: 0 <= i < |qs| && qs[i].id != qid ==> r[i] == qs[i]
    ensures forall i :: 0 <= i < |qs| && qs[i].id == qid ==>
      && r[i].isCorrect == Some(v.isCorrect)
      && r[i].id == qs[i].id && r[i].homeworkId == qs[i].homeworkId
      && r[i].content == qs[i].content && r[i].studentAnswer == qs[i].studentAnswer
    ensures forall i :: 0 <= i < |qs| && qs[i].id == qid ==> r[i] == WithVerdict(qs[i], v)
    ensures Unique(qs, QuestionId) ==> Unique(r, QuestionId)
  {
    var r := seq(|qs|, i requires 0 <= i < |qs| => if qs[i].id == qid then WithVerdict(qs[i], v) else qs[i]);
    assert forall i :: 0 <= i < |qs| ==> QuestionId(r[i]) == QuestionId(qs[i]);
    r
  }

  /** The recorded mistake count for question `qid`, 0 when it has no Mistake. */
  function MistakeCountOf(ms: seq<Mistake>, qid: Id): nat {
    match Find(ms, MistakeQuestion, qid)
    case Some(i) => ms[i].mistakeCount
    case None => 0
  }

  /** The Mistake created at a question's first wrong grading (schema defaults: count 1,
      not mastered, both timestamps now). */
  function NewMistake(id: Id, user: UserId, t: Target, v: CorrectionResult, now: int): (m: Mistake)
    ensures m.id == id && m.userId == user && m.questionId == t.question.id
    ensures m.subject == t.homework.subject && m.questionType == t.question.questionType
    ensures m.content == t.question.content && m.studentAnswer == t.question.studentAnswer.GetOr("")
    ensures m.correctAnswer == v.correctAnswer && m.explanation == v.explanation
    ensures m.knowledgePoints == SerializeStrings(v.knowledgePoints) && m.difficulty == v.difficulty
    ensures m.mistakeCount == 1 && !m.mastered && m.lastMistakeAt == now && m.createdAt == now
  {
    Mistake(id, user, t.question.id, t.homework.subject, t.question.questionType, t.question.content,
            t.question.studentAnswer.GetOr(""), v.correctAnswer, v.explanation,
            SerializeStrings(v.knowledgePoints), v.difficulty, 1, false, now, now)
  }

  /** The id is already taken by some Mistake. */
  predicate MistakeIdTaken(ms: seq<Mistake>, id: Id) {
    exists i :: 0 <= i < |ms| && ms[i].id == id
  }

  /** The Mistake upsert of a wrong verdict. An existing Mistake of the question gets its count
      raised by one, its timestamp refreshed and `mastered` reset; otherwise one is created,
      unless its new id is already taken (the insert throws: `None`). */
  function UpsertMistake(ms: seq<Mistake>, user: UserId, t: Target, v: CorrectionResult, newId: Id,
                         now: int): (r: Option<seq<Mistake>>)
    ensures r.None? <==> Find(ms, MistakeQuestion, t.question.id).None? && MistakeIdTaken(ms, newId)
    ensures r.Some? && Unique(ms, MistakeQuestion) ==>
      && Unique(r.value, MistakeQuestion)
      && MistakeCountOf(r.value, t.question.id) == MistakeCountOf(ms, t.question.id) + 1
      && Find(r.value, MistakeQuestion, t.question.id).Some?
      && var m := r.value[Find(r.value, MistakeQuestion, t.question.id).value];
         !m.mastered && m.lastMistakeAt == now
    ensures r.Some? ==> forall m :: m in ms && m.questionId != t.question.id ==> m in r.value
    ensures r.Some? ==> forall m :: m in r.value && m.questionId != t.question.id ==> m in ms
    ensures r.Some? ==> |r.value| == |ms| + (if Find(ms, MistakeQuestion, t.question.id).Some? then 0 else 1)
    ensures r.Some? && Unique(ms, MistakeId) ==> Unique(r.value, MistakeId)
    ensures r.Some? && Find(ms, MistakeQuestion, t.question.id).None? ==>
      r.value == ms + [NewMistake(newId, user, t, v, now)]
    ensures r.Some? && Find(ms, MistakeQuestion, t.question.id).Some? ==>
      var i := Find(ms, MistakeQuestion, t.question.id).value;
      r.value == ms[i := ms[i].(mistakeCount := ms[i].mistakeCount + 1, lastMistakeAt := now, mastered := false)]
  {
    match Find(ms, MistakeQuestion, t.question.id)
    case Some(i) =>
      var m := ms[i].(mistakeCount := ms[i].mistakeCount + 1, lastMistakeAt := now, mastered := false);
      var r := ms[i := m];
      assert Unique(ms, MistakeQuestion) ==>
        Unique(r, MistakeQuestion) && Find(r, MistakeQuestion, t.question.id) == Some(i) by {
        if Unique(ms, MistakeQuestion) {
          ReplaceKeepsUnique(ms, MistakeQuestion, i, m);
          FindUnique(r, MistakeQuestion, i);
        }
      }
      assert Unique(ms, MistakeId) ==> Unique(r, MistakeId) by {
        if Unique(ms, MistakeId) {
          ReplaceKeepsUnique(ms, MistakeId, i, m);
        }
      }
      ReplaceKeepsOthers(ms, MistakeQuestion, i, m);
      Some(r)
    case None =>
      if MistakeIdTaken(ms, newId) then None
      else
        var m := NewMistake(newId, user, t, v, now);
        var r := ms + [m];
        assert Unique(ms, MistakeQuestion) ==>
          Unique(r, MistakeQuestion) && Find(r, MistakeQuestion, t.question.id) == Some(|ms|) by {
          if Unique(ms, MistakeQuestion) {
            AppendKeepsUnique(ms, MistakeQuestion, m);
            FindUnique(r, MistakeQuestion, |ms|);
          }
        }
        assert Unique(ms, MistakeId) ==> Unique(r, MistakeId) by {
          if Unique(ms, MistakeId) {
            AppendKeepsUnique(ms, MistakeId, m);
          }
        }
        Some(r)
  }

  /** The global wrong-answer count of knowledge point `(name, subject)`, 0 when it has no row. */
  function CountOf(kps: seq<KnowledgePoint>, name: string, subject: string): nat {
    match Find(kps, KnowledgeKey, (name, subject))
    case Some(i) => kps[i].mistakeCount
    case None => 0
  }

  /** The description of knowledge point `(name, subject)`: its row's, or the one a created row
      gets. */
  function DescriptionOf(kps: seq<KnowledgePoint>, name: string, subject: string): string {
    match Find(kps, KnowledgeKey, (name, subject))
    case Some(i) => kps[i].description
    case None => name + "相关知识点"
  }

  /** One knowledge-point upsert: create the row at count 1, or raise its count by 1. Either way
      the row is stamped `now` (`@updatedAt`) and keeps the description it has or gets. */
  function Bump(kps: seq<KnowledgePoint>, name: string, subject: string, now: int): (r: seq<KnowledgePoint>)
    requires Unique(kps, KnowledgeKey)
    ensures Unique(r, KnowledgeKey)
    ensures |r| == |kps| + (if Find(kps, KnowledgeKey, (name, subject)).Some? then 0 else 1)
    ensures forall k :: k in kps && KnowledgeKey(k) != (name, subject) ==> k in r
    ensures forall k :: k in r && KnowledgeKey(k) != (name, subject) ==> k in kps
    ensures forall k :: k in r && KnowledgeKey(k) == (name, subject) ==>
      k.updatedAt == now && k.description == DescriptionOf(kps, name, subject)
    ensures forall n, s :: DescriptionOf(r, n, s) == DescriptionOf(kps, n, s)
    ensures CountOf(r, name, subject) == CountOf(kps, name, subject) + 1
    ensures forall n, s :: (n, s) != (name, subject) ==> CountOf(r, n, s) == CountOf(kps, n, s)
    ensures Find(kps, KnowledgeKey, (name, subject)).None? ==>
      r[|r| - 1] == KnowledgePoint(name, subject, name + "相关知识点", 1, now)
  {
    match Find(kps, KnowledgeKey, (name, subject))
    case Some(i) =>
      var k := kps[i].(mistakeCount := kps[i].mistakeCount + 1, updatedAt := now);
      ReplaceCounts(kps, i, k);
      ReplaceFrame(kps, i, k);
      kps[i := k]
    case None =>
      var k := KnowledgePoint(name, subject, name + "相关知识点", 1, now);
      AppendCounts(kps, k);
      AppendFrame(kps, k);
      kps + [k]
  }

  /** Rewriting counter row `i` under the same key changes only that key's count. */
  lemma ReplaceCounts(kps: seq<KnowledgePoint>, i: nat, k: KnowledgePoint)
    requires Unique(kps, KnowledgeKey) && i < |kps| && KnowledgeKey(k) == KnowledgeKey(kps[i])
    ensures Unique(kps[i := k], KnowledgeKey)
    ensures CountOf(kps[i := k], k.name, k.subject) == k.mistakeCount
    ensures forall n, s :: (n, s) != KnowledgeKey(k) ==> CountOf(kps[i := k], n, s) == CountOf(kps, n, s)
  {
    var r := kps[i := k];
    ReplaceKeepsUnique(kps, KnowledgeKey, i, k);
    FindUnique(r, KnowledgeKey, i);
    forall n, s | (n, s) != KnowledgeKey(k) ensures CountOf(r, n, s) == CountOf(kps, n, s) {
      var f := Find(kps, KnowledgeKey, (n, s));
      if f.Some? {
        FindUnique(r, KnowledgeKey, f.value);
      }
    }
  }

  /** Appending a counter row for a new key gives that key its count and changes no other. */
  lemma AppendCounts(kps: seq<KnowledgePoint>, k: KnowledgePoint)
    requires Unique(kps, KnowledgeKey) && Find(kps, KnowledgeKey, KnowledgeKey(k)).None?
    ensures Unique(kps + [k], KnowledgeKey)
    ensures CountOf(kps + [k], k.name, k.subject) == k.mistakeCount
    ensures forall n, s :: (n, s) != KnowledgeKey(k) ==> CountOf(kps + [k], n, s) == CountOf(kps, n, s)
  {
    var r := kps + [k];
    AppendKeepsUnique(kps, KnowledgeKey, k);
    FindUnique(r, KnowledgeKey, |kps|);
    forall n, s | (n, s) != KnowledgeKey(k) ensures CountOf(r, n, s) == CountOf(kps, n, s) {
      var f := Find(kps, KnowledgeKey, (n, s));
      if f.Some? {
        FindUnique(r, KnowledgeKey, f.value);
      }
    }
  }

  /** Rewriting counter row `i` keeps every other row and every other key's description; the
      rewritten row is the only one under its key. */
  lemma ReplaceFrame(kps: seq<KnowledgePoint>, i: nat, k: KnowledgePoint)
    requires Unique(kps, KnowledgeKey) && i < |kps| && KnowledgeKey(k) == KnowledgeKey(kps[i])
    ensures forall x :: x in kps && KnowledgeKey(x) != KnowledgeKey(k) ==> x in kps[i := k]
    ensures forall x :: x in kps[i := k] && KnowledgeKey(x) != KnowledgeKey(k) ==> x in kps
    ensures forall x :: x in kps[i := k] && KnowledgeKey(x) == KnowledgeKey(k) ==> x == k
    ensures forall n, s :: (n, s) != KnowledgeKey(k) ==> DescriptionOf(kps[i := k], n, s) == DescriptionOf(kps, n, s)
    ensures DescriptionOf(kps[i := k], k.name, k.subject) == k.description
  {
    var r := kps[i := k];
    ReplaceKeepsOthers(kps, KnowledgeKey, i, k);
    ReplaceKeepsUnique(kps, KnowledgeKey, i, k);
    OnlyRowWithKey(r, KnowledgeKey, i);
    FindUnique(r, KnowledgeKey, i);
    forall x | x in r && KnowledgeKey(x) != KnowledgeKey(k) ensures x in kps {
      var j :| 0 <= j < |r| && r[j] == x;
      assert kps[j] == x;
    }
    forall n, s | (n, s) != KnowledgeKey(k) ensures DescriptionOf(r, n, s) == DescriptionOf(kps, n, s) {
      var f := Find(kps, KnowledgeKey, (n, s));
      if f.Some? {
        FindUnique(r, KnowledgeKey, f.value);
      }
    }
  }

  /** Appending a counter row for a new key keeps every row and every other key's
      description. */
  lemma AppendFrame(kps: seq<KnowledgePoint>, k: KnowledgePoint)
    requires Unique(kps, KnowledgeKey) && Find(kps, KnowledgeKey, KnowledgeKey(k)).None?
    ensures forall x :: x in kps + [k] && KnowledgeKey(x) == KnowledgeKey(k) ==> x == k
    ensures forall n, s :: (n, s) != KnowledgeKey(k) ==> DescriptionOf(kps + [k], n, s) == DescriptionOf(kps, n, s)
    ensures DescriptionOf(kps + [k], k.name, k.subject) == k.description
  {
    var r := kps + [k];
    AppendKeepsUnique(kps, KnowledgeKey, k);
    FindUnique(r, KnowledgeKey, |kps|);
    forall x | x in r && KnowledgeKey(x) == KnowledgeKey(k) ensures x == k {
      var j :| 0 <= j < |r| && r[j] == x;
    }
    forall n, s | (n, s) != KnowledgeKey(k) ensures DescriptionOf(r, n, s) == DescriptionOf(kps, n, s) {
      var f := Find(kps, KnowledgeKey, (n, s));
      if f.Some? {
        FindUnique(r, KnowledgeKey, f.value);
      }
    }
  }

  /** How often `x` occurs in `xs`. */
  function Occurrences(xs: seq<string>, x: string): nat
    decreases |xs|
  {
    if |xs| == 0 then 0 else (if xs[0] == x then 1 else 0) + Occurrences(xs[1..], x)
  }

  /** The knowledge-point loop: one upsert per listed name, duplicates included. */
  function BumpAll(kps: seq<KnowledgePoint>, names: seq<string>, subject: string, now: int): (r: seq<KnowledgePoint>)
    requires Unique(kps, KnowledgeKey)
    ensures Unique(r, KnowledgeKey)
    ensures forall n :: CountOf(r, n, subject) == CountOf(kps, n, subject) + Occurrences(names, n)
    ensures forall n, s :: s != subject ==> CountOf(r, n, s) == CountOf(kps, n, s)
    ensures forall k :: k in kps && (k.subject != subject || k.name !in names) ==> k in r
    ensures forall k :: k in r && (k.subject != subject || k.name !in names) ==> k in kps
    ensures forall k :: k in r && k.subject == subject && k.name in names ==>
      k.updatedAt == now && k.description == DescriptionOf(kps, k.name, subject)
    decreases |names|
  {
    if |names| == 0 then kps
    else
      var b := Bump(kps, names[0], subject, now);
      var r := BumpAll(b, names[1..], subject, now);
      BumpAllStep(kps, names, subject, now, b, r);
      r
  }

  /** The step of `BumpAll`'s frame: the first upsert's effects survive the rest of the loop. */
  lemma BumpAllStep(kps: seq<KnowledgePoint>, names: seq<string>, subject: string, now: int,
                    b: seq<KnowledgePoint>, r: seq<KnowledgePoint>)
    requires |names| > 0
    requires forall k :: k in kps && KnowledgeKey(k) != (names[0], subject) ==> k in b
    requires forall k :: k in b && KnowledgeKey(k) != (names[0], subject) ==> k in kps
    requires forall k :: k in b && KnowledgeKey(k) == (names[0], subject) ==>
      k.updatedAt == now && k.description == DescriptionOf(kps, names[0], subject)
    requires forall n, s :: DescriptionOf(b, n, s) == DescriptionOf(kps, n, s)
    requires forall k :: k in b && (k.subject != subject || k.name !in names[1..]) ==> k in r
    requires forall k :: k in r && (k.subject != subject || k.name !in names[1..]) ==> k in b
    requires forall k :: k in r && k.subject == subject && k.name in names[1..] ==>
      k.updatedAt == now && k.description == DescriptionOf(b, k.name, subject)
    ensures forall k :: k in kps && (k.subject != subject || k.name !in names) ==> k in r
    ensures forall k :: k in r && (k.subject != subject || k.name !in names) ==> k in kps
    ensures forall k :: k in r && k.subject == subject && k.name in names ==>
      k.updatedAt == now && k.description == DescriptionOf(kps, k.name, subject)
  {
    assert forall n :: n in names <==> n == names[0] || n in names[1..];
  }

  /** How many knowledge-point upserts a fault lets through. */
  function UpsertsDone(names: seq<string>, fault: Fault): (n: nat)
    ensures n <= |names|
  {
    if fault.KnowledgeWriteFails? && fault.at < |names| then fault.at else |names|
  }

  /** The verdict parsed from a reply, if the reply has a JSON span and it parses. */
  function Verdict(reply: Option<string>, parse: string -> Option<CorrectionResult>): Option<CorrectionResult> {
    if reply.None? then None
    else match ExtractJson(reply.value)
      case None => None
      case Some(span) => parse(span)
  }

  function EntryOf(t: Target, v: CorrectionResult): Entry {
    Entry(t.question.id, v.isCorrect, v.correctAnswer, v.explanation, v.encouragement)
  }

  /** Grading one question runs to its `results` entry: a verdict was parsed, and no write
      throws (the Mistake insert throws when its new id is taken). */
  predicate Reaches(ms: seq<Mistake>, t: Target, att: Attempt, parse: string -> Option<CorrectionResult>) {
    var v := Verdict(att.reply, parse);
    && v.Some?
    && att.fault != QuestionWriteFails
    && (v.value.isCorrect ||
        (&& att.fault != MistakeWriteFails
         && !(Find(ms, MistakeQuestion, t.question.id).None? && MistakeIdTaken(ms, att.newMistakeId))
         && UpsertsDone(v.value.knowledgePoints, att.fault) == |v.value.knowledgePoints|))
  }

  /** The writes of a wrong verdict after the question row: the Mistake upsert, then one
      counter upsert per listed knowledge point. The flag says every write went through. */
  function RecordMistake(st: Store, user: UserId, t: Target, v: CorrectionResult, att: Attempt,
                         now: int): (r: (Store, bool))
    requires Valid(st)
    ensures Valid(r.0)
    ensures r.0.homeworks == st.homeworks && r.0.practices == st.practices
    ensures r.0.questions == st.questions
    ensures r.1 <==>
      && att.fault != MistakeWriteFails
      && !(Find(st.mistakes, MistakeQuestion, t.question.id).None? && MistakeIdTaken(st.mistakes, att.newMistakeId))
      && UpsertsDone(v.knowledgePoints, att.fault) == |v.knowledgePoints|
    ensures r.1 ==>
      && MistakeCountOf(r.0.mistakes, t.question.id) == MistakeCountOf(st.mistakes, t.question.id) + 1
      && (forall n :: CountOf(r.0.knowledgePoints, n, t.homework.subject) ==
            CountOf(st.knowledgePoints, n, t.homework.subject) + Occurrences(v.knowledgePoints, n))
      && (forall n, s :: s != t.homework.subject ==>
            CountOf(r.0.knowledgePoints, n, s) == CountOf(st.knowledgePoints, n, s))
    ensures att.fault != MistakeWriteFails && Find(st.mistakes, MistakeQuestion, t.question.id).None?
            && !MistakeIdTaken(st.mistakes, att.newMistakeId) ==>
      r.0.mistakes == st.mistakes + [NewMistake(att.newMistakeId, user, t, v, now)]
  {
    if att.fault == MistakeWriteFails then (st, false)
    else
      match UpsertMistake(st.mistakes, user, t, v, att.newMistakeId, now)
      case None => (st, false)
      case Some(ms) =>
        var names := v.knowledgePoints;
        var done := UpsertsDone(names, att.fault);
        assert names[..|names|] == names;
        var st1 := st.(mistakes := ms,
                       knowledgePoints := BumpAll(st.knowledgePoints, names[..done], t.homework.subject, now));
        (st1, done == |names|)
  }

  /** The body of the loop for one question: the store afterwards and its `results` entry. A
      failure before the verdict write leaves the store as it was; a later failure keeps the
      writes made so far. */
  function GradeOne(st: Store, user: UserId, t: Target, att: Attempt,
                    parse: string -> Option<CorrectionResult>, now: int): (r: (Store, Option<Entry>))
    requires Valid(st)
    ensures Valid(r.0)
    ensures r.0.homeworks == st.homeworks && r.0.practices == st.practices
    ensures r.1.Some? <==> Reaches(st.mistakes, t, att, parse)
    ensures r.1.Some? ==> r.1 == Some(EntryOf(t, Verdict(att.reply, parse).value))
    ensures Verdict(att.reply, parse).None? || att.fault == QuestionWriteFails ==> r.0 == st
    ensures |r.0.questions| == |st.questions|
    ensures Verdict(att.reply, parse).Some? && att.fault != QuestionWriteFails ==>
      forall i :: 0 <= i < |st.questions| && st.questions[i].id == t.question.id ==>
        r.0.questions[i].isCorrect == Some(Verdict(att.reply, parse).value.isCorrect)
    ensures Verdict(att.reply, parse).Some? && Verdict(att.reply, parse).value.isCorrect ==>
      r.0.mistakes == st.mistakes && r.0.knowledgePoints == st.knowledgePoints
    ensures Reaches(st.mistakes, t, att, parse) && !Verdict(att.reply, parse).value.isCorrect ==>
      && MistakeCountOf(r.0.mistakes, t.question.id) == MistakeCountOf(st.mistakes, t.question.id) + 1
      && (forall n :: CountOf(r.0.knowledgePoints, n, t.homework.subject) ==
            CountOf(st.knowledgePoints, n, t.homework.subject) + Occurrences(Verdict(att.reply, parse).value.knowledgePoints, n))
    ensures Verdict(att.reply, parse).Some? && att.fault != QuestionWriteFails ==>
      forall i :: 0 <= i < |st.questions| && st.questions[i].id == t.question.id ==>
        r.0.questions[i] == WithVerdict(st.questions[i], Verdict(att.reply, parse).value)
    ensures Reaches(st.mistakes, t, att, parse) && !Verdict(att.reply, parse).value.isCorrect
            && Find(st.mistakes, MistakeQuestion, t.question.id).None? ==>
      r.0.mistakes == st.mistakes + [NewMistake(att.newMistakeId, user, t, Verdict(att.reply, parse).value, now)]
  {
    var v := Verdict(att.reply, parse);
    if v.None? || att.fault == QuestionWriteFails then (st, None)
    else
      var verdict := v.value;
      var st1 := st.(questions := WriteVerdict(st.questions, t.question.id, verdict));
      if verdict.isCorrect then (st1, Some(EntryOf(t, verdict)))
      else
        var (st2, ok) := RecordMistake(st1, user, t, verdict, att, now);
        (st2, if ok then Some(EntryOf(t, verdict)) else None)
  }

  /** The prompt the grading model is sent for a target. */
  function PromptFor(t: Target): string {
    BuildCorrectionUserPrompt(t.homework.subject, t.question.questionType, t.question.content,
                              t.question.studentAnswer.GetOr(""))
  }

  /** `xs` can be obtained from `ys` by deleting elements. */
  ghost predicate Subsequence<T>(xs: seq<T>, ys: seq<T>)
    decreases |ys|
  {
    |xs| == 0 || (|ys| > 0 && ((xs[0] == ys[0] && Subsequence(xs[1..], ys[1..])) || Subsequence(xs, ys[1..])))
  }

  function EntryIds(es: seq<Entry>): (r: seq<Id>)
    ensures |r| == |es| && forall k :: 0 <= k < |es| ==> r[k] == es[k].questionId
  {
    seq(|es|, k requires 0 <= k < |es| => es[k].questionId)
  }

  function TargetIds(ts: seq<Target>): (r: seq<Id>)
    ensures |r| == |ts| && forall k :: 0 <= k < |ts| ==> r[k] == ts[k].question.id
  {
    seq(|ts|, k requires 0 <= k < |ts| => ts[k].question.id)
  }

  /** The loop over the selection, in order; a failing question is skipped and the loop goes on.
      Homeworks and practices are not touched, the store stays valid, and the entries appear in
      selection order, at most one per question. */
  function GradeAll(st: Store, user: UserId, ts: seq<Target>, grader: (Id, string) -> Attempt,
                    parse: string -> Option<CorrectionResult>, now: int): (r: (Store, seq<Entry>))
    requires Valid(st)
    ensures Valid(r.0)
    ensures r.0.homeworks == st.homeworks && r.0.practices == st.practices
    ensures |r.1| <= |ts|
    ensures Subsequence(EntryIds(r.1), TargetIds(ts))
    decreases |ts|
  {
    if |ts| == 0 then (st, [])
    else
      var t := ts[0];
      var (st1, e) := GradeOne(st, user, t, grader(t.question.id, PromptFor(t)), parse, now);
      var (st2, rest) := GradeAll(st1, user, ts[1..], grader, parse, now);
      EntryStep(ts, e, rest);
      (st2, (if e.Some? then [e.value] else []) + rest)
  }

  /** One step of the loop keeps the entries in selection order. */
  lemma EntryStep(ts: seq<Target>, e: Option<Entry>, rest: seq<Entry>)
    requires |ts| > 0 && (e.Some? ==> e.value.questionId == ts[0].question.id)
    requires Subsequence(EntryIds(rest), TargetIds(ts[1..]))
    ensures Subsequence(EntryIds((if e.Some? then [e.value] else []) + rest), TargetIds(ts))
  {
    var es := (if e.Some? then [e.value] else []) + rest;
    assert TargetIds(ts)[1..] == TargetIds(ts[1..]);
    if e.Some? {
      assert EntryIds(es) == [ts[0].question.id] + EntryIds(rest);
      SubsequenceKeep(ts[0].question.id, EntryIds(rest), TargetIds(ts));
    } else {
      assert EntryIds(es) == EntryIds(rest);
      SubsequenceSkip(EntryIds(rest), TargetIds(ts));
    }
  }

  lemma SubsequenceKeep<T>(x: T, xs: seq<T>, ys: seq<T>)
    requires |ys| > 0 && x == ys[0] && Subsequence(xs, ys[1..])
    ensures Subsequence([x] + xs, ys)
  {
    assert ([x] + xs)[1..] == xs;
  }

  lemma SubsequenceSkip<T>(xs: seq<T>, ys: seq<T>)
    requires |ys| > 0 && Subsequence(xs, ys[1..])
    ensures Subsequence(xs, ys)
  {
  }

  /** A question whose reply has no usable verdict is skipped without a trace: the batch
      behaves as if it had not been selected. */
  lemma {:induction false} UnparsedQuestionSkipped(st: Store, user: UserId, ts: seq<Target>,
                                                   grader: (Id, string) -> Attempt,
                                                   parse: string -> Option<CorrectionResult>, now: int)
    requires Valid(st) && |ts| > 0
    requires Verdict(grader(ts[0].question.id, PromptFor(ts[0])).reply, parse).None?
    ensures GradeAll(st, user, ts, grader, parse, now) == GradeAll(st, user, ts[1..], grader, parse, now)
  {
    var t := ts[0];
    var r1 := GradeOne(st, user, t, grader(t.question.id, PromptFor(t)), parse, now);
    assert r1 == (st, None);
    var rest := GradeAll(st, user, ts[1..], grader, parse, now);
    assert [] + rest.1 == rest.1;
  }

  /** The loop is sequential: grading `ts` is grading its first `k` targets, then the rest from
      the store they leave, with the entries of both parts in order. A question that fails
      therefore does not stop the questions after it. */
  lemma {:induction false} GradeAllSplit(st: Store, user: UserId, ts: seq<Target>, k: nat,
                                         grader: (Id, string) -> Attempt,
                                         parse: string -> Option<CorrectionResult>, now: int)
    requires Valid(st) && k <= |ts|
    ensures var head := GradeAll(st, user, ts[..k], grader, parse, now);
            var tail := GradeAll(head.0, user, ts[k..], grader, parse, now);
            GradeAll(st, user, ts, grader, parse, now) == (tail.0, head.1 + tail.1)
    decreases k
  {
    if k == 0 {
      assert ts[..0] == [] && ts[0..] == ts;
      assert GradeAll(st, user, ts[..0], grader, parse, now) == (st, []);
      var tail := GradeAll(st, user, ts, grader, parse, now);
      assert [] + tail.1 == tail.1;
    } else {
      var t := ts[0];
      var r1 := GradeOne(st, user, t, grader(t.question.id, PromptFor(t)), parse, now);
      var first := if r1.1.Some? then [r1.1.value] else [];
      GradeAllSplit(r1.0, user, ts[1..], k - 1, grader, parse, now);
      SliceFacts(ts, k);
      var head := GradeAll(r1.0, user, ts[1..][..k - 1], grader, parse, now);
      var tail := GradeAll(head.0, user, ts[k..], grader, parse, now);
      GradeAllStep(st, user, ts, grader, parse, now);
      GradeAllStep(st, user, ts[..k], grader, parse, now);
      Regroup(GradeAll(st, user, ts, grader, parse, now), GradeAll(st, user, ts[..k], grader, parse, now),
              GradeAll(r1.0, user, ts[1..], grader, parse, now), head, tail, first);
    }
  }

  /** The entries of the first question, then of the rest split in two, regrouped around the split. */
  lemma Regroup(all: (Store, seq<Entry>), pre: (Store, seq<Entry>), rest: (Store, seq<Entry>),
                head: (Store, seq<Entry>), tail: (Store, seq<Entry>), first: seq<Entry>)
    requires all == (rest.0, first + rest.1) && pre == (head.0, first + head.1)
    requires rest == (tail.0, head.1 + tail.1)
    ensures all == (tail.0, pre.1 + tail.1)
  {
    assert first + (head.1 + tail.1) == (first + head.1) + tail.1;
  }

  lemma SliceFacts<T>(ts: seq<T>, k: nat)
    requires 0 < k <= |ts|
    ensures ts[..k][0] == ts[0] && ts[..k][1..] == ts[1..][..k - 1] && ts[1..][k - 1..] == ts[k..]
  {
  }

  /** One turn of the loop: the first question is graded, then the rest from the store it leaves. */
  lemma GradeAllStep(st: Store, user: UserId, ts: seq<Target>, grader: (Id, string) -> Attempt,
                     parse: string -> Option<CorrectionResult>, now: int)
    requires Valid(st) && |ts| > 0
    ensures var r1 := GradeOne(st, user, ts[0], grader(ts[0].question.id, PromptFor(ts[0])), parse, now);
            var rest := GradeAll(r1.0, user, ts[1..], grader, parse, now);
            GradeAll(st, user, ts, grader, parse, now) == (rest.0, (if r1.1.Some? then [r1.1.value] else []) + rest.1)
  {
  }

  /** Every question the entries name is a selected one. */
  lemma {:induction false} SubsequenceMembers<T>(xs: seq<T>, ys: seq<T>)
    requires Subsequence(xs, ys)
    ensures forall x :: x in xs ==> x in ys
    decreases |ys|
  {
    if |xs| > 0 {
      if xs[0] == ys[0] && Subsequence(xs[1..], ys[1..]) {
        SubsequenceMembers(xs[1..], ys[1..]);
        assert forall x :: x in xs ==> x == xs[0] || x in xs[1..];
      } else {
        SubsequenceMembers(xs, ys[1..]);
      }
    }
  }

  /** Among distinct selected questions, question `k` has a `results` entry exactly when its
      own grading runs to the end from the store the earlier questions leave: a failure of
      another question neither adds nor removes it. */
  lemma EntryIffReaches(st: Store, user: UserId, ts: seq<Target>, k: nat,
                        grader: (Id, string) -> Attempt, parse: string -> Option<CorrectionResult>,
                        now: int)
    requires Valid(st) && k < |ts|
    requires forall i, j :: 0 <= i < j < |ts| ==> ts[i].question.id != ts[j].question.id
    ensures ts[k].question.id in EntryIds(GradeAll(st, user, ts, grader, parse, now).1) <==>
      Reaches(GradeAll(st, user, ts[..k], grader, parse, now).0.mistakes, ts[k],
              grader(ts[k].question.id, PromptFor(ts[k])), parse)
  {
    GradeAllSplit(st, user, ts, k, grader, parse, now);
    IdsApart(ts, k);
    var head := GradeAll(st, user, ts[..k], grader, parse, now);
    var tail := GradeAll(head.0, user, ts[k..], grader, parse, now);
    EntryAfter(head.1, tail.1, ts[k].question.id, TargetIds(ts[..k]));
    assert ts[k..][0] == ts[k] && ts[k..][1..] == ts[k + 1..];
    HeadEntry(head.0, user, ts[k..], grader, parse, now);
  }

  /** The first target's id is among the entries exactly when its grading reaches the end. */
  lemma HeadEntry(st: Store, user: UserId, ts: seq<Target>,
                  grader: (Id, string) -> Attempt, parse: string -> Option<CorrectionResult>, now: int)
    requires Valid(st) && |ts| > 0 && ts[0].question.id !in TargetIds(ts[1..])
    ensures ts[0].question.id in EntryIds(GradeAll(st, user, ts, grader, parse, now).1) <==>
      Reaches(st.mistakes, ts[0], grader(ts[0].question.id, PromptFor(ts[0])), parse)
  {
    var t := ts[0];
    var r1 := GradeOne(st, user, t, grader(t.question.id, PromptFor(t)), parse, now);
    var rest := GradeAll(r1.0, user, ts[1..], grader, parse, now);
    var first := if r1.1.Some? then [r1.1.value] else [];
    assert GradeAll(st, user, ts, grader, parse, now).1 == first + rest.1;
    EntryAmong(first, rest.1, t.question.id, TargetIds(ts[1..]));
  }

  /** With distinct targets, the id of target `k` is not among the ids before or after it. */
  lemma IdsApart(ts: seq<Target>, k: nat)
    requires k < |ts|
    requires forall i, j :: 0 <= i < j < |ts| ==> ts[i].question.id != ts[j].question.id
    ensures ts[k].question.id !in TargetIds(ts[..k])
    ensures ts[k].question.id !in TargetIds(ts[k + 1..])
  {
    IdAbsent(ts[..k], ts[k].question.id);
    IdAbsent(ts[k + 1..], ts[k].question.id);
  }

  /** An id no target carries is not among the targets' ids. */
  lemma IdAbsent(xs: seq<Target>, id: Id)
    requires forall i :: 0 <= i < |xs| ==> xs[i].question.id != id
    ensures id !in TargetIds(xs)
  {
  }

  /** Entries for question `id` in front of entries for other questions: `id` is named iff the
      front part is non-empty. */
  lemma EntryAmong(first: seq<Entry>, rest: seq<Entry>, id: Id, others: seq<Id>)
    requires Subsequence(EntryIds(rest), others) && id !in others
    requires forall e :: e in first ==> e.questionId == id
    ensures id in EntryIds(first + rest) <==> |first| > 0
  {
    SubsequenceMembers(EntryIds(rest), others);
    var all := first + rest;
    if |first| > 0 {
      assert first[0] in first;
      assert EntryIds(all)[0] == id;
    } else {
      assert all == rest;
    }
  }

  /** Entries for other questions in front: `id` is named in the whole iff in the tail. */
  lemma EntryAfter(head: seq<Entry>, tail: seq<Entry>, id: Id, before: seq<Id>)
    requires Subsequence(EntryIds(head), before) && id !in before
    ensures id in EntryIds(head + tail) <==> id in EntryIds(tail)
  {
    SubsequenceMembers(EntryIds(head), before);
    assert EntryIds(head + tail) == EntryIds(head) + EntryIds(tail);
  }

  /** The homework's correction status set to `s`; nothing else changes. */
  function SetCorrectionStatus(st: Store, hid: Id, s: CorrectionStatus): (st': Store)
    ensures Valid(st) ==> Valid(st')
    ensures st'.questions == st.questions && st'.mistakes == st.mistakes
    ensures st'.knowledgePoints == st.knowledgePoints && st'.practices == st.practices
    ensures |st'.homeworks| == |st.homeworks|
    ensures forall i :: 0 <= i < |st.homeworks| && st.homeworks[i].id == hid ==>
      st'.homeworks[i] == st.homeworks[i].(correctionStatus := s)
    ensures forall i :: 0 <= i < |st.homeworks| && st.homeworks[i].id != hid ==>
      st'.homeworks[i] == st.homeworks[i]
  {
    UpdateHomework(st, hid, (h: Homework) => h.(correctionStatus := s))
  }

  /** Whether the status writes go to homework `hid`. As written the route writes to any
      existing homework with that id; `checkOwner` restricts them to the caller's own. */
  predicate StatusWritable(st: Store, user: UserId, hid: Id, checkOwner: bool) {
    var h := HomeworkById(st, hid);
    h.Some? && (!checkOwner || h.value.userId == user)
  }

  /** The homework rows after a graded request: `COMPLETED` on the requested homework when its
      status may be written, every other row as it was; practice sheets untouched. */
  predicate StatusWritten(st: Store, st': Store, user: UserId, homeworkId: Option<Id>, checkOwner: bool) {
    && st'.practices == st.practices && |st'.homeworks| == |st.homeworks|
    && forall i :: 0 <= i < |st.homeworks| ==>
      st'.homeworks[i] == (if Given(homeworkId) && st.homeworks[i].id == homeworkId.value
                              && StatusWritable(st, user, homeworkId.value, checkOwner)
                           then st.homeworks[i].(correctionStatus := CorrectionCompleted)
                           else st.homeworks[i])
  }

  /** The batch after selection: `PROCESSING` on the target homework, the grading loop, then
      `COMPLETED`. Without a target no homework is written. */
  function GradeBatch(st: Store, user: UserId, ts: seq<Target>, target: Option<Id>,
                      grader: (Id, string) -> Attempt, parse: string -> Option<CorrectionResult>,
                      now: int): (r: (Store, seq<Entry>))
    requires Valid(st)
    ensures Valid(r.0)
    ensures r.0.practices == st.practices && |r.0.homeworks| == |st.homeworks|
    ensures forall i :: 0 <= i < |st.homeworks| ==>
      r.0.homeworks[i] == (if target == Some(st.homeworks[i].id)
                           then st.homeworks[i].(correctionStatus := CorrectionCompleted)
                           else st.homeworks[i])
    ensures Subsequence(EntryIds(r.1), TargetIds(ts))
  {
    match target
    case None => GradeAll(st, user, ts, grader, parse, now)
    case Some(hid) =>
      var st1 := SetCorrectionStatus(st, hid, CorrectionProcessing);
      var (st2, results) := GradeAll(st1, user, ts, grader, parse, now);
      (SetCorrectionStatus(st2, hid, CorrectionCompleted), results)
  }

  /** The route handler, with the status writes optionally restricted to the caller's
      homework (see `Post` and `PostOwned`). */
  function Handle(st: Store, auth: Option<UserId>, configured: bool, body: Body,
                  grader: (Id, string) -> Attempt, parse: string -> Option<CorrectionResult>,
                  now: int, checkOwner: bool): (r: (Store, Reply))
    requires Valid(st)
    ensures Valid(r.0)
    ensures r.1.Status() != 200 || r.1.NothingToGrade? ==> r.0 == st
    ensures auth.None? <==> r.1 == Unauthorized
    ensures auth.Some? && !configured <==> r.1 == NotConfigured
    ensures auth.Some? && configured && body.NotJson? ==> r.1 == ServerError
    ensures r.1.Graded? || r.1 == MissingIds || r.1 == QuestionNotFound || r.1 == NothingToGrade ==> body.Json?
    ensures auth.Some? && configured && body.Json? && !Given(body.req.homeworkId) && !Given(body.req.questionId) <==>
      r.1 == MissingIds
    ensures auth.Some? && configured && body.Json? && Given(body.req.questionId) ==>
      (r.1 == QuestionNotFound <==>
        !exists q :: q in st.questions && q.id == body.req.questionId.value && OwnedBy(st, q, auth.value))
    ensures auth.Some? && configured && body.Json? && Given(body.req.homeworkId) && !Given(body.req.questionId) ==>
      (r.1 == NothingToGrade <==>
        forall q :: q in st.questions ==> !Ungraded(st, auth.value, body.req.homeworkId.value, q))
    ensures r.1.Graded? && Given(body.req.homeworkId) ==> HomeworkById(st, body.req.homeworkId.value).Some?
    ensures r.1.Graded? ==> StatusWritten(st, r.0, auth.value, body.req.homeworkId, checkOwner)
    ensures r.1.Graded? && Given(body.req.homeworkId) && !Given(body.req.questionId) ==>
      StatusWritable(st, auth.value, body.req.homeworkId.value, true)
  {
    if auth.None? then (st, Unauthorized)
    else if !configured then (st, NotConfigured)
    else if body.NotJson? then (st, ServerError)
    else if !Given(body.req.homeworkId) && !Given(body.req.questionId) then (st, MissingIds)
    else HandleRequest(st, auth.value, body.req, grader, parse, now, checkOwner)
  }

  /** The handler past its guards: select, then grade. */
  function HandleRequest(st: Store, user: UserId, req: Request,
                         grader: (Id, string) -> Attempt, parse: string -> Option<CorrectionResult>,
                         now: int, checkOwner: bool): (r: (Store, Reply))
    requires Valid(st) && (Given(req.homeworkId) || Given(req.questionId))
    ensures Valid(r.0)
    ensures r.1.QuestionNotFound? || r.1.NothingToGrade? || r.1.Graded? || r.1.ServerError?
    ensures !r.1.Graded? ==> r.0 == st
    ensures Given(req.questionId) ==>
      (r.1 == QuestionNotFound <==>
        !exists q :: q in st.questions && q.id == req.questionId.value && OwnedBy(st, q, user))
    ensures Given(req.homeworkId) && !Given(req.questionId) ==>
      (r.1 == NothingToGrade <==> forall q :: q in st.questions ==> !Ungraded(st, user, req.homeworkId.value, q))
    ensures r.1.Graded? && Given(req.homeworkId) ==> HomeworkById(st, req.homeworkId.value).Some?
    ensures r.1.Graded? ==> StatusWritten(st, r.0, user, req.homeworkId, checkOwner)
    ensures r.1.Graded? && Given(req.homeworkId) && !Given(req.questionId) ==>
      StatusWritable(st, user, req.homeworkId.value, true)
  {
    if Given(req.questionId) then
      HandleOne(st, user, req.questionId.value, req.homeworkId, grader, parse, now, checkOwner)
    else
      HandleBatch(st, user, req.homeworkId.value, grader, parse, now, checkOwner)
  }

  /** A request naming a question: 404 unless the caller owns it, else it is graded. */
  function HandleOne(st: Store, user: UserId, qid: Id, homeworkId: Option<Id>,
                     grader: (Id, string) -> Attempt, parse: string -> Option<CorrectionResult>,
                     now: int, checkOwner: bool): (r: (Store, Reply))
    requires Valid(st)
    ensures Valid(r.0)
    ensures r.1.QuestionNotFound? || r.1.Graded? || r.1.ServerError?
    ensures !r.1.Graded? ==> r.0 == st
    ensures r.1 == QuestionNotFound <==> !exists q :: q in st.questions && q.id == qid && OwnedBy(st, q, user)
    ensures r.1.Graded? && Given(homeworkId) ==> HomeworkById(st, homeworkId.value).Some?
    ensures r.1.Graded? ==> StatusWritten(st, r.0, user, homeworkId, checkOwner)
  {
    match SelectOne(st, user, qid)
    case None => (st, QuestionNotFound)
    case Some(ts) => GradeSelected(st, user, homeworkId, ts, grader, parse, now, checkOwner)
  }

  /** A request naming only a homework: its caller's ungraded questions are graded, if any. */
  function HandleBatch(st: Store, user: UserId, hid: Id,
                       grader: (Id, string) -> Attempt, parse: string -> Option<CorrectionResult>,
                       now: int, checkOwner: bool): (r: (Store, Reply))
    requires Valid(st) && hid != ""
    ensures Valid(r.0)
    ensures r.1.NothingToGrade? || r.1.Graded? || r.1.ServerError?
    ensures !r.1.Graded? ==> r.0 == st
    ensures r.1 == NothingToGrade <==> forall q :: q in st.questions ==> !Ungraded(st, user, hid, q)
    ensures r.1.Graded? ==> HomeworkById(st, hid).Some? && StatusWritable(st, user, hid, true)
    ensures r.1.Graded? ==> StatusWritten(st, r.0, user, Some(hid), checkOwner)
  {
    var ts := SelectBatch(st, user, hid).value;
    if |ts| == 0 then
      (st, NothingToGrade)
    else
      assert ts[0].question in st.questions && Ungraded(st, user, hid, ts[0].question);
      GradeSelected(st, user, Some(hid), ts, grader, parse, now, checkOwner)
  }

  /** After a non-empty selection: a requested homework id that names no homework makes the
      first status write throw (500, nothing written); otherwise the batch is graded, with the
      status writes on the requested homework when it may be written. */
  function GradeSelected(st: Store, user: UserId, homeworkId: Option<Id>, ts: seq<Target>,
                         grader: (Id, string) -> Attempt, parse: string -> Option<CorrectionResult>,
                         now: int, checkOwner: bool): (r: (Store, Reply))
    requires Valid(st)
    ensures Valid(r.0)
    ensures r.1.Graded? || r.1.ServerError?
    ensures r.1.ServerError? <==> Given(homeworkId) && HomeworkById(st, homeworkId.value).None?
    ensures r.1.ServerError? ==> r.0 == st
    ensures r.1.Graded? ==> StatusWritten(st, r.0, user, homeworkId, checkOwner)
  {
    var hid := homeworkId.GetOr("");
    if Given(homeworkId) && HomeworkById(st, hid).None? then
      (st, ServerError)
    else
      var writable := Given(homeworkId) && StatusWritable(st, user, hid, checkOwner);
      var target := if writable then Some(hid) else None;
      var (st1, results) := GradeBatch(st, user, ts, target, grader, parse, now);
      (st1, Graded(results))
  }

  /** The route as written: the status writes go to the requested homework whoever owns it. */
  function Post(st: Store, auth: Option<UserId>, configured: bool, body: Body,
                grader: (Id, string) -> Attempt, parse: string -> Option<CorrectionResult>,
                now: int): (r: (Store, Reply))
    requires Valid(st)
    ensures Valid(r.0)
    ensures r.1.Graded? ==> |r.0.homeworks| == |st.homeworks| && body.Json?
    ensures r.1.Graded? && Given(body.req.homeworkId) ==> forall i :: 0 <= i < |st.homeworks| ==>
      r.0.homeworks[i].correctionStatus ==
        (if st.homeworks[i].id == body.req.homeworkId.value then CorrectionCompleted else st.homeworks[i].correctionStatus)
  {
    Handle(st, auth, configured, body, grader, parse, now, false)
  }

  /** The route with the status writes restricted to the caller's own homework: no other
      user's homework is ever written. */
  function PostOwned(st: Store, auth: Option<UserId>, configured: bool, body: Body,
                     grader: (Id, string) -> Attempt, parse: string -> Option<CorrectionResult>,
                     now: int): (r: (Store, Reply))
    requires Valid(st)
    ensures Valid(r.0)
    ensures |r.0.homeworks| == |st.homeworks|
    ensures forall i :: 0 <= i < |st.homeworks| && (auth.None? || st.homeworks[i].userId != auth.value) ==>
      r.0.homeworks[i] == st.homeworks[i]
  {
    var r := Handle(st, auth, configured, body, grader, parse, now, true);
    if r.1.Graded? && Given(body.req.homeworkId) then
      WritableIsOwn(st, auth.value, body.req.homeworkId.value);
      r
    else
      r
  }

  /** With the owner check, the only homework the status writes can reach is the caller's. */
  lemma WritableIsOwn(st: Store, user: UserId, hid: Id)
    requires Valid(st)
    ensures forall i :: 0 <= i < |st.homeworks| && st.homeworks[i].id == hid && StatusWritable(st, user, hid, true) ==>
      st.homeworks[i].userId == user
  {
    forall i | 0 <= i < |st.homeworks| && st.homeworks[i].id == hid && StatusWritable(st, user, hid, true)
      ensures st.homeworks[i].userId == user
    {
      OnlyRowWithKey(st.homeworks, HomeworkId, i);
    }
  }

  /** The request `{homeworkId: another user's homework, questionId: the caller's question}`
      grades the caller's question and then marks the other user's homework as corrected. */
  lemma ForeignHomeworkMarked()
    ensures Valid(ExampleStore)
    ensures var r := Post(ExampleStore, Some("alice"), true, Json(ForeignRequest), SilentGrader, NoParse, 0);
      && r.1.Graded?
      && ExampleStore.homeworks[1].userId == "bob"
      && ExampleStore.homeworks[1].correctionStatus == CorrectionPending
      && r.0.homeworks[1].correctionStatus == CorrectionCompleted
  {
    ForeignGraded();
    var r := HandleRequest(ExampleStore, "alice", ForeignRequest, SilentGrader, NoParse, 0, false);
    assert Post(ExampleStore, Some("alice"), true, Json(ForeignRequest), SilentGrader, NoParse, 0) == r;
  }

  /** Past the guards, the example request is graded. */
  lemma ForeignGraded()
    ensures Valid(ExampleStore)
    ensures HandleRequest(ExampleStore, "alice", ForeignRequest, SilentGrader, NoParse, 0, false).1.Graded?
  {
    ExampleFacts();
  }

  /** alice's homework h1 with its question q1, and bob's homework h2. */
  const ExampleStore: Store :=
    Store([Homework("h1", "alice", "t", "math", "u", "p", OcrCompleted, CorrectionPending, None, None, 0),
           Homework("h2", "bob", "t", "math", "u", "p", OcrCompleted, CorrectionPending, None, None, 0)],
          [Question("q1", "h1", "1", "choice", "c", None, None, None, None, None, None, None)],
          [], [], [])

  /** alice asks to grade q1, their own question, and names bob's h2. */
  const ForeignRequest: Request := Request(Some("h2"), Some("q1"))

  /** A grading model call that throws, and a parser that never succeeds. */
  const SilentGrader: (Id, string) -> Attempt := (id, p) => Attempt(None, "m1", NoFault)
  const NoParse: string -> Option<CorrectionResult> := s => None

  lemma ExampleFacts()
    ensures Valid(ExampleStore)
    ensures HomeworkById(ExampleStore, "h2") == Some(ExampleStore.homeworks[1])
    ensures Select(ExampleStore, "alice", ForeignRequest) == Some([TargetOf(ExampleStore, ExampleStore.questions[0])])
  {
    var st := ExampleStore;
    assert Find(st.homeworks, HomeworkId, "h1") == Some(0);
    assert Find(st.homeworks, HomeworkId, "h2") == Some(1);
    assert Find(st.questions, QuestionId, "q1") == Some(0);
    assert OwnedBy(st, st.questions[0], "alice");
  }
}

=== FILE: correction_prompt.dfy ===
/** The grading prompt sent for one question, and the verdict the grading model is asked for. */
module CorrectionPrompt {
  import opened Common
  import opened Text
  import JsonText

  /** The verdict fields the correction route reads from the grading model's JSON reply. */
  datatype CorrectionResult = CorrectionResult(
    isCorrect: bool,
    correctAnswer: string,
    explanation: string,
    steps: seq<string>,
    knowledgePoints: seq<string>,
    errorType: Option<string>,
    difficulty: int,
    encouragement: string)

  const Header: string := "请批改以下题目:"
  const SubjectLabel: string := "【科目】"
  const TypeLabel: string := "【题型】"
  const ContentLabel: string := "【题目】"
  const AnswerLabel: string := "【学生答案】"
  const Unanswered: string := "(未作答)"
  const Footer: string := "请判断答案是否正确,并提供详细解析。"

  /** `studentAnswer || '(未作答)'`. */
  function AnswerText(studentAnswer: string): string {
    if studentAnswer == "" then Unanswered else studentAnswer
  }

  /** The template's lines with the four fields filled in. */
  function Labelled(subject: string, questionType: string, content: string, answer: string): seq<string> {
    [Header, "", SubjectLabel + subject, TypeLabel + questionType, ContentLabel + content,
     AnswerLabel + answer, "", Footer]
  }

  /** The lines of the user message of a grading request. */
  function PromptLineList(subject: string, questionType: string, content: string,
                          studentAnswer: string): seq<string>
  {
    Labelled(subject, questionType, content, AnswerText(studentAnswer))
  }

  /** The user message of a grading request: the template's lines joined by newlines. */
  function BuildCorrectionUserPrompt(subject: string, questionType: string, content: string,
                                     studentAnswer: string): (r: string)
    ensures Contains(r, Header) && Contains(r, Footer)
    ensures Contains(r, SubjectLabel + subject) && Contains(r, TypeLabel + questionType)
    ensures Contains(r, ContentLabel + content) && Contains(r, AnswerLabel + AnswerText(studentAnswer))
  {
    var lines := PromptLineList(subject, questionType, content, studentAnswer);
    JoinContainsPart(lines, "\n", 0);
    JoinContainsPart(lines, "\n", 2);
    JoinContainsPart(lines, "\n", 3);
    JoinContainsPart(lines, "\n", 4);
    JoinContainsPart(lines, "\n", 5);
    JoinContainsPart(lines, "\n", 7);
    Join(lines, "\n")
  }

  /** `s.split("\n")`. */
  function Lines(s: string): (r: seq<string>)
    ensures |r| >= 1
    decreases |s|
  {
    match JsonText.FirstIndex(s, '\n')
    case None => [s]
    case Some(i) => [s[..i]] + Lines(s[i + 1..])
  }

  predicate SingleLine(s: string) {
    '\n' !in s
  }

  /** Splitting undoes joining, as long as no line holds a newline. */
  lemma {:induction false} LinesOfJoin(ls: seq<string>)
    requires |ls| >= 1 && forall k :: 0 <= k < |ls| ==> SingleLine(ls[k])
    ensures Lines(Join(ls, "\n")) == ls
    decreases |ls|
  {
    if |ls| > 1 {
      var a, b := ls[0], Join(ls[1..], "\n");
      var s := a + "\n" + b;
      assert s[|a|] == '\n';
      assert s[..|a|] == a;
      assert s[|a| + 1..] == b;
      LinesOfJoin(ls[1..]);
    }
  }

  /** The text after `tag` on the first line that starts with it. */
  function FieldAfter(lines: seq<string>, tag: string): Option<string>
    decreases |lines|
  {
    if |lines| == 0 then None
    else if StartsWith(lines[0], tag) then Some(lines[0][|tag|..])
    else FieldAfter(lines[1..], tag)
  }

  lemma FixedLinesSingle()
    ensures SingleLine(Header) && SingleLine(Footer) && SingleLine(SubjectLabel)
    ensures SingleLine(TypeLabel) && SingleLine(ContentLabel) && SingleLine(AnswerLabel)
    ensures SingleLine(Unanswered)
  {
  }

  /** Concatenating single lines gives a single line. */
  lemma SingleLineConcat(a: string, b: string)
    requires SingleLine(a) && SingleLine(b)
    ensures SingleLine(a + b)
  {
  }

  /** When the fields hold no newline, the prompt splits into the header line, a blank line, one
      labelled line per field in the order subject, type, content, answer, a blank line and the
      instruction line. */
  lemma PromptLines(subject: string, questionType: string, content: string, studentAnswer: string)
    requires SingleLine(subject) && SingleLine(questionType) && SingleLine(content)
    requires SingleLine(studentAnswer)
    ensures Lines(BuildCorrectionUserPrompt(subject, questionType, content, studentAnswer))
         == [Header, "", SubjectLabel + subject, TypeLabel + questionType, ContentLabel + content,
             AnswerLabel + AnswerText(studentAnswer), "", Footer]
  {
    FixedLinesSingle();
    SingleLineConcat(SubjectLabel, subject);
    SingleLineConcat(TypeLabel, questionType);
    SingleLineConcat(ContentLabel, content);
    SingleLineConcat(AnswerLabel, AnswerText(studentAnswer));
    LinesOfJoin(PromptLineList(subject, questionType, content, studentAnswer));
  }

  /** Reading the labelled lines back gives the fields that were filled in; an empty answer
      reads back as the "(未作答)" placeholder. */
  lemma PromptFieldsRoundTrip(subject: string, questionType: string, content: string,
                              studentAnswer: string)
    requires SingleLine(subject) && SingleLine(questionType) && SingleLine(content)
    requires SingleLine(studentAnswer)
    ensures var lines := Lines(BuildCorrectionUserPrompt(subject, questionType, content, studentAnswer));
      && FieldAfter(lines, SubjectLabel) == Some(subject)
      && FieldAfter(lines, TypeLabel) == Some(questionType)
      && FieldAfter(lines, ContentLabel) == Some(content)
      && FieldAfter(lines, AnswerLabel) == Some(if studentAnswer == "" then Unanswered else studentAnswer)
  {
    PromptLines(subject, questionType, content, studentAnswer);
    var a := AnswerText(studentAnswer);
    FieldOfLabelled(subject, questionType, content, a, 2);
    FieldOfLabelled(subject, questionType, content, a, 3);
    FieldOfLabelled(subject, questionType, content, a, 4);
    FieldOfLabelled(subject, questionType, content, a, 5);
  }

  /** Each label's second character tells the labels apart. */
  lemma LabelsDiffer()
    ensures Header[0] != '【' && Footer[0] != '【'
    ensures SubjectLabel[1] == '科' && TypeLabel[1] == '题' && ContentLabel[1] == '题' && AnswerLabel[1] == '学'
    ensures TypeLabel[2] == '型' && ContentLabel[2] == '目'
    ensures |SubjectLabel| == 4 && |TypeLabel| == 4 && |ContentLabel| == 4 && |AnswerLabel| == 6
    ensures SubjectLabel[0] == TypeLabel[0] == ContentLabel[0] == AnswerLabel[0] == '【'
  {
  }

  /** FieldAfter finds labelled line `k` of the template: no earlier line starts with its label. */
  lemma FieldOfLabelled(subject: string, questionType: string, content: string, answer: string, k: nat)
    requires 2 <= k <= 5
    ensures var tags := [SubjectLabel, TypeLabel, ContentLabel, AnswerLabel];
            var values := [subject, questionType, content, answer];
            FieldAfter(Labelled(subject, questionType, content, answer), tags[k - 2]) == Some(values[k - 2])
  {
    var tags := [SubjectLabel, TypeLabel, ContentLabel, AnswerLabel];
    var values := [subject, questionType, content, answer];
    var lines := Labelled(subject, questionType, content, answer);
    var tag, value := tags[k - 2], values[k - 2];
    LabelsDiffer();
    assert lines[k] == tag + value;
    assert (tag + value)[|tag|..] == value;
    assert StartsWith(lines[k], tag);
    forall j | 0 <= j < k ensures !StartsWith(lines[j], tag) {
      if j >= 2 {
        assert lines[j][1] == tags[j - 2][1];
        assert lines[j][2] == tags[j - 2][2];
      }
    }
    assert FieldAfter(lines[k..], tag) == Some(value);
    FieldAfterSkips(lines, k, tag);
  }

  /** Lines before the first match do not affect FieldAfter. */
  lemma {:induction false} FieldAfterSkips(lines: seq<string>, k: nat, tag: string)
    requires k <= |lines| && forall j :: 0 <= j < k ==> !StartsWith(lines[j], tag)
    ensures FieldAfter(lines, tag) == FieldAfter(lines[k..], tag)
    decreases k
  {
    if k > 0 {
      FieldAfterSkips(lines[1..], k - 1, tag);
      assert lines[1..][k - 1..] == lines[k..];
    }
  }

  /** A joined text starts with its first part and ends with its last, each next to a separator. */
  lemma {:induction false} JoinFrame(parts: seq<string>, sep: string)
    requires |parts| >= 2
    ensures StartsWith(Join(parts, sep), parts[0] + sep)
    ensures EndsWith(Join(parts, sep), sep + parts[|parts| - 1])
    decreases |parts|
  {
    var rest := Join(parts[1..], sep);
    var j := Join(parts, sep);
    assert j == (parts[0] + sep) + rest;
    assert j[..|parts[0] + sep|] == parts[0] + sep;
    if |parts| == 2 {
      assert j == parts[0] + (sep + parts[1]);
    } else {
      JoinFrame(parts[1..], sep);
      var tail := sep + parts[|parts| - 1];
      assert rest[|rest| - |tail|..] == tail;
      assert j[|j| - |tail|..] == rest[|rest| - |tail|..];
    }
  }

  /** Whatever the fields hold, the prompt opens with the fixed header line and closes with the
      fixed instruction line, and only an empty answer is shown as the placeholder. */
  lemma PromptFrame(subject: string, questionType: string, content: string, studentAnswer: string)
    ensures var p := BuildCorrectionUserPrompt(subject, questionType, content, studentAnswer);
      && StartsWith(p, Header + "\n")
      && EndsWith(p, "\n" + Footer)
    ensures studentAnswer == "" ==> AnswerText(studentAnswer) == Unanswered
    ensures studentAnswer != "" ==> AnswerText(studentAnswer) == studentAnswer
  {
    JoinFrame(PromptLineList(subject, questionType, content, studentAnswer), "\n");
  }
}

=== FILE: entities.dfy ===
/** The data model: one datatype per table, the store as the five tables' rows in storage order,
    and the uniqueness the database's keys guarantee. */
module Entities {
  import opened Common
  import opened Tables

  /** Row ids are opaque strings generated by the database. */
  type Id = string
  type UserId = string

  datatype OcrStatus = OcrPending | OcrProcessing | OcrCompleted | OcrFailed
  datatype CorrectionStatus = CorrectionPending | CorrectionProcessing | CorrectionCompleted
  datatype PracticeStatus = PracticePending | PracticeInProgress | PracticeCompleted

  /** The name a practice status has in a query string. */
  function PracticeStatusName(s: PracticeStatus): string {
    match s
    case PracticePending => "PENDING"
    case PracticeInProgress => "IN_PROGRESS"
    case PracticeCompleted => "COMPLETED"
  }

  /** One question as the OCR model reports it. */
  datatype OcrQuestion = OcrQuestion(
    questionNumber: string,
    questionType: string,
    content: string,
    options: Option<seq<string>>,
    studentAnswer: Option<string>,
    hasAnswer: bool)

  /** The OCR model's parsed reply; `subject` or `questions` may be missing from it. */
  datatype OcrResult = OcrResult(
    subject: Option<string>,
    totalQuestions: int,
    questions: Option<seq<OcrQuestion>>)

  datatype Homework = Homework(
    id: Id,
    userId: UserId,
    title: string,
    subject: string,
    imageUrl: string,
    imagePath: string,
    ocrStatus: OcrStatus,
    correctionStatus: CorrectionStatus,
    ocrText: Option<string>,
    ocrResult: Option<OcrResult>,
    createdAt: int)

  /** A question of a homework; `isCorrect == None` means "not graded yet". `options` and
      `knowledgePoints` hold JSON text. */
  datatype Question = Question(
    id: Id,
    homeworkId: Id,
    questionNumber: string,
    questionType: string,
    content: string,
    options: Option<string>,
    studentAnswer: Option<string>,
    isCorrect: Option<bool>,
    correctAnswer: Option<string>,
    explanation: Option<string>,
    knowledgePoints: Option<string>,
    difficulty: Option<int>)

  /** A wrongly answered question in the user's mistake log; at most one per question. */
  datatype Mistake = Mistake(
    id: Id,
    userId: UserId,
    questionId: Id,
    subject: string,
    questionType: string,
    content: string,
    studentAnswer: string,
    correctAnswer: string,
    explanation: string,
    knowledgePoints: string,
    difficulty: int,
    mistakeCount: nat,
    mastered: bool,
    lastMistakeAt: int,
    createdAt: int)

  /** A global (not per-user) counter of wrong answers for one knowledge point of one subject. */
  datatype KnowledgePoint = KnowledgePoint(
    name: string,
    subject: string,
    description: string,
    mistakeCount: nat,
    updatedAt: int)

  /** One generated practice question. */
  datatype PracticeQuestion = PracticeQuestion(
    questionNumber: string,
    questionType: string,
    content: string,
    options: Option<seq<string>>,
    answer: string,
    explanation: string,
    score: int,
    knowledgePoints: seq<string>)

  datatype Practice = Practice(
    id: Id,
    userId: UserId,
    title: string,
    subject: string,
    practiceType: string,
    questions: seq<PracticeQuestion>,
    totalScore: int,
    userScore: Option<int>,
    status: PracticeStatus,
    createdAt: int,
    completedAt: Option<int>)

  /** The database: every table's rows in storage order. */
  datatype Store = Store(
    homeworks: seq<Homework>,
    questions: seq<Question>,
    mistakes: seq<Mistake>,
    knowledgePoints: seq<KnowledgePoint>,
    practices: seq<Practice>)

  // Keys of the tables.
  function HomeworkId(h: Homework): Id { h.id }
  function QuestionId(q: Question): Id { q.id }
  function MistakeId(m: Mistake): Id { m.id }
  function MistakeQuestion(m: Mistake): Id { m.questionId }
  function KnowledgeKey(k: KnowledgePoint): (string, string) { (k.name, k.subject) }
  function PracticeId(p: Practice): Id { p.id }

  /** The unique constraints: primary keys, one mistake per question, one counter per
      (name, subject). */
  ghost predicate Valid(st: Store) {
    && Unique(st.homeworks, HomeworkId)
    && Unique(st.questions, QuestionId)
    && Unique(st.mistakes, MistakeId)
    && Unique(st.mistakes, MistakeQuestion)
    && Unique(st.knowledgePoints, KnowledgeKey)
    && Unique(st.practices, PracticeId)
  }

  /** The homework with id `id`, if any. */
  function HomeworkById(st: Store, id: Id): (r: Option<Homework>)
    ensures r.Some? ==> r.value in st.homeworks && r.value.id == id
    ensures r.None? ==> forall h :: h in st.homeworks ==> h.id != id
  {
    match Find(st.homeworks, HomeworkId, id)
    case Some(i) => Some(st.homeworks[i])
    case None => None
  }

  lemma FindAfterUpdate(hs: seq<Homework>, hs': seq<Homework>)
    requires |hs| == |hs'| && forall i :: 0 <= i < |hs| ==> HomeworkId(hs'[i]) == HomeworkId(hs[i])
    ensures forall k :: Find(hs', HomeworkId, k) == Find(hs, HomeworkId, k)
  {
    forall k ensures Find(hs', HomeworkId, k) == Find(hs, HomeworkId, k) {
      FindSameKeys(hs, hs', HomeworkId, k);
    }
  }

  /** The store with the homework `id` rewritten by `f`; nothing else changes. */
  function UpdateHomework(st: Store, id: Id, f: Homework -> Homework): (st': Store)
    requires forall h :: f(h).id == h.id
    ensures st'.questions == st.questions && st'.mistakes == st.mistakes
    ensures st'.knowledgePoints == st.knowledgePoints && st'.practices == st.practices
    ensures |st'.homeworks| == |st.homeworks|
    ensures forall i :: 0 <= i < |st.homeworks| ==>
      st'.homeworks[i] == (if st.homeworks[i].id == id then f(st.homeworks[i]) else st.homeworks[i])
    ensures Valid(st) ==> Valid(st')
    ensures forall k :: HomeworkById(st', k) == (if HomeworkById(st, k).Some? && k == id
                                                 then Some(f(HomeworkById(st, k).value))
                                                 else HomeworkById(st, k))
  {
    var hs := seq(|st.homeworks|, i requires 0 <= i < |st.homeworks| =>
      if st.homeworks[i].id == id then f(st.homeworks[i]) else st.homeworks[i]);
    assert forall i :: 0 <= i < |hs| ==> HomeworkId(hs[i]) == HomeworkId(st.homeworks[i]);
    FindAfterUpdate(st.homeworks, hs);
    st.(homeworks := hs)
  }
}

=== FILE: homework.dfy ===
/** `/api/homework`: creating a homework record after validating the request body, and listing the
    caller's homework with a summary of each one's questions. */
module HomeworkRoutes {
  import opened Common
  import opened Seqs
  import opened Sorting
  import opened Paging
  import opened Listing
  import opened Entities
  import opened Tables

  /** The subject enumeration of the creation schema, in declaration order. */
  const Subjects: seq<string> := ["CHINESE", "MATH", "ENGLISH", "PHYSICS", "CHEMISTRY",
                                  "BIOLOGY", "HISTORY", "GEOGRAPHY", "POLITICS", "SCIENCE"]

  // ---------------------------------------------------------------- validation

  /** The body's four fields; `None` is a missing field or one that is not a string. */
  datatype Body = Body(title: Option<string>, subject: Option<string>, imageUrl: Option<string>,
                       imagePath: Option<string>)

  /** The schema's fields, in declaration order. */
  datatype Field = Title | Subject | ImageUrl | ImagePath

  /** What a field's check found wrong: absent or not a string, shorter than its minimum, not one
      of the enumeration's values, not a URL. */
  datatype Problem = Required | TooShort | NotInEnum | NotUrl

  datatype Issue = Issue(field: Field, problem: Problem)

  /** The message the schema attaches to an issue; `None` for the schema library's own wording. */
  function CustomMessage(i: Issue): Option<string> {
    match i
    case Issue(Title, TooShort) => Some("请输入作业标题")
    case Issue(ImageUrl, NotUrl) => Some("请提供有效的图片URL")
    case Issue(ImagePath, TooShort) => Some("请提供图片路径")
    case _ => None
  }

  function Value(b: Body, f: Field): Option<string> {
    match f
    case Title => b.title
    case Subject => b.subject
    case ImageUrl => b.imageUrl
    case ImagePath => b.imagePath
  }

  /** The check of one field; `isUrl` is the schema library's URL test. */
  function Check(f: Field, v: Option<string>, isUrl: string -> bool): Option<Problem> {
    if v.None? then Some(Required)
    else match f
      case Title => if |v.value| < 1 then Some(TooShort) else None
      case Subject => if v.value !in Subjects then Some(NotInEnum) else None
      case ImageUrl => if !isUrl(v.value) then Some(NotUrl) else None
      case ImagePath => if |v.value| < 1 then Some(TooShort) else None
  }

  const FieldOrder: seq<Field> := [Title, Subject, ImageUrl, ImagePath]

  /** Every issue of the body, in field order. */
  function Issues(b: Body, isUrl: string -> bool): (r: seq<Issue>)
    ensures forall i :: i in r <==> i.field in FieldOrder && Check(i.field, Value(b, i.field), isUrl) == Some(i.problem)
  {
    IssuesFrom(b, isUrl, FieldOrder)
  }

  function IssuesFrom(b: Body, isUrl: string -> bool, fs: seq<Field>): (r: seq<Issue>)
    ensures forall i :: i in r <==> i.field in fs && Check(i.field, Value(b, i.field), isUrl) == Some(i.problem)
    decreases |fs|
  {
    if |fs| == 0 then []
    else
      var rest := IssuesFrom(b, isUrl, fs[1..]);
      assert forall f :: f in fs <==> f == fs[0] || f in fs[1..];
      match Check(fs[0], Value(b, fs[0]), isUrl)
      case None => rest
      case Some(p) => [Issue(fs[0], p)] + rest
  }

  /** The validated fields. */
  datatype NewHomework = NewHomework(title: string, subject: string, imageUrl: string, imagePath: string)

  datatype Validation = Rejected(first: Issue) | Accepted(data: NewHomework)

  predicate FieldOk(b: Body, f: Field, isUrl: string -> bool) {
    Check(f, Value(b, f), isUrl).None?
  }

  function FieldIndex(f: Field): nat {
    match f
    case Title => 0
    case Subject => 1
    case ImageUrl => 2
    case ImagePath => 3
  }

  /** `createHomeworkSchema.parse`: the data when every field passes, else the first issue in field
      order, as `errors[0]` reports it. */
  function Validate(b: Body, isUrl: string -> bool): (r: Validation)
    ensures r.Accepted? <==> forall f :: FieldOk(b, f, isUrl)
    ensures r.Rejected? ==> Check(r.first.field, Value(b, r.first.field), isUrl) == Some(r.first.problem)
    ensures r.Rejected? ==> forall f :: FieldIndex(f) < FieldIndex(r.first.field) ==> FieldOk(b, f, isUrl)
    ensures r.Accepted? ==> b.title.Some? && b.subject.Some? && b.imageUrl.Some? && b.imagePath.Some?
    ensures r.Accepted? ==> r.data == NewHomework(b.title.value, b.subject.value, b.imageUrl.value, b.imagePath.value)
  {
    var issues := Issues(b, isUrl);
    if |issues| == 0 then
      assert forall f :: FieldOk(b, f, isUrl) by {
        forall f ensures FieldOk(b, f, isUrl) {
          assert FieldOrder[FieldIndex(f)] == f;
        }
      }
      Accepted(NewHomework(b.title.value, b.subject.value, b.imageUrl.value, b.imagePath.value))
    else
      assert issues[0] in issues;
      assert !FieldOk(b, issues[0].field, isUrl);
      FirstIssueIsEarliest(b, isUrl);
      Rejected(issues[0])
  }

  /** The first issue belongs to the earliest failing field. */
  lemma FirstIssueIsEarliest(b: Body, isUrl: string -> bool)
    requires |Issues(b, isUrl)| > 0
    ensures forall f :: FieldIndex(f) < FieldIndex(Issues(b, isUrl)[0].field) ==> FieldOk(b, f, isUrl)
  {
    var ok := (f: Field) => FieldOk(b, f, isUrl);
    assert IssuesFrom(b, isUrl, FieldOrder) == Issues(b, isUrl);
    assert FieldOrder[1..] == [Subject, ImageUrl, ImagePath];
    assert FieldOrder[1..][1..] == [ImageUrl, ImagePath];
    assert FieldOrder[1..][1..][1..] == [ImagePath];
    assert FieldOrder[1..][1..][1..][1..] == [];
  }

  /** A body passes exactly when the title and path are non-empty strings, the subject is one of
      the ten subjects and the image URL is a URL. */
  lemma ValidIff(b: Body, isUrl: string -> bool)
    ensures Validate(b, isUrl).Accepted? <==>
      && b.title.Some? && |b.title.value| >= 1
      && b.subject.Some? && b.subject.value in Subjects
      && b.imageUrl.Some? && isUrl(b.imageUrl.value)
      && b.imagePath.Some? && |b.imagePath.value| >= 1
  {
    var ok := forall f :: FieldOk(b, f, isUrl);
    assert ok ==> (FieldOk(b, Title, isUrl) && FieldOk(b, Subject, isUrl)
                   && FieldOk(b, ImageUrl, isUrl) && FieldOk(b, ImagePath, isUrl));
  }

  // ---------------------------------------------------------------- creation

  /** `POST /api/homework`. The body is `None` when it is not JSON at all. */
  datatype PostReply = PostUnauthorized | BadRequest(issue: Issue) | Created(homework: Homework) | PostFailed
  {
    function Status(): int {
      match this
      case PostUnauthorized => 401
      case BadRequest(_) => 400
      case Created(_) => 201
      case PostFailed => 500
    }
  }

  /** The record `create` writes: the caller's, both statuses pending, no recognition yet. */
  function NewRecord(id: Id, user: UserId, d: NewHomework, now: int): (h: Homework)
    ensures h.id == id && h.userId == user
    ensures h.ocrStatus == OcrPending && h.correctionStatus == CorrectionPending
    ensures h.ocrText.None? && h.ocrResult.None?
    ensures h.title == d.title && h.subject == d.subject
    ensures h.imageUrl == d.imageUrl && h.imagePath == d.imagePath && h.createdAt == now
  {
    Homework(id, user, d.title, d.subject, d.imageUrl, d.imagePath, OcrPending, CorrectionPending,
             None, None, now)
  }

  function IdTaken(st: Store, id: Id): bool {
    exists i :: 0 <= i < |st.homeworks| && st.homeworks[i].id == id
  }

  /** The route. `newId` is the id the database generates; a clash with an existing id is the
      unique-constraint failure. */
  function Post(st: Store, user: Option<UserId>, body: Option<Body>, isUrl: string -> bool,
                newId: Id, now: int): (r: (Store, PostReply))
    ensures Valid(st) ==> Valid(r.0)
    ensures !r.1.Created? ==> r.0 == st
    ensures r.1.PostUnauthorized? <==> user.None?
    ensures r.1.BadRequest? <==> user.Some? && body.Some? && Validate(body.value, isUrl).Rejected?
    ensures r.1.BadRequest? ==> r.1.issue == Validate(body.value, isUrl).first
    ensures r.1.PostFailed? <==> user.Some? && (body.None? || (Validate(body.value, isUrl).Accepted? && IdTaken(st, newId)))
    ensures r.1.Created? ==>
      && r.1.homework == NewRecord(newId, user.value, Validate(body.value, isUrl).data, now)
      && r.0 == st.(homeworks := st.homeworks + [r.1.homework])
  {
    if user.None? then (st, PostUnauthorized)
    else if body.None? then (st, PostFailed)
    else match Validate(body.value, isUrl)
      case Rejected(i) => (st, BadRequest(i))
      case Accepted(d) =>
        if IdTaken(st, newId) then (st, PostFailed)
        else
          var h := NewRecord(newId, user.value, d, now);
          var st' := st.(homeworks := st.homeworks + [h]);
          assert Valid(st) ==> Unique(st'.homeworks, HomeworkId) by {
            if Valid(st) { AppendKeepsUnique(st.homeworks, HomeworkId, h); }
          }
          (st', Created(h))
  }

  // ---------------------------------------------------------------- listing

  const DefaultPage: nat := 1
  const DefaultLimit: nat := 10

  datatype Query = Query(page: Option<nat>, limit: Option<nat>, subject: Option<string>)

  /** The selected columns of a question in a listing. */
  datatype QuestionSummary = QuestionSummary(id: Id, questionNumber: string, isCorrect: Option<bool>)

  datatype Item = Item(homework: Homework, questions: seq<QuestionSummary>)

  datatype ListReply = ListUnauthorized | Listed(items: seq<Item>, pagination: Pagination) | ListFailed

  predicate Matches(user: UserId, subject: Option<string>, h: Homework) {
    h.userId == user && (Given(subject) ==> h.subject == subject.value)
  }

  /** The listing's `where`, as a filter. */
  function Selects(user: UserId, subject: Option<string>): Homework -> bool {
    h => Matches(user, subject, h)
  }

  /** `orderBy: { createdAt: 'desc' }`. */
  predicate NewerFirst(a: Homework, b: Homework) {
    a.createdAt >= b.createdAt
  }

  function Summary(q: Question): QuestionSummary {
    QuestionSummary(q.id, q.questionNumber, q.isCorrect)
  }

  /** The questions `include` attaches to a homework. */
  function OfHomework(hid: Id): Question -> bool {
    (q: Question) => q.homeworkId == hid
  }

  /** `include: { questions }`: the summaries of the homework's questions, one per question, in
      table order. */
  function QuestionsOf(qs: seq<Question>, hid: Id): (r: seq<QuestionSummary>)
    ensures forall s :: s in r <==> exists q :: q in qs && q.homeworkId == hid && s == Summary(q)
    ensures |r| == |Filter(qs, OfHomework(hid))|
    ensures forall k :: 0 <= k < |r| ==> r[k] == Summary(Filter(qs, OfHomework(hid))[k])
    decreases |qs|
  {
    if |qs| == 0 then []
    else
      var rest := QuestionsOf(qs[1..], hid);
      assert forall q :: q in qs <==> q == qs[0] || q in qs[1..];
      var f := Filter(qs[1..], OfHomework(hid));
      if qs[0].homeworkId == hid then
        assert Filter(qs, OfHomework(hid)) == [qs[0]] + f;
        SummariesCons(qs[0], f, rest);
        [Summary(qs[0])] + rest
      else
        assert Filter(qs, OfHomework(hid)) == f;
        rest
  }

  lemma SummariesCons(q: Question, f: seq<Question>, rest: seq<QuestionSummary>)
    requires |rest| == |f| && forall k :: 0 <= k < |f| ==> rest[k] == Summary(f[k])
    ensures |[Summary(q)] + rest| == |[q] + f|
    ensures forall k :: 0 <= k < |[q] + f| ==> ([Summary(q)] + rest)[k] == Summary(([q] + f)[k])
  {
  }

  function Items(qs: seq<Question>, hs: seq<Homework>): (r: seq<Item>)
    ensures |r| == |hs|
    ensures forall k :: 0 <= k < |hs| ==> r[k] == Item(hs[k], QuestionsOf(qs, hs[k].id))
  {
    seq(|hs|, k requires 0 <= k < |hs| => Item(hs[k], QuestionsOf(qs, hs[k].id)))
  }

  /** `GET /api/homework`. */
  function Get(st: Store, user: Option<UserId>, q: Query): (r: ListReply)
    ensures r.ListUnauthorized? <==> user.None?
    ensures r.ListFailed? <==> user.Some? && q.page.GetOr(DefaultPage) == 0 && q.limit.GetOr(DefaultLimit) > 0
    ensures r.Listed? ==>
      assert Total(NewerFirst);
      Window(Ordered(st.homeworks, Selects(user.value, q.subject), NewerFirst),
             q.page.GetOr(DefaultPage), q.limit.GetOr(DefaultLimit)) == Some(HomeworksOf(r.items))
    ensures r.Listed? ==> |r.items| <= q.limit.GetOr(DefaultLimit)
    ensures r.Listed? ==> forall k :: 0 <= k < |r.items| ==>
      && r.items[k].homework in st.homeworks
      && Matches(user.value, q.subject, r.items[k].homework)
      && r.items[k].questions == QuestionsOf(st.questions, r.items[k].homework.id)
    ensures r.Listed? ==> forall i, j :: 0 <= i < j < |r.items| ==>
      r.items[i].homework.createdAt >= r.items[j].homework.createdAt
    ensures r.Listed? ==>
      var total := |Filter(st.homeworks, Selects(user.value, q.subject))|;
      r.pagination == Pagination(q.page.GetOr(DefaultPage), q.limit.GetOr(DefaultLimit), total,
                                 TotalPages(total, q.limit.GetOr(DefaultLimit)))
  {
    if user.None? then ListUnauthorized
    else
      assert Total(NewerFirst);
      match Paged(st.homeworks, Selects(user.value, q.subject), NewerFirst,
                  q.page.GetOr(DefaultPage), q.limit.GetOr(DefaultLimit))
      case None => ListFailed
      case Some((rows, pagination)) =>
        PagedIsWindow(st.homeworks, Selects(user.value, q.subject), NewerFirst,
                      q.page.GetOr(DefaultPage), q.limit.GetOr(DefaultLimit));
        PageItems(st, rows, user.value, q.subject);
        assert HomeworksOf(Items(st.questions, rows)) == rows;
        Listed(Items(st.questions, rows), pagination)
  }

  /** The items of a page of the caller's homework: the rows, each with its questions, newest
      first. */
  lemma PageItems(st: Store, rows: seq<Homework>, user: UserId, subject: Option<string>)
    requires forall x :: x in rows ==> x in st.homeworks && Selects(user, subject)(x)
    requires Sorted(rows, NewerFirst)
    ensures forall k :: 0 <= k < |rows| ==>
      && Items(st.questions, rows)[k].homework in st.homeworks
      && Matches(user, subject, Items(st.questions, rows)[k].homework)
      && Items(st.questions, rows)[k].questions == QuestionsOf(st.questions, Items(st.questions, rows)[k].homework.id)
    ensures forall i, j :: 0 <= i < j < |rows| ==>
      Items(st.questions, rows)[i].homework.createdAt >= Items(st.questions, rows)[j].homework.createdAt
  {
    var items := Items(st.questions, rows);
    forall k | 0 <= k < |rows|
      ensures items[k].homework in st.homeworks && Matches(user, subject, items[k].homework)
    {
      assert rows[k] in rows;
    }
    forall i, j | 0 <= i < j < |rows| ensures items[i].homework.createdAt >= items[j].homework.createdAt {
      assert NewerFirst(rows[i], rows[j]);
    }
  }

  /** A listing shows only the caller's homework: another user's record never appears, whatever
      the query. */
  lemma NoForeignHomework(st: Store, user: UserId, q: Query, h: Homework)
    requires h.userId != user
    requires Get(st, Some(user), q).Listed?
    ensures forall it :: it in Get(st, Some(user), q).items ==> it.homework != h
  {
    var items := Get(st, Some(user), q).items;
    forall it | it in items ensures it.homework != h {
      var k :| 0 <= k < |items| && items[k] == it;
    }
  }

  /** Every homework of the caller that the subject filter admits appears on some page. */
  lemma EveryOwnHomeworkListed(st: Store, user: UserId, h: Homework, subject: Option<string>, limit: nat)
    requires h in st.homeworks && Matches(user, subject, h) && limit > 0
    ensures exists page :: (page >= 1 && Get(st, Some(user), Query(Some(page), Some(limit), subject)).Listed?
      && h in HomeworksOf(Get(st, Some(user), Query(Some(page), Some(limit), subject)).items))
  {
    var p := Selects(user, subject);
    assert Total(NewerFirst);
    EveryMatchOnSomePage(st.homeworks, p, NewerFirst, limit, h);
    var page :| page >= 1 && Paged(st.homeworks, p, NewerFirst, page, limit).Some?
                && h in Paged(st.homeworks, p, NewerFirst, page, limit).value.0;
    var rows := Paged(st.homeworks, p, NewerFirst, page, limit).value.0;
    var items := Get(st, Some(user), Query(Some(page), Some(limit), subject)).items;
    assert items == Items(st.questions, rows);
    var k :| 0 <= k < |rows| && rows[k] == h;
    assert HomeworksOf(items)[k] == h;
  }

  /** A created homework is listed for its owner, unfiltered or filtered by its own subject. */
  lemma CreatedIsListed(st: Store, user: UserId, body: Body, isUrl: string -> bool, newId: Id, now: int,
                        subject: Option<string>, limit: nat)
    requires Post(st, Some(user), Some(body), isUrl, newId, now).1.Created?
    requires limit > 0
    requires !Given(subject) || subject.value == body.subject.value
    ensures var (st', reply) := Post(st, Some(user), Some(body), isUrl, newId, now);
      exists page :: (page >= 1 && Get(st', Some(user), Query(Some(page), Some(limit), subject)).Listed?
        && reply.homework in HomeworksOf(Get(st', Some(user), Query(Some(page), Some(limit), subject)).items))
  {
    var (st', reply) := Post(st, Some(user), Some(body), isUrl, newId, now);
    assert reply.homework in st'.homeworks;
    EveryOwnHomeworkListed(st', user, reply.homework, subject, limit);
  }

  function HomeworksOf(items: seq<Item>): (r: seq<Homework>)
    ensures |r| == |items| && forall k :: 0 <= k < |items| ==> r[k] == items[k].homework
  {
    seq(|items|, k requires 0 <= k < |items| => items[k].homework)
  }
}

=== FILE: json_text.dfy ===
/** The two JSON text operations the routes perform themselves: cutting the JSON object out of a
    model reply with `/\{[\s\S]*\}/`, and `JSON.stringify` of a list of strings (how knowledge
    points and options are stored). Parsing JSON is not modelled; the routes receive a parser. */
module JsonText {
  import opened Common
  import opened Text

  /** Position of the first `c` in `s`. */
  function FirstIndex(s: string, c: char): (r: Option<nat>)
    ensures r.None? <==> c !in s
    ensures r.Some? ==> r.value < |s| && s[r.value] == c && c !in s[..r.value]
    decreases |s|
  {
    if |s| == 0 then None
    else if s[0] == c then Some(0)
    else
      match FirstIndex(s[1..], c)
      case None => None
      case Some(i) =>
        assert s[..i + 1] == [s[0]] + s[1..][..i];
        Some(i + 1)
  }

  /** Position of the last `c` in `s`. */
  function LastIndex(s: string, c: char): (r: Option<nat>)
    ensures r.None? <==> c !in s
    ensures r.Some? ==> r.value < |s| && s[r.value] == c && c !in s[r.value + 1..]
    decreases |s|
  {
    if |s| == 0 then None
    else if s[|s| - 1] == c then Some(|s| - 1)
    else
      var r := LastIndex(s[..|s| - 1], c);
      assert r.Some? ==> s[r.value + 1..] == s[..|s| - 1][r.value + 1..] + [s[|s| - 1]];
      assert r.None? ==> s == s[..|s| - 1] + [s[|s| - 1]];
      r
  }

  /** The match of `/\{[\s\S]*\}/`: from the first `{` through the last `}`, provided that `}`
      comes after that `{`. */
  function ExtractJson(text: string): (r: Option<string>)
    ensures r.Some? ==> |r.value| >= 2 && r.value[0] == '{' && r.value[|r.value| - 1] == '}'
    ensures r.Some? ==> exists i :: OccursAt(text, r.value, i) && '{' !in text[..i]
                                  && '}' !in text[i + |r.value|..]
    ensures r.None? <==> forall i, j :: 0 <= i < j < |text| ==> !(text[i] == '{' && text[j] == '}')
  {
    match (FirstIndex(text, '{'), LastIndex(text, '}'))
    case (Some(i), Some(j)) =>
      if i < j then
        var span := text[i..j + 1];
        assert OccursAt(text, span, i);
        Some(span)
      else
        assert forall a :: 0 <= a < |text| && text[a] == '{' ==> a >= i by {
          forall a | 0 <= a < i ensures text[a] != '{' { assert text[..i][a] == text[a]; }
        }
        assert forall b :: 0 <= b < |text| && text[b] == '}' ==> b <= j by {
          forall b | j < b < |text| ensures text[b] != '}' { assert text[j + 1..][b - j - 1] == text[b]; }
        }
        None
    case (None, _) => None
    case (_, None) => None
  }

  /** One character as `JSON.stringify` writes it inside a string literal. */
  function EscapeChar(ch: char): string {
    if ch == '"' then "\\\""
    else if ch == '\\' then "\\\\"
    else if ch == '\U{0008}' then "\\b"
    else if ch == '\U{000C}' then "\\f"
    else if ch == '\n' then "\\n"
    else if ch == '\r' then "\\r"
    else if ch == '\t' then "\\t"
    else if ch < ' ' then "\\u00" + [HexDigit(ch as int / 16), HexDigit(ch as int % 16)]
    else [ch]
  }

  function HexDigit(d: nat): char
    requires d < 16
  {
    if d < 10 then ('0' as int + d) as char else ('a' as int + d - 10) as char
  }

  /** A character `JSON.stringify` copies unchanged. */
  predicate Plain(ch: char) {
    ch != '"' && ch != '\\' && ch >= ' '
  }

  /** The body of a JSON string literal. */
  function Escape(s: string): (r: string)
    ensures (forall i :: 0 <= i < |s| ==> Plain(s[i])) ==> r == s
    decreases |s|
  {
    if |s| == 0 then "" else EscapeChar(s[0]) + Escape(s[1..])
  }

  /** `JSON.stringify` of one string. */
  function Quote(s: string): string {
    "\"" + Escape(s) + "\""
  }

  /** `JSON.stringify` of an array of strings: `["a","b"]`. */
  function SerializeStrings(xs: seq<string>): (r: string)
    ensures |r| >= 2 && r[0] == '[' && r[|r| - 1] == ']'
  {
    "[" + Join(QuoteAll(xs), ",") + "]"
  }

  function QuoteAll(xs: seq<string>): (r: seq<string>)
    ensures |r| == |xs|
    ensures forall k :: 0 <= k < |xs| ==> r[k] == Quote(xs[k])
    decreases |xs|
  {
    if |xs| == 0 then [] else [Quote(xs[0])] + QuoteAll(xs[1..])
  }

  /** A stored list always contains each of its entries in quoted form, so a substring filter for
      `"k"` finds every list that has `k` as an entry; for plain text `k` itself is found. */
  lemma SerializedContainsEntry(xs: seq<string>, k: nat)
    requires k < |xs|
    ensures Contains(SerializeStrings(xs), Quote(xs[k]))
    ensures (forall i :: 0 <= i < |xs[k]| ==> Plain(xs[k][i])) ==> Contains(SerializeStrings(xs), xs[k])
  {
    var body := Join(QuoteAll(xs), ",");
    JoinContainsPart(QuoteAll(xs), ",", k);
    ContainsInside("[", body, "]");
    ContainsTrans(SerializeStrings(xs), body, Quote(xs[k]));
    ContainsInside("\"", Escape(xs[k]), "\"");
    ContainsTrans(SerializeStrings(xs), Quote(xs[k]), Escape(xs[k]));
  }
}

=== FILE: knowledge_list.dfy ===
/** `GET /api/knowledge`: the global knowledge-point counters, filtered and ranked, with the
    caller's unmastered mistakes counted per subject. */
module KnowledgeList {
  import opened Common
  import opened Text
  import opened Seqs
  import opened Sorting
  import opened Entities

  const Limit: nat := 50
  const DefaultSortBy: string := "mistakeCount"

  datatype Query = Query(subject: Option<string>, q: Option<string>, sortBy: Option<string>)

  datatype Reply =
    | Unauthorized
    | Listed(knowledgePoints: seq<KnowledgePoint>, subjectStats: map<string, nat>)

  /** The `where` object: subject exactly, name containing `q`, each only when non-empty. No
      user condition: the counters are shared by all users. */
  predicate Matches(query: Query, k: KnowledgePoint) {
    && (Given(query.subject) ==> k.subject == query.subject.value)
    && (Given(query.q) ==> Contains(k.name, query.q.value))
  }

  predicate ByCount(a: KnowledgePoint, b: KnowledgePoint) {
    a.mistakeCount >= b.mistakeCount
  }

  predicate ByRecency(a: KnowledgePoint, b: KnowledgePoint) {
    a.updatedAt >= b.updatedAt
  }

  /** `sortBy` defaults to "mistakeCount"; any other value orders by `updatedAt`. */
  function Order(sortBy: Option<string>): (KnowledgePoint, KnowledgePoint) -> bool {
    if OrElse(sortBy, DefaultSortBy) == DefaultSortBy then ByCount else ByRecency
  }

  lemma OrderTotal(sortBy: Option<string>)
    ensures Total(Order(sortBy))
  {
    assert Total(ByCount);
    assert Total(ByRecency);
  }

  /** The caller's rows not yet mastered: the `where` of the subject statistics. */
  predicate Unmastered(user: UserId, m: Mistake) {
    m.userId == user && !m.mastered
  }

  function MistakeSubject(m: Mistake): string {
    m.subject
  }

  /** `groupBy subject` over the caller's unmastered mistakes: each subject that has one, with
      how many it has. */
  function SubjectStats(ms: seq<Mistake>, user: UserId): (r: map<string, nat>)
    ensures forall s :: s in r <==> exists m :: m in ms && Unmastered(user, m) && m.subject == s
    ensures forall s :: s in r ==> r[s] == CountWhere(ms, m => Unmastered(user, m), MistakeSubject, s)
  {
    GroupWhere(ms, m => Unmastered(user, m), MistakeSubject)
  }

  /** The route's `where`, as a filter. */
  function Selects(query: Query): KnowledgePoint -> bool {
    (k: KnowledgePoint) => Matches(query, k)
  }

  /** The knowledge points the query selects, in the chosen order, at most `Limit`; no point
      more often than the table holds it. */
  function Ranking(kps: seq<KnowledgePoint>, query: Query): (r: seq<KnowledgePoint>)
    ensures |r| == if Limit < |Filter(kps, Selects(query))| then Limit else |Filter(kps, Selects(query))|
    ensures multiset(r) <= multiset(Filter(kps, Selects(query)))
    ensures forall k :: k in r ==> k in kps && Matches(query, k)
    ensures Sorted(r, Order(query.sortBy))
    ensures forall k, y :: k in kps && Matches(query, k) && k !in r && y in r ==> Order(query.sortBy)(y, k)
    ensures forall k :: k in kps && Matches(query, k) && k !in r ==> |r| == Limit
  {
    OrderTotal(query.sortBy);
    TopK(Filter(kps, Selects(query)), Order(query.sortBy), Limit)
  }

  /** The route. */
  function Get(st: Store, user: Option<UserId>, query: Query): (r: Reply)
    ensures r.Unauthorized? <==> user.None?
    ensures r.Listed? ==> r.knowledgePoints == Ranking(st.knowledgePoints, query)
    ensures r.Listed? ==> r.subjectStats == SubjectStats(st.mistakes, user.value)
  {
    if user.None? then Unauthorized
    else Listed(Ranking(st.knowledgePoints, query), SubjectStats(st.mistakes, user.value))
  }

  /** By default the most frequent knowledge points come first: a listed point has a count no
      lower than a later one, and no left-out point beats a listed one. */
  lemma DefaultRanksByCount(kps: seq<KnowledgePoint>, query: Query)
    requires !Given(query.sortBy) || query.sortBy.value == DefaultSortBy
    ensures var r := Ranking(kps, query);
      && (forall i, j :: 0 <= i < j < |r| ==> r[i].mistakeCount >= r[j].mistakeCount)
      && (forall k, y :: k in kps && Matches(query, k) && k !in r && y in r ==> y.mistakeCount >= k.mistakeCount)
  {
    var r := Ranking(kps, query);
    assert Order(query.sortBy) == ByCount;
    forall i, j | 0 <= i < j < |r| ensures r[i].mistakeCount >= r[j].mistakeCount {
      assert ByCount(r[i], r[j]);
    }
    forall k, y | k in kps && Matches(query, k) && k !in r && y in r ensures y.mistakeCount >= k.mistakeCount {
      assert ByCount(y, k);
    }
  }

  /** Any other `sortBy` value ranks by last update instead. */
  lemma OtherSortRanksByRecency(kps: seq<KnowledgePoint>, query: Query)
    requires Given(query.sortBy) && query.sortBy.value != DefaultSortBy
    ensures var r := Ranking(kps, query);
      forall i, j :: 0 <= i < j < |r| ==> r[i].updatedAt >= r[j].updatedAt
  {
    var r := Ranking(kps, query);
    assert Order(query.sortBy) == ByRecency;
    forall i, j | 0 <= i < j < |r| ensures r[i].updatedAt >= r[j].updatedAt {
      assert ByRecency(r[i], r[j]);
    }
  }

  /** The listing does not depend on who asks. */
  lemma SameForEveryUser(st: Store, u1: UserId, u2: UserId, query: Query)
    ensures Get(st, Some(u1), query).knowledgePoints == Get(st, Some(u2), query).knowledgePoints
  {
  }
}

=== FILE: listing.dfy ===
/** The shape every paginated listing route shares: filter the table with the route's `where`,
    order it with `orderBy`, cut one page, and report `count` over the same filter. */
module Listing {
  import opened Common
  import opened Seqs
  import opened Sorting
  import opened Paging

  /** The `pagination` object of a listing reply. */
  datatype Pagination = Pagination(page: nat, limit: nat, total: nat, totalPages: Option<nat>)

  /** `where` then `orderBy`: the matching rows in listing order. */
  function Ordered<T(!new)>(xs: seq<T>, p: T -> bool, le: (T, T) -> bool): (r: seq<T>)
    requires Total(le)
    ensures Sorted(r, le)
    ensures |r| == |Filter(xs, p)|
    ensures forall x :: x in r <==> x in xs && p(x)
  {
    var s := Sort(Filter(xs, p), le);
    assert forall x :: x in s <==> x in multiset(s);
    s
  }

  /** `findMany({ where, orderBy, skip, take })` together with `count({ where })`. A negative skip
      (page 0) is refused by the database client: `None`. */
  function Paged<T(!new)>(xs: seq<T>, p: T -> bool, le: (T, T) -> bool, page: nat, limit: nat)
    : (r: Option<(seq<T>, Pagination)>)
    requires Total(le)
    ensures r.None? <==> page == 0 && limit > 0
    ensures r.Some? ==> |r.value.0| <= limit
    ensures r.Some? ==> forall x :: x in r.value.0 ==> x in xs && p(x)
    ensures r.Some? ==> Sorted(r.value.0, le)
    ensures r.Some? ==> r.value.1 == Pagination(page, limit, |Filter(xs, p)|, TotalPages(|Filter(xs, p)|, limit))
  {
    var s := Ordered(xs, p, le);
    match Window(s, page, limit)
    case None => SkipNegative(page, limit); None
    case Some(w) =>
      SkipNegative(page, limit);
      WindowFacts(s, le, page, limit);
      Some((w, Pagination(page, limit, |Filter(xs, p)|, TotalPages(|Filter(xs, p)|, limit))))
  }

  /** A page of a sorted sequence is sorted and holds only rows of the sequence. */
  lemma WindowFacts<T>(s: seq<T>, le: (T, T) -> bool, page: nat, limit: nat)
    requires Sorted(s, le) && Window(s, page, limit).Some?
    ensures Sorted(Window(s, page, limit).value, le)
    ensures forall x :: x in Window(s, page, limit).value ==> x in s
  {
    var w := Window(s, page, limit).value;
    var skip := Skip(page, limit);
    forall i, j | 0 <= i < j < |w| ensures le(w[i], w[j]) {
      assert w[i] == s[skip + i] && w[j] == s[skip + j];
    }
    forall x | x in w ensures x in s {
      var i :| 0 <= i < |w| && w[i] == x;
      assert s[skip + i] == x;
    }
  }

  /** Paging through the listing reaches every matching row: each is on some page. */
  lemma EveryMatchOnSomePage<T(!new)>(xs: seq<T>, p: T -> bool, le: (T, T) -> bool, limit: nat, x: T)
    requires Total(le) && limit > 0 && x in xs && p(x)
    ensures exists page :: page >= 1 && Paged(xs, p, le, page, limit).Some?
                           && x in Paged(xs, p, le, page, limit).value.0
  {
    var s := Ordered(xs, p, le);
    assert x in s;
    RowOnSomePage(s, limit, x);
    var page :| page >= 1 && Window(s, page, limit).Some? && x in Window(s, page, limit).value;
    PagedIsWindow(xs, p, le, page, limit);
  }

  /** A page of the listing is the corresponding window of the ordered matches. */
  lemma PagedIsWindow<T(!new)>(xs: seq<T>, p: T -> bool, le: (T, T) -> bool, page: nat, limit: nat)
    requires Total(le)
    ensures Paged(xs, p, le, page, limit).Some? <==> Window(Ordered(xs, p, le), page, limit).Some?
    ensures Paged(xs, p, le, page, limit).Some? ==>
      Paged(xs, p, le, page, limit).value.0 == Window(Ordered(xs, p, le), page, limit).value
  {
  }

  /** The pages follow one order: a row on an earlier page ranks no later than a row on a later
      page. */
  lemma EarlierPageRanksFirst<T(!new)>(xs: seq<T>, p: T -> bool, le: (T, T) -> bool, limit: nat,
                                        page1: nat, page2: nat, i: nat, j: nat)
    requires Total(le) && 1 <= page1 < page2
    requires Paged(xs, p, le, page1, limit).Some? && i < |Paged(xs, p, le, page1, limit).value.0|
    requires Paged(xs, p, le, page2, limit).Some? && j < |Paged(xs, p, le, page2, limit).value.0|
    ensures le(Paged(xs, p, le, page1, limit).value.0[i], Paged(xs, p, le, page2, limit).value.0[j])
  {
    var s := Ordered(xs, p, le);
    assert Paged(xs, p, le, page1, limit).value.0 == Window(s, page1, limit).value;
    assert Paged(xs, p, le, page2, limit).value.0 == Window(s, page2, limit).value;
    LaterPageLaterRow(s, le, limit, page1, page2, i, j);
  }

  lemma LaterPageLaterRow<T>(s: seq<T>, le: (T, T) -> bool, limit: nat, page1: nat, page2: nat, i: nat, j: nat)
    requires Sorted(s, le) && 1 <= page1 < page2
    requires Window(s, page1, limit).Some? && i < |Window(s, page1, limit).value|
    requires Window(s, page2, limit).Some? && j < |Window(s, page2, limit).value|
    ensures le(Window(s, page1, limit).value[i], Window(s, page2, limit).value[j])
  {
    var a := Skip(page1, limit) + i;
    var b := Skip(page2, limit) + j;
    SkipMonotone(page1, page2, limit);
  }
}

=== FILE: mistake_list.dfy ===
/** `GET /api/mistakes`: the caller's mistake log, filtered by the query string, unmastered rows
    first, then by mistake count and recency, one page at a time. */
module MistakeList {
  import opened Common
  import opened Text
  import opened Seqs
  import opened Sorting
  import opened Paging
  import opened Listing
  import opened Entities

  const DefaultPage: nat := 1
  const DefaultLimit: nat := 20

  /** The query string. `page` and `limit` are already parsed; `None` stands for a missing or
      empty parameter. */
  datatype Query = Query(page: Option<nat>, limit: Option<nat>, filter: Where)

  /** The filtering parameters. */
  datatype Where = Where(subject: Option<string>, mastered: Option<string>, knowledgePoint: Option<string>)

  datatype Reply =
    | Unauthorized
    | Listed(mistakes: seq<Mistake>, pagination: Pagination)
    | ServerError
  {
    function Status(): int {
      match this
      case Unauthorized => 401
      case Listed(_, _) => 200
      case ServerError => 500
    }
  }

  /** The `where` object: always the caller's rows; subject and knowledge point only when
      non-empty; `mastered` whenever the parameter is present, true only for the text "true". */
  predicate Matches(user: UserId, w: Where, m: Mistake) {
    && m.userId == user
    && (Given(w.subject) ==> m.subject == w.subject.value)
    && (w.mastered.Some? ==> m.mastered == (w.mastered.value == "true"))
    && (Given(w.knowledgePoint) ==> Contains(m.knowledgePoints, w.knowledgePoint.value))
  }

  /** `orderBy: [mastered asc, mistakeCount desc, lastMistakeAt desc]`: `a` may be listed
      before `b`. */
  predicate ListOrder(a: Mistake, b: Mistake) {
    || (!a.mastered && b.mastered)
    || (a.mastered == b.mastered && a.mistakeCount > b.mistakeCount)
    || (a.mastered == b.mastered && a.mistakeCount == b.mistakeCount && a.lastMistakeAt >= b.lastMistakeAt)
  }

  lemma ListOrderTotal()
    ensures Total(ListOrder)
  {
  }

  /** The route's `where`, as a filter. */
  function Selects(user: UserId, w: Where): Mistake -> bool {
    m => Matches(user, w, m)
  }

  /** The route. */
  function Get(st: Store, user: Option<UserId>, q: Query): (r: Reply)
    ensures r.Unauthorized? <==> user.None?
    ensures r.ServerError? <==> user.Some? && q.page.GetOr(DefaultPage) == 0 && q.limit.GetOr(DefaultLimit) > 0
    ensures r.Listed? ==>
      var page, limit := q.page.GetOr(DefaultPage), q.limit.GetOr(DefaultLimit);
      var total := |Filter(st.mistakes, Selects(user.value, q.filter))|;
      r.pagination == Pagination(page, limit, total, TotalPages(total, limit))
    ensures r.Listed? ==>
      assert Total(ListOrder);
      Window(Ordered(st.mistakes, Selects(user.value, q.filter), ListOrder),
             q.page.GetOr(DefaultPage), q.limit.GetOr(DefaultLimit)) == Some(r.mistakes)
    ensures r.Listed? ==> |r.mistakes| <= q.limit.GetOr(DefaultLimit)
    ensures r.Listed? ==> forall m :: m in r.mistakes ==> m in st.mistakes && Matches(user.value, q.filter, m)
    ensures r.Listed? ==> Sorted(r.mistakes, ListOrder)
    ensures r.Listed? ==> forall i, j :: 0 <= i < j < |r.mistakes| && r.mistakes[i].mastered ==> r.mistakes[j].mastered
  {
    if user.None? then Unauthorized
    else
      ListOrderTotal();
      match Paged(st.mistakes, Selects(user.value, q.filter), ListOrder,
                  q.page.GetOr(DefaultPage), q.limit.GetOr(DefaultLimit))
      case None => ServerError
      case Some((rows, pagination)) =>
        PagedIsWindow(st.mistakes, Selects(user.value, q.filter), ListOrder,
                      q.page.GetOr(DefaultPage), q.limit.GetOr(DefaultLimit));
        MasteredLast(rows);
        Listed(rows, pagination)
  }

  /** In a list in `ListOrder`, no unmastered row follows a mastered one. */
  lemma MasteredLast(rows: seq<Mistake>)
    requires Sorted(rows, ListOrder)
    ensures forall i, j :: 0 <= i < j < |rows| && rows[i].mastered ==> rows[j].mastered
  {
    forall i, j | 0 <= i < j < |rows| && rows[i].mastered ensures rows[j].mastered {
      assert ListOrder(rows[i], rows[j]);
    }
  }

  /** Every mistake the filter admits is listed on some page, whatever the page size. */
  lemma EveryMatchListed(st: Store, user: UserId, q: Query, m: Mistake)
    requires m in st.mistakes && Matches(user, q.filter, m) && q.limit.GetOr(DefaultLimit) > 0
    ensures exists page :: page >= 1 && Get(st, Some(user), q.(page := Some(page))).Listed?
                           && m in Get(st, Some(user), q.(page := Some(page))).mistakes
  {
    var p := Selects(user, q.filter);
    var limit := q.limit.GetOr(DefaultLimit);
    ListOrderTotal();
    EveryMatchOnSomePage(st.mistakes, p, ListOrder, limit, m);
    var page :| page >= 1 && Paged(st.mistakes, p, ListOrder, page, limit).Some?
                && m in Paged(st.mistakes, p, ListOrder, page, limit).value.0;
    var q' := q.(page := Some(page));
    assert Get(st, Some(user), q').mistakes == Paged(st.mistakes, p, ListOrder, page, limit).value.0;
  }

  /** A page's rows are all mistakes the filter admits. A "mastered" parameter other than
      "true" lists only unmastered rows. */
  lemma OtherMasteredValueMeansUnmastered(st: Store, user: UserId, q: Query)
    requires q.filter.mastered.Some? && q.filter.mastered.value != "true"
    requires Get(st, Some(user), q).Listed?
    ensures forall m :: m in Get(st, Some(user), q).mistakes ==> !m.mastered
  {
  }
}

=== FILE: ocr.dfy ===
/** The OCR route: the homework's OCR status machine (PROCESSING, then COMPLETED or FAILED), the
    image handed to the vision model, and the Question rows created from the recognised items. */
module Ocr {
  import opened Common
  import opened Text
  import opened Tables
  import opened Entities
  import opened JsonText
  import CorrectionPrompt

  /** The request body: either field may be missing. */
  datatype Request = Request(homeworkId: Option<string>, imageUrl: Option<string>)

  /** The raw body: text `request.json()` cannot read (or JSON `null`, which cannot be
      destructured), or a parsed request. */
  datatype Body = NotJson | Json(req: Request)

  /** A downloaded image: its `content-type` header, if any, and its bytes in base64. */
  datatype Download = Download(contentType: Option<string>, base64: string)

  /** What the outside world does during one recognition. `sign` is the signed-URL builder,
      `download` the `fetch` of a URL (`None`: it threw or was not ok), `reply` the vision
      model's text (`None`: the call threw), `parse` stands for `JSON.parse`, and `mint(k)` is
      the id the database gives the k-th created question. */
  datatype World = World(
    ossKeyIdSet: bool,
    sign: string -> string,
    download: string -> Option<Download>,
    reply: Option<string>,
    parse: string -> Option<OcrResult>,
    mint: nat -> Id)

  datatype Reply =
    | Unauthorized
    | NotConfigured
    | MissingFields
    | HomeworkNotFound
    | Recognized(result: OcrResult)
    | Failed
    | ServerError
  {
    function Status(): int {
      match this
      case Unauthorized => 401
      case NotConfigured => 500
      case MissingFields => 400
      case HomeworkNotFound => 404
      case Recognized(_) => 200
      case Failed => 500
      case ServerError => 500
    }
  }

  /** The URL fetched for an image: the signed URL for an object in the OSS domain when the
      access key id is configured, the URL itself otherwise. */
  function FetchUrl(imageUrl: string, ossKeyIdSet: bool, sign: string -> string): string {
    if Contains(imageUrl, ".aliyuncs.com/") && ossKeyIdSet then sign(imageUrl) else imageUrl
  }

  /** `fetchImageAsBase64`: a `data:` URL is passed through without a download; otherwise the
      download becomes a `data:` URL, typed `image/jpeg` when the header is missing or empty. */
  function ResolveImage(imageUrl: string, w: World): (r: Option<string>)
    ensures StartsWith(imageUrl, "data:") ==> r == Some(imageUrl)
    ensures r.Some? ==> StartsWith(r.value, "data:")
    ensures !StartsWith(imageUrl, "data:") ==>
      (r.Some? <==> w.download(FetchUrl(imageUrl, w.ossKeyIdSet, w.sign)).Some?)
  {
    if StartsWith(imageUrl, "data:") then Some(imageUrl)
    else match w.download(FetchUrl(imageUrl, w.ossKeyIdSet, w.sign))
      case None => None
      case Some(d) =>
        var ct := OrElse(d.contentType, "image/jpeg");
        assert StartsWith("data:" + (ct + ";base64," + d.base64), "data:");
        Some("data:" + (ct + ";base64," + d.base64))
  }

  /** The signed URL's expiry in seconds: one hour after now. */
  function SignExpires(nowMs: nat): (r: nat)
    ensures r * 1000 <= nowMs + 3600000 < r * 1000 + 1000
  {
    nowMs / 1000 + 3600
  }

  /** The text the OSS URL signature is computed over. */
  function StringToSign(expires: nat, bucket: string, objectKey: string): string {
    Join(["GET", "", "", NatToString(expires), "/" + bucket + "/" + objectKey], "\n")
  }

  /** The string-to-sign splits into the verb, two empty header lines, the expiry and the
      resource path, and the expiry reads back as the number it was made from. */
  lemma StringToSignLines(expires: nat, bucket: string, objectKey: string)
    requires '\n' !in bucket && '\n' !in objectKey
    ensures CorrectionPrompt.Lines(StringToSign(expires, bucket, objectKey))
         == ["GET", "", "", NatToString(expires), "/" + bucket + "/" + objectKey]
    ensures ParseNat(CorrectionPrompt.Lines(StringToSign(expires, bucket, objectKey))[3]) == Some(expires)
  {
    var parts := ["GET", "", "", NatToString(expires), "/" + bucket + "/" + objectKey];
    assert IsDigits(NatToString(expires));
    assert '\n' !in "/" + bucket + "/" + objectKey;
    CorrectionPrompt.LinesOfJoin(parts);
    NatToStringRoundTrip(expires);
  }

  /** The Question row created for the k-th recognised item: ungraded, in homework `hid`. */
  function FromOcr(hid: Id, id: Id, q: OcrQuestion): (r: Question)
    ensures r.id == id && r.homeworkId == hid && r.isCorrect.None?
    ensures r.questionNumber == q.questionNumber && r.questionType == q.questionType
    ensures r.content == q.content && r.studentAnswer == q.studentAnswer
    ensures r.options.None? <==> q.options.None?
    ensures q.options.Some? ==> r.options == Some(SerializeStrings(q.options.value))
  {
    Question(id, hid, q.questionNumber, q.questionType, q.content,
             if q.options.Some? then Some(SerializeStrings(q.options.value)) else None,
             q.studentAnswer, None, None, None, None, None)
  }

  /** The rows `createMany` inserts, the k-th with id `mint(k)`. */
  function NewQuestions(hid: Id, items: seq<OcrQuestion>, mint: nat -> Id): (r: seq<Question>)
    ensures |r| == |items|
    ensures forall k :: 0 <= k < |items| ==> r[k] == FromOcr(hid, mint(k), items[k])
  {
    seq(|items|, k requires 0 <= k < |items| => FromOcr(hid, mint(k), items[k]))
  }

  /** The recognised items, or none when the reply has no `questions` list. */
  function Items(res: OcrResult): seq<OcrQuestion> {
    if res.questions.Some? then res.questions.value else []
  }

  /** No two questions share an id (the primary key `createMany` enforces). */
  predicate DistinctIds(qs: seq<Question>)
    ensures DistinctIds(qs) <==> Unique(qs, QuestionId)
  {
    forall i, j | 0 <= i < j < |qs| :: qs[i].id != qs[j].id
  }

  /** The reply's questions go in as new rows; `createMany` throws (`None`) when an id clashes.
      Existing rows are kept and come first. */
  function CreateQuestions(qs: seq<Question>, hid: Id, items: seq<OcrQuestion>, mint: nat -> Id): (r: Option<seq<Question>>)
    ensures r.Some? ==> |r.value| == |qs| + |items| && r.value[..|qs|] == qs
    ensures r.Some? ==> forall k :: 0 <= k < |items| ==> r.value[|qs| + k] == FromOcr(hid, mint(k), items[k])
    ensures r.Some? && Unique(qs, QuestionId) ==> Unique(r.value, QuestionId)
    ensures r.None? <==> |items| > 0 && !Unique(qs + NewQuestions(hid, items, mint), QuestionId)
  {
    if |items| == 0 then
      assert qs + [] == qs;
      Some(qs)
    else
      var all := qs + NewQuestions(hid, items, mint);
      if DistinctIds(all) then Some(all) else None
  }

  /** Nothing but homework `hid` and the questions changes. */
  ghost predicate OthersKept(st: Store, st': Store, hid: Id) {
    && st'.mistakes == st.mistakes && st'.knowledgePoints == st.knowledgePoints
    && st'.practices == st.practices && |st'.homeworks| == |st.homeworks|
    && forall k :: k != hid ==> HomeworkById(st', k) == HomeworkById(st, k)
  }

  /** `qs'` is `qs` followed by one new question per recognised item, in order. */
  predicate Appended(qs: seq<Question>, qs': seq<Question>, hid: Id, items: seq<OcrQuestion>, mint: nat -> Id) {
    && |qs'| == |qs| + |items|
    && qs'[..|qs|] == qs
    && forall k :: 0 <= k < |items| ==> qs'[|qs| + k] == FromOcr(hid, mint(k), items[k])
  }

  /** Some step after PROCESSING fails: the image cannot be had, the model call throws, the
      reply has no JSON span or it does not parse, or a new question's id clashes. */
  predicate Fails(qs: seq<Question>, hid: Id, imageUrl: string, w: World) {
    || ResolveImage(imageUrl, w).None? || w.reply.None? || ExtractJson(w.reply.value).None?
    || w.parse(ExtractJson(w.reply.value).value).None?
    || var items := Items(w.parse(ExtractJson(w.reply.value).value).value);
       |items| > 0 && !DistinctIds(qs + NewQuestions(hid, items, w.mint))
  }

  /** The recognition proper, on a homework already marked PROCESSING: the reply's JSON span is
      parsed, the homework gets the reply text, result, subject and COMPLETED, and the items
      become questions. Returns the store after the writes that happened and the result, or
      `None` when a step failed: before the homework write nothing is written, and when only
      `createMany` throws the homework write stays. */
  function Recognize(st: Store, hid: Id, imageUrl: string, w: World): (r: (Store, Option<OcrResult>))
    requires Valid(st)
    ensures Valid(r.0)
    ensures OthersKept(st, r.0, hid)
    ensures r.1.None? ==> r.0.questions == st.questions
    ensures r.1.None? <==> Fails(st.questions, hid, imageUrl, w)
    ensures r.1.None? && HomeworkById(st, hid).Some? ==> HomeworkById(r.0, hid).Some?
    ensures r.1.Some? ==> w.reply.Some? && ExtractJson(w.reply.value).Some? &&
                          w.parse(ExtractJson(w.reply.value).value) == r.1
    ensures r.1.Some? && HomeworkById(st, hid).Some? ==>
      var before := HomeworkById(st, hid).value;
      HomeworkById(r.0, hid) == Some(before.(ocrText := w.reply, ocrResult := r.1, ocrStatus := OcrCompleted,
                                             subject := r.1.value.subject.GetOr(before.subject)))
    ensures r.1.Some? ==> Appended(st.questions, r.0.questions, hid, Items(r.1.value), w.mint)
  {
    if ResolveImage(imageUrl, w).None? || w.reply.None? then (st, None)
    else match ExtractJson(w.reply.value)
      case None => (st, None)
      case Some(span) =>
        match w.parse(span)
        case None => (st, None)
        case Some(res) =>
          var st1 := UpdateHomework(st, hid, (h: Homework) =>
            h.(ocrText := w.reply, ocrResult := Some(res), ocrStatus := OcrCompleted,
               subject := res.subject.GetOr(h.subject)));
          match CreateQuestions(st1.questions, hid, Items(res), w.mint)
          case None => (st1, None)
          case Some(qs) => (st1.(questions := qs), Some(res))
  }

  /** The route past its guards, on the caller's homework `hid`: PROCESSING, then the
      recognition, then COMPLETED with the new questions, or FAILED after any failure. */
  function Process(st: Store, hid: Id, imageUrl: string, w: World): (r: (Store, Reply))
    requires Valid(st) && HomeworkById(st, hid).Some?
    ensures Valid(r.0)
    ensures r.1.Recognized? || r.1.Failed?
    ensures HomeworkById(r.0, hid).Some? && OthersKept(st, r.0, hid)
    ensures r.1.Recognized? ==>
      var before := HomeworkById(st, hid).value;
      var after := HomeworkById(r.0, hid).value;
      && after.ocrStatus == OcrCompleted
      && after.ocrText == w.reply && w.reply.Some?
      && after.ocrResult == Some(r.1.result)
      && after.subject == r.1.result.subject.GetOr(before.subject)
      && after.correctionStatus == before.correctionStatus && after.userId == before.userId
      && Appended(st.questions, r.0.questions, hid, Items(r.1.result), w.mint)
    ensures r.1.Failed? ==>
      && HomeworkById(r.0, hid).value.ocrStatus == OcrFailed
      && HomeworkById(r.0, hid).value.userId == HomeworkById(st, hid).value.userId
      && r.0.questions == st.questions
    ensures r.1.Failed? <==> Fails(st.questions, hid, imageUrl, w)
  {
    var st1 := Start(st, hid);
    var (st2, res) := Recognize(st1, hid, imageUrl, w);
    if res.Some? then (st2, Recognized(res.value))
    else (MarkFailed(st2, hid), Failed)
  }

  /** The route handler: guards, ownership, then `Process`. */
  function Post(st: Store, auth: Option<UserId>, configured: bool, body: Body, w: World): (r: (Store, Reply))
    requires Valid(st)
    ensures Valid(r.0)
    ensures !r.1.Recognized? && !r.1.Failed? ==> r.0 == st
    ensures auth.None? <==> r.1 == Unauthorized
    ensures auth.Some? && !configured <==> r.1 == NotConfigured
    ensures auth.Some? && configured && body.NotJson? <==> r.1 == ServerError
    ensures auth.Some? && configured && body.Json? && (!Given(body.req.homeworkId) || !Given(body.req.imageUrl)) <==>
      r.1 == MissingFields
    ensures auth.Some? && configured && body.Json? && Given(body.req.homeworkId) && Given(body.req.imageUrl) ==>
      (r.1 == HomeworkNotFound <==>
        HomeworkById(st, body.req.homeworkId.value).None?
        || HomeworkById(st, body.req.homeworkId.value).value.userId != auth.value)
    ensures r.1.Recognized? || r.1.Failed? ==>
      && auth.Some? && body.Json? && Given(body.req.homeworkId) && Given(body.req.imageUrl)
      && HomeworkById(st, body.req.homeworkId.value).Some?
      && HomeworkById(st, body.req.homeworkId.value).value.userId == auth.value
      && r == Process(st, body.req.homeworkId.value, body.req.imageUrl.value, w)
  {
    if auth.None? then (st, Unauthorized)
    else if !configured then (st, NotConfigured)
    else if body.NotJson? then (st, ServerError)
    else
      var req := body.req;
      if !Given(req.homeworkId) || !Given(req.imageUrl) then (st, MissingFields)
      else
        var hid := req.homeworkId.value;
        match HomeworkById(st, hid)
        case None => (st, HomeworkNotFound)
        case Some(h) =>
          if h.userId != auth.value then (st, HomeworkNotFound)
          else Process(st, hid, req.imageUrl.value, w)
  }

  /** The first write: the homework is marked PROCESSING whatever its status was. */
  function Start(st: Store, hid: Id): (st': Store)
    ensures Valid(st) ==> Valid(st')
    ensures HomeworkById(st, hid).Some? ==>
      HomeworkById(st', hid) == Some(HomeworkById(st, hid).value.(ocrStatus := OcrProcessing))
    ensures forall k :: k != hid ==> HomeworkById(st', k) == HomeworkById(st, k)
    ensures st'.questions == st.questions && |st'.homeworks| == |st.homeworks|
  {
    UpdateHomework(st, hid, (h: Homework) => h.(ocrStatus := OcrProcessing))
  }

  /** The write after a failure: the homework is marked FAILED, whatever else the recognition
      already wrote to it. */
  function MarkFailed(st: Store, hid: Id): (st': Store)
    ensures Valid(st) ==> Valid(st')
    ensures HomeworkById(st, hid).Some? ==>
      HomeworkById(st', hid) == Some(HomeworkById(st, hid).value.(ocrStatus := OcrFailed))
    ensures forall k :: k != hid ==> HomeworkById(st', k) == HomeworkById(st, k)
    ensures st'.questions == st.questions && |st'.homeworks| == |st.homeworks|
    ensures st'.mistakes == st.mistakes && st'.knowledgePoints == st.knowledgePoints
    ensures st'.practices == st.practices
  {
    UpdateHomework(st, hid, (h: Homework) => h.(ocrStatus := OcrFailed))
  }
}

=== FILE: oss.dfy ===
/** The object-store helpers: whether the store is configured, and the policy a browser gets for
    uploading one image directly under the caller's per-month directory. The policy's signature
    (HMAC-SHA1 over its base64 text) is not modelled; the policy is kept as its conditions. */
module Oss {
  import opened Common
  import opened Text

  /** The four settings read from the environment; `None` when unset. */
  datatype Env = Env(region: Option<string>, accessKeyId: Option<string>,
                     accessKeySecret: Option<string>, bucket: Option<string>)

  /** `isOSSConfigured`: every setting present and non-empty. */
  predicate IsConfigured(env: Env) {
    Given(env.region) && Given(env.accessKeyId) && Given(env.accessKeySecret) && Given(env.bucket)
  }

  const MaxUploadBytes: nat := 10 * 1024 * 1024
  const ExpiryMs: nat := 3600 * 1000
  const DefaultExtension: string := "jpg"

  /** The clock as the helper reads it: milliseconds since the epoch, and the local year and
      month (1 to 12) of the same instant. */
  datatype Clock = Clock(nowMs: int, year: nat, month: nat)

  /** The policy's conditions: its expiry, the admitted content lengths and the key prefix. */
  datatype Policy = Policy(expirationMs: int, minLength: nat, maxLength: nat, keyPrefix: string)

  /** The upload policy handed to the browser. `accessId` is the access key id as set, `None`
      when it is unset (the reply's JSON then has no such field). */
  datatype UploadSignature = UploadSignature(
    accessId: Option<string>,
    policy: Policy,
    dir: string,
    host: string,
    expire: int,
    key: string)

  /** Whether the store accepts an upload of `size` bytes under `key` with this policy. */
  predicate Admits(p: Policy, key: string, size: int) {
    p.minLength <= size <= p.maxLength && StartsWith(key, p.keyPrefix)
  }

  /** `homework/<user>/<year>/<month, two digits>/`. */
  function UploadDir(userId: string, year: nat, month: nat): string {
    "homework/" + userId + "/" + MonthPath(year, month)
  }

  function MonthPath(year: nat, month: nat): string {
    NatToString(year) + "/" + Pad2(month) + "/"
  }

  /** `fileName.split('.').pop() || 'jpg'`: the text after the last dot, case kept, or "jpg" when
      that is empty. */
  function Extension(fileName: string): (r: string)
    ensures r != "" && '.' !in r
    ensures LastSegment(fileName, '.') != "" ==> r == LastSegment(fileName, '.')
  {
    var seg := LastSegment(fileName, '.');
    if seg == "" then DefaultExtension else seg
  }

  /** The object's name inside its directory before the extension: the time and a random hex
      nonce. */
  function KeyStem(nowMs: int, nonce: string): string {
    IntToString(nowMs) + "-" + nonce
  }

  /** The object key: the directory, the stem, a dot and the extension. */
  function ObjectKey(dir: string, nowMs: int, nonce: string, ext: string): string {
    dir + KeyStem(nowMs, nonce) + "." + ext
  }

  /** `Math.floor((now + 1 hour) / 1000)`: the expiry in whole seconds. */
  function ExpireSeconds(nowMs: int): (r: int)
    ensures r * 1000 <= nowMs + ExpiryMs < r * 1000 + 1000
  {
    (nowMs + ExpiryMs) / 1000
  }

  /** A missing setting is rendered by the template string as "undefined". */
  function Setting(o: Option<string>): string {
    if o.Some? then o.value else "undefined"
  }

  function Host(env: Env): string {
    "https://" + Setting(env.bucket) + "." + Setting(env.region) + ".aliyuncs.com"
  }

  /** `generateUploadSignature`; `nonce` stands for the four random bytes in hex. Signing with an
      unset secret throws: `None`. */
  function GenerateUploadSignature(env: Env, fileName: string, userId: string, clock: Clock, nonce: string)
    : (r: Option<UploadSignature>)
    ensures r.None? <==> env.accessKeySecret.None?
    ensures r.Some? ==> var s := r.value;
      && s.dir == UploadDir(userId, clock.year, clock.month)
      && StartsWith(s.key, s.dir)
      && EndsWith(s.key, "." + Extension(fileName))
      && s.policy == Policy(clock.nowMs + ExpiryMs, 0, MaxUploadBytes, s.dir)
      && s.expire * 1000 <= clock.nowMs + ExpiryMs < s.expire * 1000 + 1000
      && s.host == Host(env)
      && s.accessId == env.accessKeyId
  {
    if env.accessKeySecret.None? then None
    else
      var dir := UploadDir(userId, clock.year, clock.month);
      var ext := Extension(fileName);
      var key := ObjectKey(dir, clock.nowMs, nonce, ext);
      KeyFrame(dir, KeyStem(clock.nowMs, nonce), ext);
      Some(UploadSignature(env.accessKeyId, Policy(clock.nowMs + ExpiryMs, 0, MaxUploadBytes, dir),
                           dir, Host(env), ExpireSeconds(clock.nowMs), key))
  }

  /** A configured store always signs, and the policy carries the access key id it was given. */
  lemma ConfiguredStoreSigns(env: Env, fileName: string, userId: string, clock: Clock, nonce: string)
    requires IsConfigured(env)
    ensures GenerateUploadSignature(env, fileName, userId, clock, nonce).Some?
    ensures GenerateUploadSignature(env, fileName, userId, clock, nonce).value.accessId == Some(env.accessKeyId.value)
    ensures env.accessKeyId.value != ""
  {
  }

  /** A key built as directory, middle part, dot and extension starts with the directory and ends
      with the dot and extension. */
  lemma KeyFrame(dir: string, mid: string, ext: string)
    ensures StartsWith(dir + mid + "." + ext, dir)
    ensures EndsWith(dir + mid + "." + ext, "." + ext)
  {
    var key := dir + mid + "." + ext;
    assert key == dir + (mid + "." + ext);
    StartsWithConcat(dir, mid + "." + ext);
    assert key == (dir + mid) + ("." + ext);
    assert key[|key| - |"." + ext|..] == "." + ext;
  }

  /** The policy admits the key it was issued with at every size from 0 to 10 MiB, and no other
      size. */
  lemma PolicyAdmitsOwnKey(env: Env, fileName: string, userId: string, clock: Clock, nonce: string, size: int)
    requires GenerateUploadSignature(env, fileName, userId, clock, nonce).Some?
    ensures var s := GenerateUploadSignature(env, fileName, userId, clock, nonce).value;
      Admits(s.policy, s.key, size) <==> 0 <= size <= MaxUploadBytes
  {
  }

  /** The key's own last dot-segment is the extension: the stored object keeps the file's
      extension. */
  lemma KeyExtension(env: Env, fileName: string, userId: string, clock: Clock, nonce: string)
    requires GenerateUploadSignature(env, fileName, userId, clock, nonce).Some?
    ensures LastSegment(GenerateUploadSignature(env, fileName, userId, clock, nonce).value.key, '.') == Extension(fileName)
  {
    var dir := UploadDir(userId, clock.year, clock.month);
    AfterLastDot(dir + KeyStem(clock.nowMs, nonce), Extension(fileName));
  }

  /** Whatever precedes the last dot, the text after it is the last dot-segment. */
  lemma AfterLastDot(a: string, ext: string)
    requires '.' !in ext
    ensures LastSegment(a + "." + ext, '.') == ext
  {
    var s := a + "." + ext;
    assert s[|s| - |ext|..] == ext;
    assert s[|s| - |ext| - 1] == '.';
    LastSegmentUnique(s, '.', ext);
  }

  /** Directories of different users never nest, as long as user ids hold no slash: a policy
      issued to one user admits no key issued to another. */
  lemma DirsOfUsersDisjoint(u1: string, u2: string, y1: nat, m1: nat, y2: nat, m2: nat)
    requires u1 != u2 && '/' !in u1 && '/' !in u2
    ensures !StartsWith(UploadDir(u1, y1, m1), UploadDir(u2, y2, m2))
  {
    SlashSeparated("homework/", u1, MonthPath(y1, m1), u2, MonthPath(y2, m2));
  }

  /** Two texts that share a prefix and continue with different slash-free segments each closed
      by a slash: neither starts with the other. */
  lemma SlashSeparated(p: string, u1: string, r1: string, u2: string, r2: string)
    requires u1 != u2 && '/' !in u1 && '/' !in u2
    ensures !StartsWith(p + u1 + "/" + r1, p + u2 + "/" + r2)
  {
    SegmentAt(p, u1, r1);
    SegmentAt(p, u2, r2);
  }

  /** Where the segment and its closing slash sit in `p + u + "/" + r`. */
  lemma SegmentAt(p: string, u: string, r: string)
    ensures forall k :: 0 <= k < |u| ==> (p + u + "/" + r)[|p| + k] == u[k]
    ensures (p + u + "/" + r)[|p| + |u|] == '/'
  {
  }

  /** A key issued to one user is never admitted by a policy issued to another. */
  lemma PolicyConfinesToUser(env: Env, f1: string, u1: string, c1: Clock, n1: string,
                             f2: string, u2: string, c2: Clock, n2: string, size: int)
    requires u1 != u2 && '/' !in u1 && '/' !in u2
    requires GenerateUploadSignature(env, f1, u1, c1, n1).Some?
    ensures var s1 := GenerateUploadSignature(env, f1, u1, c1, n1).value;
            var s2 := GenerateUploadSignature(env, f2, u2, c2, n2).value;
            !Admits(s2.policy, s1.key, size)
  {
    var s1 := GenerateUploadSignature(env, f1, u1, c1, n1).value;
    var s2 := GenerateUploadSignature(env, f2, u2, c2, n2).value;
    DirsOfUsersDisjoint(u1, u2, c1.year, c1.month, c2.year, c2.month);
    if StartsWith(s1.key, s2.dir) {
      PrefixesOfOneText(s1.key, s1.dir, s2.dir);
      DirsOfUsersDisjoint(u2, u1, c2.year, c2.month, c1.year, c1.month);
    }
  }

  /** Two prefixes of one text: the shorter is a prefix of the longer. */
  lemma PrefixesOfOneText(s: string, a: string, b: string)
    requires StartsWith(s, a) && StartsWith(s, b)
    ensures StartsWith(a, b) || StartsWith(b, a)
  {
    if |b| <= |a| {
      assert a[..|b|] == s[..|b|];
    } else {
      assert b[..|a|] == s[..|a|];
    }
  }
}

=== FILE: paging.dfy ===
/** Offset pagination as the listing routes do it: `skip = (page - 1) * limit`, `take = limit`,
    and `totalPages = Math.ceil(total / limit)`. */
module Paging {
  import opened Common

  /** The first row index of a page: `(page - 1) * limit`, negative for page 0. */
  function Skip(page: nat, limit: nat): int {
    (page - 1) * limit
  }

  /** Only page 0 with a positive limit gives a negative skip. */
  lemma SkipNegative(page: nat, limit: nat)
    ensures Skip(page, limit) < 0 <==> page == 0 && limit > 0
  {
    if page >= 1 {
      assert (page - 1) * limit >= 0;
    }
  }

  /** Later pages start further along. */
  lemma SkipMonotone(page1: nat, page2: nat, limit: nat)
    requires page1 <= page2
    ensures Skip(page1, limit) + limit <= Skip(page2, limit) || page1 == page2
  {
    if page1 < page2 {
      assert (page2 - 1) * limit == (page2 - 1 - page1) * limit + page1 * limit;
      assert (page2 - 1 - page1) * limit >= 0;
    }
  }

  /** The rows of one page. A negative skip is refused by the database client, which the routes
      report as a server error: `None`. */
  function Window<T>(xs: seq<T>, page: nat, limit: nat): (r: Option<seq<T>>)
    ensures r.None? <==> Skip(page, limit) < 0
    ensures r.Some? ==> |r.value| <= limit
    ensures r.Some? ==> forall k :: 0 <= k < |r.value| ==>
      Skip(page, limit) + k < |xs| && r.value[k] == xs[Skip(page, limit) + k]
    ensures r.Some? && Skip(page, limit) + limit <= |xs| ==> |r.value| == limit
  {
    var skip := Skip(page, limit);
    if skip < 0 then None
    else if skip >= |xs| then Some([])
    else if skip + limit <= |xs| then Some(xs[skip..skip + limit])
    else Some(xs[skip..])
  }

  /** `Math.ceil(total / limit)`; a zero limit makes it Infinity or NaN, which JSON renders as null. */
  function TotalPages(total: nat, limit: nat): (r: Option<nat>)
    ensures r.None? <==> limit == 0
    ensures r.Some? ==> total <= r.value * limit < total + limit
  {
    if limit == 0 then None else Some((total + limit - 1) / limit)
  }

  /** Pages partition the rows: row `i` is item `i % limit` of page `i / limit + 1`. */
  lemma PagesCoverRows<T>(xs: seq<T>, limit: nat, i: nat)
    requires limit > 0 && i < |xs|
    ensures i / limit >= 0
    ensures Window(xs, i / limit + 1, limit).Some?
    ensures i % limit < |Window(xs, i / limit + 1, limit).value|
    ensures Window(xs, i / limit + 1, limit).value[i % limit] == xs[i]
  {
    var page := i / limit + 1;
    assert Skip(page, limit) == i - i % limit;
  }

  /** Every row is on some page. */
  lemma RowOnSomePage<T>(xs: seq<T>, limit: nat, x: T)
    requires limit > 0 && x in xs
    ensures exists page :: page >= 1 && Window(xs, page, limit).Some? && x in Window(xs, page, limit).value
  {
    var i :| 0 <= i < |xs| && xs[i] == x;
    PagesCoverRows(xs, limit, i);
    var page: nat, k := i / limit + 1, i % limit;
    var w := Window(xs, page, limit).value;
    assert w[k] == x;
    assert page >= 1 && Window(xs, page, limit).Some? && x in w;
  }

  /** A page has rows exactly when its number is within `totalPages`. */
  lemma PageNonEmptyIffWithinTotal<T>(xs: seq<T>, page: nat, limit: nat)
    requires page >= 1 && limit > 0
    ensures |Window(xs, page, limit).value| > 0 <==> page <= TotalPages(|xs|, limit).value
  {
    var tp := TotalPages(|xs|, limit).value;
    var skip := Skip(page, limit);
    if page <= tp {
      assert (page - 1) * limit <= (tp - 1) * limit;
      assert (tp - 1) * limit < |xs|;
    } else {
      assert tp <= page - 1;
      assert tp * limit <= (page - 1) * limit;
    }
  }
}

=== FILE: practice_generate.dfy ===
/** Practice generation: choose the reference mistakes, build the generation prompt from them, and
    store the generated sheet as a new PENDING practice with its defaults and fallbacks. */
module PracticeGenerate {
  import opened Common
  import opened Text
  import opened Tables
  import opened Seqs
  import opened Sorting
  import opened Entities
  import opened JsonText

  /** The request body; every field may be missing. */
  datatype Request = Request(
    mistakeId: Option<string>,
    knowledgePoint: Option<string>,
    subject: Option<string>,
    practiceType: Option<string>,
    questionCount: Option<int>)

  /** The body as `request.json()` reads it: `NotJson` is text it cannot parse, or JSON `null`,
      whose destructuring throws. */
  datatype Body = NotJson | Json(req: Request)

  /** The fields of the generated sheet the route reads; any of them may be missing. */
  datatype Sheet = Sheet(title: Option<string>, totalScore: Option<int>, questions: Option<seq<PracticeQuestion>>)

  /** What the outside world does: the generation prompt's fixed preamble, the model (`None`:
      the call threw), `JSON.parse`, the id the database gives the practice, and the clock. */
  datatype World = World(
    preamble: string,
    generate: string -> Option<string>,
    parse: string -> Option<Sheet>,
    newId: Id,
    now: int)

  datatype Reply =
    | Unauthorized
    | NotConfigured
    | MistakeNotFound
    | NoReferences
    | SheetUnreadable
    | ServerError
    | Created(id: Id, title: string, questionCount: nat)
  {
    function Status(): int {
      match this
      case Unauthorized => 401
      case NotConfigured => 500
      case MistakeNotFound => 404
      case NoReferences => 400
      case SheetUnreadable => 500
      case ServerError => 500
      case Created(_, _, _) => 200
    }
  }

  const DefaultPracticeType: string := "SIMILAR"
  const DefaultQuestionCount: int := 5
  const TopicLimit: nat := 5
  const ReviewLimit: nat := 10
  const FallbackLabel: string := "综合"
  const TitleSuffix: string := "专项练习"

  /** The subject codes that have a display name. */
  const SubjectCodes: seq<string> :=
    ["CHINESE", "MATH", "ENGLISH", "PHYSICS", "CHEMISTRY", "BIOLOGY", "HISTORY", "GEOGRAPHY", "POLITICS", "SCIENCE"]

  /** The display name of a subject code: a non-empty name exactly for the listed codes, so the
      title's fallback `综合` is taken for any other code. */
  function SubjectLabel(code: string): (r: Option<string>)
    ensures r.Some? <==> code in SubjectCodes
    ensures r.Some? ==> r.value != "" && r.value != FallbackLabel
  {
    if code == "CHINESE" then Some("语文")
    else if code == "MATH" then Some("数学")
    else if code == "ENGLISH" then Some("英语")
    else if code == "PHYSICS" then Some("物理")
    else if code == "CHEMISTRY" then Some("化学")
    else if code == "BIOLOGY" then Some("生物")
    else if code == "HISTORY" then Some("历史")
    else if code == "GEOGRAPHY" then Some("地理")
    else if code == "POLITICS" then Some("政治")
    else if code == "SCIENCE" then Some("科学")
    else None
  }

  /** `orderBy: { mistakeCount: 'desc' }`. */
  predicate MoreMistakes(a: Mistake, b: Mistake) {
    a.mistakeCount >= b.mistakeCount
  }

  lemma MoreMistakesTotal()
    ensures Total(MoreMistakes)
  {
  }

  /** The rows `p` selects, highest mistake count first, at most `k`: no selected row left out
      has a higher count than one taken, and a short result holds every selected row. */
  function Ranked(ms: seq<Mistake>, p: Mistake -> bool, k: nat): (r: seq<Mistake>)
    ensures |r| == if k < |Filter(ms, p)| then k else |Filter(ms, p)|
    ensures multiset(r) <= multiset(Filter(ms, p))
    ensures forall m :: m in r ==> m in ms && p(m)
    ensures forall m :: m in ms && p(m) && m !in r ==>
      |r| == k && forall y :: y in r ==> y.mistakeCount >= m.mistakeCount
    ensures forall i, j :: 0 <= i < j < |r| ==> r[i].mistakeCount >= r[j].mistakeCount
  {
    MoreMistakesTotal();
    var sel := Filter(ms, p);
    TopOutranks(sel, k);
    TopK(sel, MoreMistakes, k)
  }

  /** A row the top `k` leave out has no higher count than any row they take. */
  lemma TopOutranks(sel: seq<Mistake>, k: nat)
    ensures var r := (MoreMistakesTotal(); TopK(sel, MoreMistakes, k));
      forall m, y :: m in sel && m !in r && y in r ==> y.mistakeCount >= m.mistakeCount
  {
    MoreMistakesTotal();
    var r := TopK(sel, MoreMistakes, k);
    forall m, y | m in sel && m !in r && y in r ensures y.mistakeCount >= m.mistakeCount {
      assert MoreMistakes(y, m);
    }
  }

  /** One of the caller's mistakes not yet mastered. */
  predicate Unmastered(user: UserId, m: Mistake) {
    m.userId == user && !m.mastered
  }

  /** One of the caller's unmastered mistakes of `subject` whose stored knowledge-point list
      contains `kp` as text. */
  predicate OnTopic(user: UserId, kp: string, subject: string, m: Mistake) {
    Unmastered(user, m) && m.subject == subject && Contains(m.knowledgePoints, kp)
  }

  /** The reference mistakes, by priority: an explicit mistake id (`None` when it is not the
      caller's), else a knowledge point together with a subject, else a general review. */
  function References(ms: seq<Mistake>, user: UserId, req: Request): (r: Option<seq<Mistake>>)
    ensures Given(req.mistakeId) && Unique(ms, MistakeId) ==>
      (r.Some? <==> exists m :: m in ms && m.id == req.mistakeId.value && m.userId == user)
    ensures Given(req.mistakeId) && r.Some? ==>
      |r.value| == 1 && r.value[0] in ms && r.value[0].id == req.mistakeId.value && r.value[0].userId == user
    ensures !Given(req.mistakeId) ==> r.Some?
    ensures !Given(req.mistakeId) && Given(req.knowledgePoint) && Given(req.subject) ==>
      r == Some(Ranked(ms, m => OnTopic(user, req.knowledgePoint.value, req.subject.value, m), TopicLimit))
    ensures !Given(req.mistakeId) && !(Given(req.knowledgePoint) && Given(req.subject)) ==>
      r == Some(Ranked(ms, m => Unmastered(user, m), ReviewLimit))
  {
    if Given(req.mistakeId) then
      match Find(ms, MistakeId, req.mistakeId.value)
      case None => None
      case Some(i) =>
        if ms[i].userId == user then Some([ms[i]])
        else
          assert Unique(ms, MistakeId) ==> forall m :: m in ms && MistakeId(m) == MistakeId(ms[i]) ==> m == ms[i] by {
            if Unique(ms, MistakeId) { OnlyRowWithKey(ms, MistakeId, i); }
          }
          None
    else if Given(req.knowledgePoint) && Given(req.subject) then
      Some(Ranked(ms, m => OnTopic(user, req.knowledgePoint.value, req.subject.value, m), TopicLimit))
    else
      Some(Ranked(ms, m => Unmastered(user, m), ReviewLimit))
  }

  /** One reference mistake as the prompt lists it, numbered from 1: the content sits between
      a numbered head and a tail with type, knowledge points and difficulty. */
  function Describe(i: nat, m: Mistake): string {
    DescribeHead(i) + m.content + DescribeTail(m)
  }

  function DescribeHead(i: nat): string {
    "题目" + NatToString(i + 1) + "：\n内容："
  }

  function DescribeTail(m: Mistake): string {
    "\n题型：" + m.questionType + "\n知识点：" + m.knowledgePoints + "\n难度：" + IntToString(m.difficulty)
  }

  function Descriptions(refs: seq<Mistake>): (r: seq<string>)
    ensures |r| == |refs| && forall k :: 0 <= k < |refs| ==> r[k] == Describe(k, refs[k])
  {
    seq(|refs|, k requires 0 <= k < |refs| => Describe(k, refs[k]))
  }

  const Requirements: string :=
    "要求：\n1. 新题目与原题知识点相同，但内容不同\n2. 难度相当或略简单\n3. 适合学生年级水平\n4. 每道题包含标准答案和详细解析"

  /** The head of the prompt: the preamble and the requested number of questions. */
  function PromptHead(preamble: string, questionCount: int): string {
    preamble + "\n\n请根据以下错题生成 " + IntToString(questionCount) + " 道举一反三的新题目：\n\n"
  }

  /** The tail of the prompt: a blank line and the requirements. */
  function PromptTail(): string {
    "\n\n" + Requirements
  }

  /** The generation prompt: head, the descriptions separated by blank lines, tail. */
  function BuildPrompt(preamble: string, questionCount: int, refs: seq<Mistake>): string {
    PromptHead(preamble, questionCount) + Join(Descriptions(refs), "\n\n") + PromptTail()
  }

  /** Every reference mistake is described in the prompt, its content included. */
  lemma PromptDescribesReferences(preamble: string, questionCount: int, refs: seq<Mistake>, k: nat)
    requires k < |refs|
    ensures Contains(BuildPrompt(preamble, questionCount, refs), Describe(k, refs[k]))
    ensures Contains(BuildPrompt(preamble, questionCount, refs), refs[k].content)
  {
    var p := BuildPrompt(preamble, questionCount, refs);
    var body := Join(Descriptions(refs), "\n\n");
    JoinContainsPart(Descriptions(refs), "\n\n", k);
    ContainsInside(PromptHead(preamble, questionCount), body, PromptTail());
    ContainsTrans(p, body, Describe(k, refs[k]));
    ContainsInside(DescribeHead(k), refs[k].content, DescribeTail(refs[k]));
    ContainsTrans(p, Describe(k, refs[k]), refs[k].content);
  }

  /** The prompt opens with the preamble and the requested question count. */
  lemma PromptOpensWithCount(preamble: string, questionCount: int, refs: seq<Mistake>)
    ensures StartsWith(BuildPrompt(preamble, questionCount, refs), preamble)
    ensures StartsWith(BuildPrompt(preamble, questionCount, refs), PromptHead(preamble, questionCount))
  {
    var head := PromptHead(preamble, questionCount);
    var body := Join(Descriptions(refs), "\n\n");
    StartsWithConcat(head + body, PromptTail());
    StartsWithConcat(head, body);
    StartsWithTrans(head + body + PromptTail(), head + body, head);
    var opening := preamble + "\n\n请根据以下错题生成 " + IntToString(questionCount);
    StartsWithConcat(opening, " 道举一反三的新题目：\n\n");
    StartsWithConcat(preamble + "\n\n请根据以下错题生成 ", IntToString(questionCount));
    StartsWithConcat(preamble, "\n\n请根据以下错题生成 ");
    StartsWithTrans(head, opening, preamble + "\n\n请根据以下错题生成 ");
    StartsWithTrans(head, preamble + "\n\n请根据以下错题生成 ", preamble);
    StartsWithTrans(head + body + PromptTail(), head, preamble);
  }

  /** `practiceData.title || '<label or 综合>专项练习'`, the label being looked up with the
      request's subject. */
  function Title(sheetTitle: Option<string>, subject: Option<string>): (r: string)
    ensures Given(sheetTitle) ==> r == sheetTitle.value
    ensures !Given(sheetTitle) ==> EndsWith(r, TitleSuffix)
    ensures !Given(sheetTitle) && subject.Some? && SubjectLabel(subject.value).Some? ==>
      r == SubjectLabel(subject.value).value + TitleSuffix
    ensures !Given(sheetTitle) && (subject.None? || SubjectLabel(subject.value).None?) ==>
      r == FallbackLabel + TitleSuffix
  {
    if Given(sheetTitle) then sheetTitle.value
    else
      var name := if subject.Some? && SubjectLabel(subject.value).Some? then SubjectLabel(subject.value).value
                   else FallbackLabel;
      assert (name + TitleSuffix)[|name|..] == TitleSuffix;
      name + TitleSuffix
  }

  /** `practiceData.totalScore || questions.length * 10`: a missing or zero total falls back to
      ten points per question. */
  function TotalScore(declared: Option<int>, questionCount: nat): (r: int)
    ensures declared.Some? && declared.value != 0 ==> r == declared.value
    ensures declared.None? || declared.value == 0 ==> r == 10 * questionCount && r >= 0
  {
    if declared.Some? && declared.value != 0 then declared.value else questionCount * 10
  }

  /** What the generation call gives: the call threw, no readable sheet, or the sheet. */
  datatype Generation = CallFailed | Unreadable | Parsed(sheet: Sheet)

  /** The model's reply for `prompt`, cut to its JSON span and parsed. */
  function Generate(w: World, prompt: string): (r: Generation)
    ensures r.Parsed? <==> w.generate(prompt).Some? && ExtractJson(w.generate(prompt).value).Some?
                           && w.parse(ExtractJson(w.generate(prompt).value).value).Some?
    ensures r.CallFailed? <==> w.generate(prompt).None?
  {
    match w.generate(prompt)
    case None => CallFailed
    case Some(text) =>
      match ExtractJson(text)
      case None => Unreadable
      case Some(span) =>
        match w.parse(span)
        case None => Unreadable
        case Some(sheet) => Parsed(sheet)
  }

  /** The practice stored for a generated sheet with a question list. */
  function NewPractice(id: Id, user: UserId, req: Request, refs: seq<Mistake>, sheet: Sheet, now: int): (p: Practice)
    requires |refs| > 0 && sheet.questions.Some?
    ensures p.id == id && p.userId == user
    ensures p.status == PracticePending && p.userScore.None? && p.completedAt.None? && p.createdAt == now
    ensures p.practiceType == (if req.practiceType.Some? then req.practiceType.value else DefaultPracticeType)
    ensures p.subject == (if Given(req.subject) then req.subject.value else refs[0].subject)
    ensures p.title == Title(sheet.title, req.subject)
    ensures p.questions == sheet.questions.value
    ensures p.totalScore == TotalScore(sheet.totalScore, |sheet.questions.value|)
  {
    Practice(id, user, Title(sheet.title, req.subject),
             if Given(req.subject) then req.subject.value else refs[0].subject,
             req.practiceType.GetOr(DefaultPracticeType), sheet.questions.value,
             TotalScore(sheet.totalScore, |sheet.questions.value|), None, PracticePending, now, None)
  }

  /** The request names at least one reference mistake of `user`. */
  predicate Referenced(ms: seq<Mistake>, user: UserId, req: Request) {
    References(ms, user, req).Some? && |References(ms, user, req).value| > 0
  }

  /** The generation call for the request's references. */
  function GenerationFor(ms: seq<Mistake>, user: UserId, req: Request, w: World): Generation
    requires Referenced(ms, user, req)
  {
    Generate(w, BuildPrompt(w.preamble, req.questionCount.GetOr(DefaultQuestionCount), References(ms, user, req).value))
  }

  /** The route handler. Nothing is written unless a practice is created, and then exactly one
      practice is appended. */
  function Post(st: Store, auth: Option<UserId>, configured: bool, body: Body, w: World): (r: (Store, Reply))
    requires Valid(st)
    ensures Valid(r.0)
    ensures !r.1.Created? ==> r.0 == st
    ensures auth.None? <==> r.1 == Unauthorized
    ensures auth.Some? && !configured <==> r.1 == NotConfigured
    ensures auth.Some? && configured && body.NotJson? ==> r.1 == ServerError
    ensures r.1 == MistakeNotFound || r.1 == NoReferences || r.1 == SheetUnreadable || r.1.Created? ==>
      auth.Some? && configured && body.Json?
    ensures auth.Some? && configured && body.Json? ==>
      (r.1 == MistakeNotFound <==> References(st.mistakes, auth.value, body.req).None?)
    ensures auth.Some? && configured && body.Json? ==>
      (r.1 == NoReferences <==> References(st.mistakes, auth.value, body.req) == Some([]))
    ensures r.1 == SheetUnreadable || r.1.Created? ==> Referenced(st.mistakes, auth.value, body.req)
    ensures auth.Some? && configured && body.Json? && Referenced(st.mistakes, auth.value, body.req) ==>
      var gen := GenerationFor(st.mistakes, auth.value, body.req, w);
      && (gen.CallFailed? ==> r.1 == ServerError)
      && (gen.Unreadable? <==> r.1 == SheetUnreadable)
      && (gen.Parsed? && (gen.sheet.questions.None? || Find(st.practices, PracticeId, w.newId).Some?) ==>
            r.1 == ServerError)
      && (gen.Parsed? && gen.sheet.questions.Some? && Find(st.practices, PracticeId, w.newId).None? <==>
            r.1.Created?)
    ensures r.1.Created? ==>
      var refs := References(st.mistakes, auth.value, body.req).value;
      var gen := GenerationFor(st.mistakes, auth.value, body.req, w);
      && gen.Parsed? && gen.sheet.questions.Some?
      && r.0 == st.(practices := st.practices + [NewPractice(w.newId, auth.value, body.req, refs, gen.sheet, w.now)])
      && r.1 == Created(w.newId, Title(gen.sheet.title, body.req.subject), |gen.sheet.questions.value|)
  {
    if auth.None? then (st, Unauthorized)
    else if !configured then (st, NotConfigured)
    else if body.NotJson? then (st, ServerError)
    else
      var req := body.req;
      match References(st.mistakes, auth.value, req)
      case None => (st, MistakeNotFound)
      case Some(refs) =>
        if |refs| == 0 then (st, NoReferences)
        else
          match Generate(w, BuildPrompt(w.preamble, req.questionCount.GetOr(DefaultQuestionCount), refs))
          case CallFailed => (st, ServerError)
          case Unreadable => (st, SheetUnreadable)
          case Parsed(sheet) =>
            if sheet.questions.None? || Find(st.practices, PracticeId, w.newId).Some? then (st, ServerError)
            else
              var p := NewPractice(w.newId, auth.value, req, refs, sheet, w.now);
              AppendKeepsUnique(st.practices, PracticeId, p);
              (st.(practices := st.practices + [p]), Created(p.id, p.title, |p.questions|))
  }

  /** Every reference mistake is one of the caller's own rows. */
  lemma ReferencesOwned(ms: seq<Mistake>, user: UserId, req: Request)
    requires References(ms, user, req).Some?
    ensures forall m :: m in References(ms, user, req).value ==> m in ms && m.userId == user
  {
  }

  /** A created practice is found under the id the reply gives: one new PENDING sheet of the
      caller's, with the generated questions, after the rows that were already there. */
  lemma CreatedIsStored(st: Store, auth: Option<UserId>, configured: bool, body: Body, w: World)
    requires Valid(st)
    ensures var r := Post(st, auth, configured, body, w);
      r.1.Created? ==>
        && Find(r.0.practices, PracticeId, r.1.id).Some?
        && var p := r.0.practices[Find(r.0.practices, PracticeId, r.1.id).value];
        && p.userId == auth.value && p.status == PracticePending && p.title == r.1.title
        && |p.questions| == r.1.questionCount
        && r.0.practices[..|st.practices|] == st.practices
  {
    var r := Post(st, auth, configured, body, w);
    if r.1.Created? {
      var n := |st.practices|;
      assert r.0.practices[n].id == r.1.id;
      FindUnique(r.0.practices, PracticeId, n);
    }
  }
}

=== FILE: practice_list.dfy ===
/** `GET /api/practice`: the caller's practice sheets, newest first, optionally of one status,
    each reported with its number of questions instead of the questions themselves. */
module PracticeList {
  import opened Common
  import opened Seqs
  import opened Sorting
  import opened Paging
  import opened Listing
  import opened Entities

  const DefaultPage: nat := 1
  const DefaultLimit: nat := 10

  datatype Query = Query(page: Option<nat>, limit: Option<nat>, status: Option<string>)

  /** A listed sheet: every column but `questions`, plus `questionCount`. */
  datatype Item = Item(
    id: Id,
    userId: UserId,
    title: string,
    subject: string,
    practiceType: string,
    totalScore: int,
    userScore: Option<int>,
    status: PracticeStatus,
    createdAt: int,
    completedAt: Option<int>,
    questionCount: nat)

  datatype Reply = Unauthorized | Listed(items: seq<Item>, pagination: Pagination) | ServerError
  {
    function Status(): int {
      match this
      case Unauthorized => 401
      case Listed(_, _) => 200
      case ServerError => 500
    }
  }

  /** A status parameter the database accepts: one of the status names. */
  predicate KnownStatus(s: string) {
    s == PracticeStatusName(PracticePending) || s == PracticeStatusName(PracticeInProgress)
    || s == PracticeStatusName(PracticeCompleted)
  }

  predicate Matches(user: UserId, status: Option<string>, p: Practice) {
    p.userId == user && (Given(status) ==> PracticeStatusName(p.status) == status.value)
  }

  /** The listing's `where`, as a filter. */
  function Selects(user: UserId, status: Option<string>): Practice -> bool {
    p => Matches(user, status, p)
  }

  predicate NewerFirst(a: Practice, b: Practice) {
    a.createdAt >= b.createdAt
  }

  /** The listed form of a sheet. */
  function ItemOf(p: Practice): (r: Item)
    ensures r.questionCount == |p.questions|
    ensures r.id == p.id && r.userId == p.userId && r.status == p.status && r.title == p.title
    ensures r.subject == p.subject && r.practiceType == p.practiceType
    ensures r.totalScore == p.totalScore && r.userScore == p.userScore
    ensures r.createdAt == p.createdAt && r.completedAt == p.completedAt
  {
    Item(p.id, p.userId, p.title, p.subject, p.practiceType, p.totalScore, p.userScore, p.status,
         p.createdAt, p.completedAt, |p.questions|)
  }

  function ItemsOf(ps: seq<Practice>): (r: seq<Item>)
    ensures |r| == |ps| && forall k :: 0 <= k < |ps| ==> r[k] == ItemOf(ps[k])
  {
    seq(|ps|, k requires 0 <= k < |ps| => ItemOf(ps[k]))
  }

  /** The route. A status that names no practice status is refused by the database client. */
  function Get(st: Store, user: Option<UserId>, q: Query): (r: Reply)
    ensures r.Unauthorized? <==> user.None?
    ensures r.ServerError? <==> (user.Some? &&
      ((Given(q.status) && !KnownStatus(q.status.value)) || (q.page.GetOr(DefaultPage) == 0 && q.limit.GetOr(DefaultLimit) > 0)))
    ensures r.Listed? ==> |r.items| <= q.limit.GetOr(DefaultLimit)
    ensures r.Listed? ==> forall it :: it in r.items ==>
      && it in ItemsOf(st.practices)
      && it.userId == user.value
      && (Given(q.status) ==> PracticeStatusName(it.status) == q.status.value)
    ensures r.Listed? ==> forall i, j :: 0 <= i < j < |r.items| ==> r.items[i].createdAt >= r.items[j].createdAt
    ensures r.Listed? ==>
      var total := |Filter(st.practices, Selects(user.value, q.status))|;
      r.pagination == Pagination(q.page.GetOr(DefaultPage), q.limit.GetOr(DefaultLimit), total,
                                 TotalPages(total, q.limit.GetOr(DefaultLimit)))
  {
    if user.None? then Unauthorized
    else if Given(q.status) && !KnownStatus(q.status.value) then ServerError
    else
      assert Total(NewerFirst);
      match Paged(st.practices, Selects(user.value, q.status), NewerFirst,
                  q.page.GetOr(DefaultPage), q.limit.GetOr(DefaultLimit))
      case None => ServerError
      case Some((rows, pagination)) =>
        ItemsFromRows(st.practices, rows, user.value, q.status);
        Listed(ItemsOf(rows), pagination)
  }

  /** The items of a page: listed forms of the caller's rows in the asked status, newest first. */
  lemma ItemsFromRows(ps: seq<Practice>, rows: seq<Practice>, user: UserId, status: Option<string>)
    requires forall x :: x in rows ==> x in ps && Selects(user, status)(x)
    requires Sorted(rows, NewerFirst)
    ensures forall it :: it in ItemsOf(rows) ==>
      && it in ItemsOf(ps)
      && it.userId == user
      && (Given(status) ==> PracticeStatusName(it.status) == status.value)
    ensures forall i, j :: 0 <= i < j < |ItemsOf(rows)| ==> ItemsOf(rows)[i].createdAt >= ItemsOf(rows)[j].createdAt
  {
    forall it | it in ItemsOf(rows)
      ensures it in ItemsOf(ps) && it.userId == user && (Given(status) ==> PracticeStatusName(it.status) == status.value)
    {
      var k :| 0 <= k < |rows| && ItemsOf(rows)[k] == it;
      assert rows[k] in rows;
      var j :| 0 <= j < |ps| && ps[j] == rows[k];
      assert ItemsOf(ps)[j] == it;
    }
    forall i, j | 0 <= i < j < |rows| ensures ItemsOf(rows)[i].createdAt >= ItemsOf(rows)[j].createdAt {
      assert NewerFirst(rows[i], rows[j]);
    }
  }

  /** Listing by a status shows only sheets in that status, and every such sheet of the caller's
      is on some page. */
  lemma StatusFilterExact(st: Store, user: UserId, s: PracticeStatus, limit: nat, p: Practice)
    requires p in st.practices && p.userId == user && p.status == s && limit > 0
    ensures exists page :: (page >= 1
      && Get(st, Some(user), Query(Some(page), Some(limit), Some(PracticeStatusName(s)))).Listed?
      && ItemOf(p) in Get(st, Some(user), Query(Some(page), Some(limit), Some(PracticeStatusName(s)))).items)
  {
    var status := Some(PracticeStatusName(s));
    var m := Selects(user, status);
    assert Total(NewerFirst);
    EveryMatchOnSomePage(st.practices, m, NewerFirst, limit, p);
    var page :| page >= 1 && Paged(st.practices, m, NewerFirst, page, limit).Some?
                && p in Paged(st.practices, m, NewerFirst, page, limit).value.0;
    var rows := Paged(st.practices, m, NewerFirst, page, limit).value.0;
    StatusNameKnown(s);
    ListedPage(st, user, Query(Some(page), Some(limit), status));
    var k :| 0 <= k < |rows| && rows[k] == p;
    assert ItemsOf(rows)[k] == ItemOf(p);
  }

  lemma StatusNameKnown(s: PracticeStatus)
    ensures KnownStatus(PracticeStatusName(s))
  {
  }

  /** With a known status and a page the listing can serve, the reply lists that page's rows. */
  lemma ListedPage(st: Store, user: UserId, q: Query)
    requires Given(q.status) ==> KnownStatus(q.status.value)
    requires Paged(st.practices, Selects(user, q.status), NewerFirst, q.page.GetOr(DefaultPage), q.limit.GetOr(DefaultLimit)).Some?
    ensures Get(st, Some(user), q) ==
      Listed(ItemsOf(Paged(st.practices, Selects(user, q.status), NewerFirst, q.page.GetOr(DefaultPage), q.limit.GetOr(DefaultLimit)).value.0),
             Paged(st.practices, Selects(user, q.status), NewerFirst, q.page.GetOr(DefaultPage), q.limit.GetOr(DefaultLimit)).value.1)
  {
  }
}

=== FILE: statistics.dfy ===
/** `GET /api/statistics`: the caller's overview counts and mastery rate, per-subject and per-type
    mistake counts, the most frequent knowledge points, a seven-day trend and recent practice
    scores. Times are milliseconds since the epoch; a day is a whole number of days since then. */
module Statistics {
  import opened Common
  import opened Seqs
  import opened Sorting
  import opened Entities
  import KnowledgeList

  const DayMs: int := 86400000
  const TrendDays: nat := 7
  const TopKnowledgeLimit: nat := 10
  const ScoreLimit: nat := 10

  /** The calendar day (UTC) of a time: `toISOString().split('T')[0]`. */
  function DayOf(t: int): int {
    t / DayMs
  }

  // ---------------------------------------------------------------- rounding

  /** `Math.round(num / den)`: the integer nearest the quotient, halves rounded up. */
  function RoundDiv(num: int, den: int): (r: int)
    requires den != 0
    ensures den > 0 ==> 2 * r * den - den <= 2 * num < 2 * r * den + den
    ensures den < 0 ==> r == RoundDiv(-num, -den)
    decreases if den < 0 then 1 else 0
  {
    if den < 0 then RoundDiv(-num, -den)
    else
      var r := (2 * num + den) / (2 * den);
      DivBounds(2 * num + den, 2 * den);
      r
  }

  /** Euclidean division by a positive divisor is floor division. */
  lemma DivBounds(a: int, b: int)
    requires b > 0
    ensures (a / b) * b <= a < (a / b) * b + b
  {
  }

  /** `Math.round(mastered / total * 100)` when there are mistakes, else 0. */
  function MasteryRate(mastered: nat, total: nat): (r: int)
    requires mastered <= total
    ensures total == 0 ==> r == 0
    ensures 0 <= r <= 100
    ensures total > 0 ==> 2 * r * total - total <= 200 * mastered < 2 * r * total + total
  {
    if total > 0 then
      var r := RoundDiv(100 * mastered, total);
      RateBounds(mastered, total, r);
      r
    else 0
  }

  /** A rounded percentage of a part of a whole lies between 0 and 100. */
  lemma RateBounds(part: int, whole: int, r: int)
    requires whole > 0
    requires 2 * r * whole - whole <= 200 * part < 2 * r * whole + whole
    ensures 0 <= part <= whole ==> 0 <= r <= 100
  {
    if 0 <= part <= whole {
      if r < 0 {
        MulLe(r, -1, whole);
      } else if r > 100 {
        MulLe(101, r, whole);
      }
    }
  }

  lemma MulLe(a: int, b: int, w: int)
    requires a <= b && w >= 0
    ensures a * w <= b * w
  {
    assert b * w - a * w == (b - a) * w;
  }

  /** `Math.round(score / totalScore * 100)`; a zero total gives NaN or Infinity, which JSON
      renders as null. */
  function Percent(score: int, total: int): (r: Option<int>)
    ensures r.None? <==> total == 0
    ensures total > 0 ==> 2 * r.value * total - total <= 200 * score < 2 * r.value * total + total
    ensures 0 <= score <= total && total > 0 ==> 0 <= r.value <= 100
  {
    if total == 0 then None
    else
      var r := RoundDiv(100 * score, total);
      (if total > 0 then RateBounds(score, total, r); Some(r) else Some(r))
  }

  // ---------------------------------------------------------------- overview

  datatype Overview = Overview(
    totalMistakes: nat,
    masteredMistakes: nat,
    unmasteredMistakes: int,
    masteryRate: int,
    totalHomeworks: nat,
    totalPractices: nat)

  predicate OwnMistake(user: UserId, m: Mistake) {
    m.userId == user
  }

  predicate OwnMastered(user: UserId, m: Mistake) {
    m.userId == user && m.mastered
  }

  predicate OwnUnmastered(user: UserId, m: Mistake) {
    m.userId == user && !m.mastered
  }

  predicate OwnCompleted(user: UserId, p: Practice) {
    p.userId == user && p.status == PracticeCompleted
  }

  function OverviewOf(st: Store, user: UserId): (o: Overview)
    ensures o.totalMistakes == |Filter(st.mistakes, m => OwnMistake(user, m))|
    ensures o.masteredMistakes == |Filter(st.mistakes, m => OwnMastered(user, m))|
    ensures o.unmasteredMistakes == o.totalMistakes - o.masteredMistakes
    ensures o.unmasteredMistakes == |Filter(st.mistakes, m => OwnUnmastered(user, m))|
    ensures o.masteryRate == MasteryRate(o.masteredMistakes, o.totalMistakes)
    ensures 0 <= o.masteryRate <= 100
    ensures o.totalMistakes == 0 ==> o.masteryRate == 0
    ensures o.totalHomeworks == |Filter(st.homeworks, (h: Homework) => h.userId == user)|
    ensures o.totalPractices == |Filter(st.practices, p => OwnCompleted(user, p))|
  {
    var own := (m: Mistake) => OwnMistake(user, m);
    var mastered := (m: Mistake) => OwnMastered(user, m);
    var unmastered := (m: Mistake) => OwnUnmastered(user, m);
    var total := |Filter(st.mistakes, own)|;
    var masteredCount := |Filter(st.mistakes, mastered)|;
    FilterSplit(st.mistakes, own, mastered, unmastered);
    Overview(total, masteredCount, total - masteredCount, MasteryRate(masteredCount, total),
             |Filter(st.homeworks, (h: Homework) => h.userId == user)|,
             |Filter(st.practices, p => OwnCompleted(user, p))|)
  }

  // ---------------------------------------------------------------- grouping

  function MistakeType(m: Mistake): string {
    m.questionType
  }

  // ---------------------------------------------------------------- trend

  /** One trend bucket: mistakes created and mistakes mastered on `day`. */
  datatype Bucket = Bucket(day: int, mistakes: nat, mastered: nat)

  /** Buckets for `n` consecutive days from `first`, oldest first; each counts the times that
      fall on its day. */
  function Buckets(created: seq<int>, masteredAt: seq<int>, first: int, n: nat): (r: seq<Bucket>)
    ensures |r| == n
    ensures forall k :: 0 <= k < n ==> r[k].day == first + k
    ensures forall k :: 0 <= k < n ==>
      r[k].mistakes == CountKey(created, DayOf, first + k) && r[k].mastered == CountKey(masteredAt, DayOf, first + k)
    decreases n
  {
    if n == 0 then []
    else [Bucket(first, CountKey(created, DayOf, first), CountKey(masteredAt, DayOf, first))]
         + Buckets(created, masteredAt, first + 1, n - 1)
  }

  /** The seven buckets ending today. */
  function Trend(created: seq<int>, masteredAt: seq<int>, today: int): (r: seq<Bucket>)
    ensures |r| == TrendDays
    ensures r[0].day == today - 6 && r[TrendDays - 1].day == today
  {
    Buckets(created, masteredAt, today - 6, TrendDays)
  }

  function CreatedSum(bs: seq<Bucket>): nat
    decreases |bs|
  {
    if |bs| == 0 then 0 else bs[0].mistakes + CreatedSum(bs[1..])
  }

  /** How many times fall on a day in `[lo, hi)`. */
  function CountInDays(times: seq<int>, lo: int, hi: int): (r: nat)
    ensures r <= |times|
    decreases |times|
  {
    if |times| == 0 then 0
    else (if lo <= DayOf(times[0]) < hi then 1 else 0) + CountInDays(times[1..], lo, hi)
  }

  /** The first day of a range splits off from the rest. */
  lemma {:induction false} CountInDaysSplit(times: seq<int>, lo: int, hi: int)
    requires lo < hi
    ensures CountInDays(times, lo, hi) == CountKey(times, DayOf, lo) + CountInDays(times, lo + 1, hi)
    decreases |times|
  {
    if |times| > 0 {
      CountInDaysSplit(times[1..], lo, hi);
    }
  }

  /** The buckets together count exactly the times that fall on one of their days. */
  lemma {:induction false} BucketsCount(created: seq<int>, masteredAt: seq<int>, first: int, n: nat)
    ensures CreatedSum(Buckets(created, masteredAt, first, n)) == CountInDays(created, first, first + n)
    decreases n
  {
    var bs := Buckets(created, masteredAt, first, n);
    if n == 0 {
      EmptyRange(created, first);
    } else {
      BucketsCount(created, masteredAt, first + 1, n - 1);
      assert bs[1..] == Buckets(created, masteredAt, first + 1, n - 1);
      CountInDaysSplit(created, first, first + n);
    }
  }

  lemma {:induction false} EmptyRange(times: seq<int>, lo: int)
    ensures CountInDays(times, lo, lo) == 0
    decreases |times|
  {
    if |times| > 0 {
      EmptyRange(times[1..], lo);
    }
  }

  /** The trend counts each fetched mistake created in the last seven calendar days once, and
      drops the rest: its total is at most the number fetched. */
  lemma TrendTotal(created: seq<int>, masteredAt: seq<int>, today: int)
    ensures CreatedSum(Trend(created, masteredAt, today)) == CountInDays(created, today - 6, today + 1)
    ensures CreatedSum(Trend(created, masteredAt, today)) <= |created|
  {
    BucketsCount(created, masteredAt, today - 6, TrendDays);
  }

  /** A mistake fetched because it is less than seven days old can still fall on the day before
      the oldest bucket and be counted in none. */
  lemma FetchedButNotBucketed()
    ensures var now := 10 * DayMs + DayMs / 2;
      var t := 3 * DayMs + 3 * DayMs / 4;
      && t >= now - 7 * DayMs
      && CreatedSum(Trend([t], [], DayOf(now))) == 0
  {
    var now := 10 * DayMs + DayMs / 2;
    var t := 3 * DayMs + 3 * DayMs / 4;
    assert DayOf(now) == 10 && DayOf(t) == 3;
    TrendTotal([t], [], 10);
    assert CountInDays([t][1..], 4, 11) == 0 by {
      assert [t][1..] == [];
    }
  }

  /** The caller's mistakes created since `cutoff`, as a filter. */
  function CreatedFrom(user: UserId, cutoff: int): Mistake -> bool {
    (m: Mistake) => m.userId == user && m.createdAt >= cutoff
  }

  /** The caller's mastered mistakes whose last mistake is since `cutoff`, as a filter. */
  function MasteredFrom(user: UserId, cutoff: int): Mistake -> bool {
    (m: Mistake) => m.userId == user && m.mastered && m.lastMistakeAt >= cutoff
  }

  /** The creation times of the caller's mistakes created since `cutoff`: one time per such
      mistake, in row order. */
  function CreatedSince(ms: seq<Mistake>, user: UserId, cutoff: int): (r: seq<int>)
    ensures |r| == |Filter(ms, CreatedFrom(user, cutoff))|
    ensures forall k :: 0 <= k < |r| ==> r[k] == Filter(ms, CreatedFrom(user, cutoff))[k].createdAt
    ensures forall t :: t in r <==> exists m :: m in ms && m.userId == user && m.createdAt >= cutoff && m.createdAt == t
  {
    var sel := Filter(ms, CreatedFrom(user, cutoff));
    var r := seq(|sel|, k requires 0 <= k < |sel| => sel[k].createdAt);
    TimesOfRows(sel, r, (m: Mistake) => m.createdAt);
    forall t ensures t in r <==> exists m :: m in ms && m.userId == user && m.createdAt >= cutoff && m.createdAt == t {
      if exists m :: m in ms && m.userId == user && m.createdAt >= cutoff && m.createdAt == t {
        var m :| m in ms && m.userId == user && m.createdAt >= cutoff && m.createdAt == t;
        assert CreatedFrom(user, cutoff)(m);
      }
    }
    r
  }

  /** The last-mistake times of the caller's mastered mistakes whose last mistake is since
      `cutoff`: one time per such mistake, in row order. */
  function MasteredSince(ms: seq<Mistake>, user: UserId, cutoff: int): (r: seq<int>)
    ensures |r| == |Filter(ms, MasteredFrom(user, cutoff))|
    ensures forall k :: 0 <= k < |r| ==> r[k] == Filter(ms, MasteredFrom(user, cutoff))[k].lastMistakeAt
    ensures forall t :: t in r <==> exists m :: m in ms && m.userId == user && m.mastered && m.lastMistakeAt >= cutoff && m.lastMistakeAt == t
  {
    var sel := Filter(ms, MasteredFrom(user, cutoff));
    var r := seq(|sel|, k requires 0 <= k < |sel| => sel[k].lastMistakeAt);
    TimesOfRows(sel, r, (m: Mistake) => m.lastMistakeAt);
    forall t ensures t in r <==> exists m :: m in ms && m.userId == user && m.mastered && m.lastMistakeAt >= cutoff && m.lastMistakeAt == t {
      if exists m :: m in ms && m.userId == user && m.mastered && m.lastMistakeAt >= cutoff && m.lastMistakeAt == t {
        var m :| m in ms && m.userId == user && m.mastered && m.lastMistakeAt >= cutoff && m.lastMistakeAt == t;
        assert MasteredFrom(user, cutoff)(m);
      }
    }
    r
  }

  /** A time is among the rows' times exactly when some row has it. */
  lemma TimesOfRows(rows: seq<Mistake>, r: seq<int>, time: Mistake -> int)
    requires |r| == |rows| && forall k :: 0 <= k < |r| ==> r[k] == time(rows[k])
    ensures forall t :: t in r <==> exists m :: m in rows && time(m) == t
  {
    forall t | exists m :: m in rows && time(m) == t ensures t in r {
      var m :| m in rows && time(m) == t;
      var k :| 0 <= k < |rows| && rows[k] == m;
      assert r[k] == t;
    }
  }

  // ---------------------------------------------------------------- top knowledge points

  predicate Counted(k: KnowledgePoint) {
    k.mistakeCount > 0
  }

  /** Knowledge points with a positive count, most frequent first, at most ten. */
  function TopKnowledge(kps: seq<KnowledgePoint>): (r: seq<KnowledgePoint>)
    ensures |r| == if TopKnowledgeLimit < |Filter(kps, Counted)| then TopKnowledgeLimit else |Filter(kps, Counted)|
    ensures multiset(r) <= multiset(Filter(kps, Counted))
    ensures forall k :: k in r ==> k in kps && k.mistakeCount > 0
    ensures forall i, j :: 0 <= i < j < |r| ==> r[i].mistakeCount >= r[j].mistakeCount
    ensures forall k :: k in kps && k.mistakeCount > 0 && k !in r ==>
      |r| == TopKnowledgeLimit && forall y :: y in r ==> y.mistakeCount >= k.mistakeCount
  {
    assert Total(KnowledgeList.ByCount);
    var sel := Filter(kps, Counted);
    TopKnowledgeOutranks(sel);
    TopK(sel, KnowledgeList.ByCount, TopKnowledgeLimit)
  }

  lemma TopKnowledgeOutranks(sel: seq<KnowledgePoint>)
    ensures var r := (assert Total(KnowledgeList.ByCount); TopK(sel, KnowledgeList.ByCount, TopKnowledgeLimit));
      && (forall k, y :: k in sel && k !in r && y in r ==> y.mistakeCount >= k.mistakeCount)
      && (forall i, j :: 0 <= i < j < |r| ==> r[i].mistakeCount >= r[j].mistakeCount)
  {
    assert Total(KnowledgeList.ByCount);
    var r := TopK(sel, KnowledgeList.ByCount, TopKnowledgeLimit);
    forall k, y | k in sel && k !in r && y in r ensures y.mistakeCount >= k.mistakeCount {
      assert KnowledgeList.ByCount(y, k);
    }
    forall i, j | 0 <= i < j < |r| ensures r[i].mistakeCount >= r[j].mistakeCount {
      assert KnowledgeList.ByCount(r[i], r[j]);
    }
  }

  // ---------------------------------------------------------------- practice scores

  datatype Score = Score(title: string, score: int, totalScore: int, percent: Option<int>, date: Option<int>)

  /** A completed sheet of the caller's with a recorded score. */
  predicate Scored(user: UserId, p: Practice) {
    p.userId == user && p.status == PracticeCompleted && p.userScore.Some?
  }

  /** `orderBy: { completedAt: 'desc' }`, sheets without a completion time last. */
  predicate RecentlyCompletedFirst(a: Practice, b: Practice) {
    match (a.completedAt, b.completedAt)
    case (Some(x), Some(y)) => x >= y
    case (Some(_), None) => true
    case (None, Some(_)) => false
    case (None, None) => true
  }

  lemma RecentlyCompletedFirstTotal()
    ensures Total(RecentlyCompletedFirst)
  {
  }

  function ScoreOf(p: Practice): (s: Score)
    requires p.userScore.Some?
    ensures s.score == p.userScore.value && s.totalScore == p.totalScore && s.title == p.title
    ensures s.percent == Percent(p.userScore.value, p.totalScore)
  {
    Score(p.title, p.userScore.value, p.totalScore, Percent(p.userScore.value, p.totalScore),
          match p.completedAt case Some(t) => Some(DayOf(t)) case None => None)
  }

  /** The caller's scored sheets, as a filter. */
  function ScoredBy(user: UserId): Practice -> bool {
    p => Scored(user, p)
  }

  /** The ten most recently completed scored sheets of the caller's, in that order. */
  function RecentScored(ps: seq<Practice>, user: UserId): (r: seq<Practice>)
    ensures |r| == if ScoreLimit < |Filter(ps, ScoredBy(user))| then ScoreLimit else |Filter(ps, ScoredBy(user))|
    ensures multiset(r) <= multiset(Filter(ps, ScoredBy(user)))
    ensures |Filter(ps, ScoredBy(user))| <= ScoreLimit ==> multiset(r) == multiset(Filter(ps, ScoredBy(user)))
    ensures forall p :: p in r ==> p in ps && Scored(user, p)
    ensures forall k :: 0 <= k < |r| ==> Scored(user, r[k])
    ensures forall i, j :: 0 <= i < j < |r| ==> RecentlyCompletedFirst(r[i], r[j])
    ensures forall p :: p in ps && Scored(user, p) && p !in r ==>
      |r| == ScoreLimit && forall y :: y in r ==> RecentlyCompletedFirst(y, p)
  {
    RecentlyCompletedFirstTotal();
    TopK(Filter(ps, ScoredBy(user)), RecentlyCompletedFirst, ScoreLimit)
  }

  function Scores(ps: seq<Practice>): (r: seq<Score>)
    requires forall k :: 0 <= k < |ps| ==> ps[k].userScore.Some?
    ensures |r| == |ps| && forall k :: 0 <= k < |ps| ==> r[k] == ScoreOf(ps[k])
  {
    seq(|ps|, k requires 0 <= k < |ps| => ScoreOf(ps[k]))
  }

  // ---------------------------------------------------------------- the route

  datatype Reply =
    | Unauthorized
    | Stats(
        overview: Overview,
        subjectStats: map<string, nat>,
        typeStats: map<string, nat>,
        topKnowledgePoints: seq<KnowledgePoint>,
        trend: seq<Bucket>,
        practiceScores: seq<Score>)

  /** The caller's mistakes, as a filter. */
  function Owns(user: UserId): Mistake -> bool {
    m => OwnMistake(user, m)
  }

  /** `groupBy subject` over the caller's mistakes: each subject present, with its count. */
  function SubjectCounts(ms: seq<Mistake>, user: UserId): (r: map<string, nat>)
    ensures forall s :: s in r <==> exists m :: m in ms && m.userId == user && m.subject == s
    ensures forall s :: s in r ==> r[s] == CountWhere(ms, Owns(user), KnowledgeList.MistakeSubject, s)
  {
    GroupWhere(ms, Owns(user), KnowledgeList.MistakeSubject)
  }

  /** `groupBy questionType` over the caller's mistakes: each type present, with its count. */
  function TypeCounts(ms: seq<Mistake>, user: UserId): (r: map<string, nat>)
    ensures forall t :: t in r <==> exists m :: m in ms && m.userId == user && m.questionType == t
    ensures forall t :: t in r ==> r[t] == CountWhere(ms, Owns(user), MistakeType, t)
  {
    GroupWhere(ms, Owns(user), MistakeType)
  }

  /** The score entries of the caller's ten most recently completed scored sheets. */
  function PracticeScores(ps: seq<Practice>, user: UserId): (r: seq<Score>)
    ensures |r| == |RecentScored(ps, user)| <= ScoreLimit
    ensures forall k :: 0 <= k < |r| ==> r[k] == ScoreOf(RecentScored(ps, user)[k])
    ensures forall s :: s in r ==> exists p :: p in ps && Scored(user, p) && s == ScoreOf(p)
  {
    var recent := RecentScored(ps, user);
    ScoresFromRows(recent, ps, user);
    Scores(recent)
  }

  /** Score entries of rows taken from `ps` are entries of scored sheets of `ps`. */
  lemma ScoresFromRows(rows: seq<Practice>, ps: seq<Practice>, user: UserId)
    requires forall k :: 0 <= k < |rows| ==> rows[k] in ps && Scored(user, rows[k])
    ensures forall k :: 0 <= k < |rows| ==> rows[k].userScore.Some?
    ensures forall s :: s in Scores(rows) ==> exists p :: p in ps && Scored(user, p) && s == ScoreOf(p)
  {
    var scores := Scores(rows);
    forall s | s in scores ensures exists p :: p in ps && Scored(user, p) && s == ScoreOf(p) {
      var k :| 0 <= k < |scores| && scores[k] == s;
    }
  }

  /** The route at time `now`. */
  function Get(st: Store, user: Option<UserId>, now: int): (r: Reply)
    ensures r.Unauthorized? <==> user.None?
    ensures r.Stats? ==> r.overview == OverviewOf(st, user.value)
    ensures r.Stats? ==> r.subjectStats == SubjectCounts(st.mistakes, user.value)
    ensures r.Stats? ==> r.typeStats == TypeCounts(st.mistakes, user.value)
    ensures r.Stats? ==> r.practiceScores == PracticeScores(st.practices, user.value)
    ensures r.Stats? ==> forall s :: s in r.subjectStats <==> exists m :: m in st.mistakes && m.userId == user.value && m.subject == s
    ensures r.Stats? ==> forall t :: t in r.typeStats <==> exists m :: m in st.mistakes && m.userId == user.value && m.questionType == t
    ensures r.Stats? ==> r.topKnowledgePoints == TopKnowledge(st.knowledgePoints)
    ensures r.Stats? ==> |r.trend| == TrendDays
    ensures r.Stats? ==> forall k :: 0 <= k < TrendDays ==> r.trend[k].day == DayOf(now) - 6 + k
    ensures r.Stats? ==> r.trend == Trend(CreatedSince(st.mistakes, user.value, now - 7 * DayMs),
                                          MasteredSince(st.mistakes, user.value, now - 7 * DayMs), DayOf(now))
    ensures r.Stats? ==> |r.practiceScores| <= ScoreLimit
    ensures r.Stats? ==> forall s :: s in r.practiceScores ==> exists p :: p in st.practices && Scored(user.value, p) && s == ScoreOf(p)
  {
    if user.None? then Unauthorized
    else
      var u := user.value;
      var cutoff := now - 7 * DayMs;
      Stats(OverviewOf(st, u),
            SubjectCounts(st.mistakes, u),
            TypeCounts(st.mistakes, u),
            TopKnowledge(st.knowledgePoints),
            Trend(CreatedSince(st.mistakes, u, cutoff), MasteredSince(st.mistakes, u, cutoff), DayOf(now)),
            PracticeScores(st.practices, u))
  }

  /** When the caller has at most ten scored sheets, every one of them has its score entry,
      and there is one entry per sheet. */
  lemma EveryScoreListed(ps: seq<Practice>, user: UserId, p: Practice)
    requires |Filter(ps, ScoredBy(user))| <= ScoreLimit
    requires p in ps && Scored(user, p)
    ensures ScoreOf(p) in PracticeScores(ps, user)
    ensures |PracticeScores(ps, user)| == |Filter(ps, ScoredBy(user))|
  {
    TakesEveryScored(ps, user, p);
    var recent := RecentScored(ps, user);
    var k :| 0 <= k < |recent| && recent[k] == p;
    assert PracticeScores(ps, user)[k] == ScoreOf(p);
  }

  /** With at most ten scored sheets, the recent ones are all of them. */
  lemma TakesEveryScored(ps: seq<Practice>, user: UserId, p: Practice)
    requires |Filter(ps, ScoredBy(user))| <= ScoreLimit
    requires p in ps && Scored(user, p)
    ensures p in RecentScored(ps, user)
  {
    assert ScoredBy(user)(p);
    assert p in multiset(Filter(ps, ScoredBy(user)));
  }
}

=== FILE: text.dfy ===
/** String helpers with JavaScript meaning: prefix/suffix/substring tests, `split(c).pop()`,
    ASCII lower-casing and decimal rendering of numbers. */
module Text {
  import opened Common

  /** `s.startsWith(prefix)`. */
  predicate StartsWith(s: string, prefix: string) {
    |prefix| <= |s| && s[..|prefix|] == prefix
  }

  /** A concatenation starts with its left part. */
  lemma StartsWithConcat(a: string, b: string)
    ensures StartsWith(a + b, a)
  {
    assert (a + b)[..|a|] == a;
  }

  /** A prefix of a prefix is a prefix. */
  lemma StartsWithTrans(s: string, mid: string, prefix: string)
    requires StartsWith(s, mid) && StartsWith(mid, prefix)
    ensures StartsWith(s, prefix)
  {
    assert s[..|prefix|] == mid[..|prefix|];
  }

  /** `s.endsWith(suffix)`. */
  predicate EndsWith(s: string, suffix: string) {
    |suffix| <= |s| && s[|s| - |suffix|..] == suffix
  }

  /** `s.includes(sub)`: `sub` starts at some position of `s`. */
  predicate Contains(s: string, sub: string)
    decreases |s|
  {
    StartsWith(s, sub) || (|s| > 0 && Contains(s[1..], sub))
  }

  /** `sub` occurs in `s` at position `i`. */
  predicate OccursAt(s: string, sub: string, i: int) {
    0 <= i && i + |sub| <= |s| && s[i..i + |sub|] == sub
  }

  /** The recursive substring test agrees with "some window of `s` equals `sub`", both ways. */
  lemma {:induction false} ContainsIffOccurs(s: string, sub: string)
    ensures Contains(s, sub) <==> exists i :: OccursAt(s, sub, i)
    decreases |s|
  {
    assert OccursAt(s, sub, 0) <==> StartsWith(s, sub);
    if StartsWith(s, sub) {
    } else if |s| == 0 {
      assert forall i :: OccursAt(s, sub, i) ==> i == 0;
    } else {
      ContainsIffOccurs(s[1..], sub);
      if exists i :: OccursAt(s[1..], sub, i) {
        var i :| OccursAt(s[1..], sub, i);
        assert s[1..][i..i + |sub|] == s[i + 1..i + 1 + |sub|];
        assert OccursAt(s, sub, i + 1);
      }
      if exists i :: OccursAt(s, sub, i) {
        var i :| OccursAt(s, sub, i);
        assert i != 0;
        assert s[1..][i - 1..i - 1 + |sub|] == s[i..i + |sub|];
        assert OccursAt(s[1..], sub, i - 1);
      }
    }
  }

  /** Text glued around `sub` contains `sub`. */
  lemma {:induction false} ContainsInside(a: string, sub: string, b: string)
    ensures Contains(a + sub + b, sub)
    decreases |a|
  {
    if |a| == 0 {
      assert a + sub + b == sub + b;
      assert (sub + b)[..|sub|] == sub;
    } else {
      assert (a + sub + b)[1..] == a[1..] + sub + b;
      ContainsInside(a[1..], sub, b);
    }
  }

  /** Substring containment passes outwards: a window of a window of `s` is a window of `s`. */
  lemma ContainsTrans(s: string, mid: string, sub: string)
    requires Contains(s, mid) && Contains(mid, sub)
    ensures Contains(s, sub)
  {
    ContainsIffOccurs(s, mid);
    ContainsIffOccurs(mid, sub);
    var i :| OccursAt(s, mid, i);
    var j :| OccursAt(mid, sub, j);
    forall k | 0 <= k < |sub| ensures s[i + j + k] == sub[k] {
      assert mid[j..j + |sub|][k] == sub[k];
      assert s[i..i + |mid|][j + k] == mid[j + k];
    }
    assert s[i + j..i + j + |sub|] == sub;
    assert OccursAt(s, sub, i + j);
    ContainsIffOccurs(s, sub);
  }

  /** `s.split(c).pop()`: the text after the last `c`, or all of `s` when `c` does not occur. */
  function LastSegment(s: string, c: char): (r: string)
    ensures EndsWith(s, r)
    ensures c !in r
    ensures r == s || s[|s| - |r| - 1] == c
    decreases |s|
  {
    if |s| == 0 then ""
    else if s[|s| - 1] == c then ""
    else
      var init := LastSegment(s[..|s| - 1], c);
      assert s[..|s| - 1][|s| - 1 - |init|..] == s[|s| - 1 - |init|..|s| - 1];
      init + [s[|s| - 1]]
  }

  /** The segment is THE longest `c`-free suffix: any suffix with the same three properties equals it. */
  lemma LastSegmentUnique(s: string, c: char, t: string)
    requires EndsWith(s, t) && c !in t && (t == s || s[|s| - |t| - 1] == c)
    ensures t == LastSegment(s, c)
  {
    SegmentsAgree(s, c, t, LastSegment(s, c));
  }

  /** Two `c`-free suffixes of `s`, each all of `s` or preceded by `c`, are equal: the longer one
      would contain the `c` in front of the shorter one. */
  lemma SegmentsAgree(s: string, c: char, t: string, r: string)
    requires EndsWith(s, t) && c !in t && (t == s || s[|s| - |t| - 1] == c)
    requires EndsWith(s, r) && c !in r && (r == s || s[|s| - |r| - 1] == c)
    ensures t == r
  {
    if |t| < |r| {
      CharOfSuffix(s, r, |s| - |t| - 1);
    } else if |r| < |t| {
      CharOfSuffix(s, t, |s| - |r| - 1);
    } else {
      assert t == s[|s| - |t|..] == r;
    }
  }

  /** A position of `s` inside its suffix `r` holds a character of `r`. */
  lemma CharOfSuffix(s: string, r: string, i: int)
    requires EndsWith(s, r) && |s| - |r| <= i < |s|
    ensures s[i] in r
  {
    assert r[i - (|s| - |r|)] == s[i];
  }

  /** ASCII lower-casing of one character. */
  function LowerChar(ch: char): char {
    if 'A' <= ch <= 'Z' then (ch as int + 32) as char else ch
  }

  /** `s.toLowerCase()` restricted to the ASCII letters. */
  function ToLowerAscii(s: string): (r: string)
    ensures |r| == |s|
    ensures forall i :: 0 <= i < |s| ==> r[i] == LowerChar(s[i])
  {
    seq(|s|, i requires 0 <= i < |s| => LowerChar(s[i]))
  }

  /** One decimal digit. */
  function DigitChar(d: nat): (ch: char)
    requires d < 10
    ensures '0' <= ch <= '9'
    ensures ch as int - '0' as int == d
  {
    ('0' as int + d) as char
  }

  predicate IsDigits(s: string) {
    forall i :: 0 <= i < |s| ==> '0' <= s[i] <= '9'
  }

  /** `String(n)` for a natural number: its decimal digits, no leading zero. */
  function NatToString(n: nat): (r: string)
    ensures |r| >= 1 && IsDigits(r)
    ensures r[0] == '0' ==> n == 0
    ensures n < 10 <==> |r| == 1
    decreases n
  {
    if n < 10 then [DigitChar(n)] else NatToString(n / 10) + [DigitChar(n % 10)]
  }

  /** The number a string of decimal digits denotes. */
  function DigitsValue(s: string): nat
    requires IsDigits(s)
  {
    if |s| == 0 then 0
    else DigitsValue(s[..|s| - 1]) * 10 + (s[|s| - 1] as int - '0' as int)
  }

  /** `parseInt` on a plain decimal string; anything else is rejected. */
  function ParseNat(s: string): Option<nat> {
    if |s| > 0 && IsDigits(s) then Some(DigitsValue(s)) else None
  }

  /** Reading back the rendered digits gives the number again. */
  lemma {:induction false} NatToStringRoundTrip(n: nat)
    ensures ParseNat(NatToString(n)) == Some(n)
    decreases n
  {
    var r := NatToString(n);
    if n < 10 {
      assert r[..|r| - 1] == [];
      assert DigitsValue([]) == 0;
      assert DigitsValue(r) == DigitsValue(r[..|r| - 1]) * 10 + (r[0] as int - '0' as int);
    } else {
      NatToStringRoundTrip(n / 10);
      assert r[..|r| - 1] == NatToString(n / 10);
    }
  }

  /** Distinct numbers render as distinct strings. */
  lemma NatToStringInjective(m: nat, n: nat)
    requires NatToString(m) == NatToString(n)
    ensures m == n
  {
    NatToStringRoundTrip(m);
    NatToStringRoundTrip(n);
  }

  /** `String(n).padStart(2, '0')`. */
  function Pad2(n: nat): (r: string)
    ensures |r| >= 2 && IsDigits(r)
    ensures ParseNat(r) == Some(n)
    ensures n >= 10 ==> r == NatToString(n)
  {
    NatToStringRoundTrip(n);
    if n < 10 then
      var r := "0" + NatToString(n);
      assert r[..|r| - 1] == "0";
      assert "0"[..0] == [];
      assert DigitsValue("0") == 0;
      assert DigitsValue(r) == DigitsValue(r[..|r| - 1]) * 10 + (r[1] as int - '0' as int);
      r
    else NatToString(n)
  }

  /** `String(i)` for an integer: a minus sign before the digits of a negative number. */
  function IntToString(i: int): (r: string)
    ensures |r| >= 1
    ensures i < 0 <==> r[0] == '-'
  {
    if i < 0 then "-" + NatToString(-i) else NatToString(i)
  }

  /** `parts.join(sep)`. */
  function Join(parts: seq<string>, sep: string): string {
    if |parts| == 0 then ""
    else if |parts| == 1 then parts[0]
    else parts[0] + sep + Join(parts[1..], sep)
  }

  /** Every joined part is a substring of the joined text. */
  lemma {:induction false} JoinContainsPart(parts: seq<string>, sep: string, k: nat)
    requires k < |parts|
    ensures Contains(Join(parts, sep), parts[k])
    decreases |parts|
  {
    if |parts| == 1 {
      ContainsInside("", parts[0], "");
      assert "" + parts[0] + "" == parts[0];
    } else if k == 0 {
      ContainsInside("", parts[0], sep + Join(parts[1..], sep));
      assert "" + parts[0] + (sep + Join(parts[1..], sep)) == Join(parts, sep);
    } else {
      JoinContainsPart(parts[1..], sep, k - 1);
      var rest := Join(parts[1..], sep);
      ContainsInside(parts[0] + sep, rest, "");
      assert parts[0] + sep + rest + "" == Join(parts, sep);
      ContainsTrans(Join(parts, sep), rest, parts[k]);
    }
  }
}

=== FILE: upload.dfy ===
/** `POST /api/upload`: hands a signed-in caller an upload policy for one image file, after
    checking that the object store is configured and that the file name carries an image
    extension. */
module Upload {
  import opened Common
  import opened Text
  import opened Entities
  import opened Oss

  const AllowedExtensions: seq<string> := ["jpg", "jpeg", "png", "gif", "webp", "heic"]

  /** The request body: text `request.json()` cannot read (or JSON `null`, which cannot be
      destructured), or an object whose `fileName` may be absent. */
  datatype Body = NotJson | Fields(fileName: Option<string>)

  datatype Reply =
    | Unauthorized
    | NotConfigured
    | MissingFileName
    | UnsupportedType
    | Signed(signature: UploadSignature)
    | ServerError
  {
    function Status(): int {
      match this
      case Unauthorized => 401
      case NotConfigured => 500
      case MissingFileName => 400
      case UnsupportedType => 400
      case Signed(_) => 200
      case ServerError => 500
    }
  }

  /** The extension the route checks: the last dot-segment, lower-cased. */
  function CheckedExtension(fileName: string): string {
    ToLowerAscii(LastSegment(fileName, '.'))
  }

  /** The file names the route lets through. */
  predicate AllowedName(fileName: string) {
    var ext := CheckedExtension(fileName);
    ext != "" && ext in AllowedExtensions
  }

  /** A name the route lets through is stored under its own extension, which lower-cased is one
      of the image extensions; the default `jpg` is never reached through the check. */
  lemma AllowedNameKeepsExtension(fileName: string)
    requires AllowedName(fileName)
    ensures Extension(fileName) == LastSegment(fileName, '.')
    ensures ToLowerAscii(Extension(fileName)) in AllowedExtensions
  {
  }

  /** The route. `clock` and `nonce` are the time and randomness the signing helper draws. */
  function Post(env: Env, user: Option<UserId>, body: Body, clock: Clock, nonce: string): (r: Reply)
    ensures r.Unauthorized? <==> user.None?
    ensures r.NotConfigured? <==> user.Some? && !IsConfigured(env)
    ensures r.ServerError? <==> user.Some? && IsConfigured(env) && body.NotJson?
    ensures r.MissingFileName? <==> user.Some? && IsConfigured(env) && body.Fields? && !Given(body.fileName)
    ensures r.UnsupportedType? <==>
      user.Some? && IsConfigured(env) && body.Fields? && Given(body.fileName) && !AllowedName(body.fileName.value)
    ensures r.Signed? ==>
      && body.Fields? && Given(body.fileName) && AllowedName(body.fileName.value)
      && GenerateUploadSignature(env, body.fileName.value, user.value, clock, nonce) == Some(r.signature)
  {
    if user.None? then Unauthorized
    else if !IsConfigured(env) then NotConfigured
    else if body.NotJson? then ServerError
    else if !Given(body.fileName) then MissingFileName
    else if !AllowedName(body.fileName.value) then UnsupportedType
    else
      var s := GenerateUploadSignature(env, body.fileName.value, user.value, clock, nonce);
      Signed(s.value)
  }

  /** Every request that passes the guards is signed: signing cannot fail once the store is
      configured. */
  lemma GuardsPassedMeansSigned(env: Env, user: UserId, fileName: string, clock: Clock, nonce: string)
    requires IsConfigured(env) && fileName != "" && AllowedName(fileName)
    ensures Post(env, Some(user), Fields(Some(fileName)), clock, nonce).Signed?
  {
  }

  /** The extension check ignores case. */
  lemma UpperCaseExtensionAllowed()
    ensures AllowedName("photo.JPG")
  {
    LastSegmentUnique("photo.JPG", '.', "JPG");
    assert ToLowerAscii("JPG") == "jpg";
  }

  /** Only the last dot-segment counts: an image extension earlier in the name does not help. */
  lemma OnlyLastSegmentChecked()
    ensures !AllowedName("image.jpg.exe")
  {
    LastSegmentUnique("image.jpg.exe", '.', "exe");
    assert ToLowerAscii("exe") == "exe";
  }

  /** A name without a dot is judged as a whole: "png" passes, "photo" does not. */
  lemma DotlessNameJudgedWhole()
    ensures AllowedName("png")
    ensures !AllowedName("photo")
  {
    BareExtensionAllowed();
    BareWordRefused();
  }

  lemma BareExtensionAllowed()
    ensures AllowedName("png")
  {
    LastSegmentUnique("png", '.', "png");
    assert ToLowerAscii("png") == "png";
  }

  lemma BareWordRefused()
    ensures !AllowedName("photo")
  {
    LastSegmentUnique("photo", '.', "photo");
    assert ToLowerAscii("photo") == "photo";
  }

  /** A name ending in a dot has an empty extension and is refused. */
  lemma TrailingDotRefused()
    ensures !AllowedName("photo.")
  {
    LastSegmentUnique("photo.", '.', "");
  }

  /** A signed key keeps the caller's extension as written, never the "jpg" fallback, and lies in
      the caller's directory for the month, under a policy capped at 10 MiB. */
  lemma SignedKeyKeepsExtension(env: Env, user: Option<UserId>, body: Body, clock: Clock, nonce: string)
    requires Post(env, user, body, clock, nonce).Signed?
    ensures var s := Post(env, user, body, clock, nonce).signature;
      && LastSegment(s.key, '.') == LastSegment(body.fileName.value, '.')
      && ToLowerAscii(LastSegment(s.key, '.')) in AllowedExtensions
      && StartsWith(s.key, UploadDir(user.value, clock.year, clock.month))
      && s.policy.maxLength == MaxUploadBytes
  {
    KeyExtension(env, body.fileName.value, user.value, clock, nonce);
  }
}
